=== FILE: README.md ===
# fire-hpp argument resolution, modelled in Dafny

fire-hpp turns the parameters of a C++ `main`-like function into command-line
arguments. Each parameter's default value is an `arg(...)` query. A query
names an identifier and the C++ type the value converts to. The identifier is
a short and/or long flag (`-x`, `--long`), a positional index (`arg(0)`) or the
variadic catch-all (`arg(variadic())`). This project models the core that
answers these queries:

- **Identifiers** (`identifier.dfy`): building an identifier from its names,
  with every rejection the constructor makes. Also overlap and containment,
  the help and longer display forms, and the ordering used for help listings.
- **Tokenizer** (`tokenizer.dfy`): reading the argument vector. It handles
  the `--` separator, `name=value` assignments, clusters of short flags such
  as `-abc`, negative numbers read as values, and a flag joined to the next
  token when the program queries that flag with a non-boolean type. Malformed
  and repeated flag names are refused.
- **Conversion** (`conversion.dfy`): turning raw text into booleans, strings
  and signed or unsigned 16-, 32- and 64-bit integers, and checking defaults
  against the requested type.
- **Matcher** (`matcher.dfy`): one argument cycle, lenient or strict.
  - Lenient: queries may repeat, and the catch-all takes every positional.
  - Strict: a declared number of queries is expected, and overlapping queries
    are refused. Every token must be claimed once the declared count is
    reached. Lookup errors are deferred to that point, and `-h`/`--help`
    turns the end of the cycle into the help exit.
- **Optional** (`optional.dfy`): the `fire::optional` wrapper returned for
  optional queries.
- **Logger and introspection** (`logger.dfy`, `introspection.dfy`): the two
  phases of a fired program.
  - Discovery logs every query, which gives the number of queries and the
    flags that take a value by assignment.
  - Execution then runs the queries on a strict cycle built from that log.

The behavioural source of truth is the repository's test suite,
`tests/tests.cpp`. Every assertion in it is restated as a lemma about the
model, except those listed under "## Left out"; the `*_cases.dfy` modules
hold these lemmas. The tests fix these behaviours, which the model follows:

- Lenient mode allows repeating a query. `arg("-i", 2)` then `arg("-i")`
  (tests/tests.cpp:349-365), and `arg(0)` twice (tests/tests.cpp:383-402),
  are answered both times.
- In lenient mode the catch-all answers with all positional values, including
  those already read by index (tests/tests.cpp:400-401).

Two behaviours of strict mode are modelling choices that the tests allow but
do not decide:

- A named query with a default is answered with the default when its flag is
  absent. In tests/tests.cpp:547-552 the cycle fails either way; in the model
  it fails on the repeated query.
- A lookup error in a query before the last declared one (a missing argument,
  a failed conversion) does not stop the cycle. It is reported when the
  declared count is reached, so `-h` still wins over a query whose argument
  is missing (tests/tests.cpp:285-286).

Integers are unbounded in Dafny. The ranges of `int16_t` … `uint64_t` are
stated explicitly (`Conversion.MinOf`/`MaxOf`), and a value outside the
requested range is an error, not a wrap-around.

## Model

| member | source | states |
|---|---|---|
| Optionals.HasValue | tests/tests.cpp:73-101 | `has_value()` and the conversion to `bool` are true exactly when reading the value succeeds |
| Optionals.ValueOr | tests/tests.cpp:73-101 | `value_or` yields the value `value()` reads whenever that succeeds, and the fallback exactly when it fails |
| Optionals.Value | tests/tests.cpp:73-84 | reading fails, with the empty-optional error, exactly when the wrapper is empty; otherwise it yields the held value |
| Optionals.FromAnswer | tests/tests.cpp:521-538 | an absent query answer becomes an empty optional, and a single answer an optional holding that value |
| Optionals.WrapperCases | tests/tests.cpp:73-101 | an empty wrapper has no value, gives 3 from `value_or(3)` and fails to read; a wrapper of 1 has a value, gives 1 from both |
| Identifiers.PrependHyphens | tests/tests.cpp:105-108 | the result ends with the bare name, preceded only by hyphens: exactly two before a name of two or more characters, one before a single character, none for the empty name; a one-character name becomes a valid short alias unless it is a hyphen or a digit |
| Identifiers.PrependHyphensValid | tests/tests.cpp:105-108 | a bare name becomes a valid alias exactly when it is non-empty, does not start with a hyphen, and is not a single digit |
| Identifiers.GatherSucceeds | tests/tests.cpp:111-130 | scanning the names succeeds exactly when every name is well formed, allowed for the kind of identifier, and no two fill the same slot |
| Identifiers.GatherFills | tests/tests.cpp:111-130 | after a successful scan each slot holds a name of that class from the list, and a slot is filled when some name has that class |
| Identifiers.GatherHasAlias | tests/tests.cpp:111-130 | the scanned identifier has an alias exactly when some given name is alias-shaped |
| Identifiers.MakeIdentifierAccepts | tests/tests.cpp:111-130 | the constructor accepts exactly the name lists of the independent reference definition `Acceptable` |
| Identifiers.MakeIdentifierAliases | tests/tests.cpp:111-130 | the aliases of a constructed identifier are exactly the alias-shaped names it was given |
| Identifiers.OverlapsShared | tests/tests.cpp:132-160 | overlap is symmetric; for valid non-variadic identifiers it means sharing an alias or an index; named and positional identifiers never overlap |
| Identifiers.OverlapsReflexive | tests/tests.cpp:132-160 | every valid identifier overlaps itself |
| Identifiers.Longer | tests/tests.cpp:199-209 | for a valid named identifier the result is one of its aliases, and no alias of it is longer |
| Identifiers.Help | tests/tests.cpp:186-197 | a named identifier with two aliases shows the short alias, a bar and the long alias; with one alias it shows that alias; a positional shows a `<…>` title |
| Identifiers.LessStrictOrder | tests/tests.cpp:211-243 | the help-listing order is irreflexive, asymmetric and transitive |
| Identifiers.LessGroups | tests/tests.cpp:211-243 | positionals come before named identifiers, and a required named identifier before an optional one |
| IdentifierCases.PrependHyphensCases | tests/tests.cpp:105-108 | `""`, `a`, `ab`, `abc` become `""`, `-a`, `--ab`, `--abc` |
| IdentifierCases.ConstructorAccepts | tests/tests.cpp:114-117 | `-l`/`--long` in either order, or alone, build the expected named identifier |
| IdentifierCases.ConstructorAcceptsMore | tests/tests.cpp:118-120 | an empty description, and a positional with or without description, are accepted; so are the names `--1e3` and `--a3` of tests/tests.cpp:328-329 |
| IdentifierCases.ConstructorRejects | tests/tests.cpp:122-125 | a repeated alias, and an alias given to a positional, are refused |
| IdentifierCases.ConstructorRejectsMalformed | tests/tests.cpp:126-129 | no alias, `-long` and `--l` are refused |
| IdentifierCases.NamingRejected | tests/tests.cpp:322-327 | `s`, `--s`, `---cmon` and `-1` are refused, and so is `-x` given a position, as tests/tests.cpp:393 also requires |
| IdentifierCases.OverlapCases | tests/tests.cpp:144-159 | the overlap table of the test holds: shared aliases overlap, a named identifier never overlaps a positional, and positionals overlap by index |
| IdentifierCases.ContainsCases | tests/tests.cpp:170-183 | alias and index containment of the test's identifiers |
| IdentifierCases.HelpCases | tests/tests.cpp:189-191 | help forms `-l`, the two aliases joined by a bar, and `--long` |
| IdentifierCases.HelpCasesPositional | tests/tests.cpp:193-196 | help forms `<0>`, `<name>` and `...` |
| IdentifierCases.LongerCases | tests/tests.cpp:202-208 | longer forms of named, positional and variadic identifiers |
| IdentifierCases.LessByAlias | tests/tests.cpp:214-232 | named identifiers order by their longer alias, ignoring letter case |
| IdentifierCases.LessByLongAlias | tests/tests.cpp:220-221 | the long alias, not the short one, decides the order |
| IdentifierCases.LessPositionalsFirst | tests/tests.cpp:223-242 | positionals order by index and precede named identifiers |
| IdentifierCases.LessRequiredFirst | tests/tests.cpp:234-237 | a required named identifier precedes an optional one whatever the names |
| Text.LexLessTransitive | tests/tests.cpp:211-243 | the string order used for help listings is transitive |
| Text.LexLessTotal | tests/tests.cpp:211-243 | any two different strings are ordered one way or the other |
| Text.ShowNat | tests/tests.cpp:186-209 | the rendering of an index is a digit string whose value is the index, without a leading zero |
| Tokenizer.Expand | tests/tests.cpp:254-260 | a cluster `-abc` names one flag `-a`, `-b`, `-c` per letter, in order |
| Tokenizer.Occurs | tests/tests.cpp:246-252 | a flag name occurs exactly when some named token carries it |
| Tokenizer.CheckNames | tests/tests.cpp:246-252 | no error is reported exactly when all flag names are valid aliases and pairwise distinct |
| Tokenizer.Tokenize | tests/tests.cpp:246-277 | a successful tokenization has valid, distinct flag names |
| Tokenizer.AfterSeparator | tests/tests.cpp:418-426 | after `--` every token is positional, verbatim and in order |
| Tokenizer.SeparatorSplits | tests/tests.cpp:418-426 | the first `--` splits the line: tokens before it are read normally, and those after it are appended verbatim as positionals |
| Tokenizer.AssignmentSplitsAtFirstEquals | tests/tests.cpp:262-269 | in `name=value` only the first `=` separates the name from the value |
| Tokenizer.ClusterExpands | tests/tests.cpp:254-260 | a single-hyphen cluster without `=` reads as the flags of its letters |
| CommandLines.ScanRender | tests/tests.cpp:246-277 | reading back a command line rendered from pieces (values, flags, clusters, assignments, joined flags) yields exactly the tokens the pieces mean |
| CommandLines.TokenizeRender | tests/tests.cpp:246-277 | the tokenizer round-trips a rendered command line whose flag names are distinct |
| TokenizerCases.RefusedShortLong | tests/tests.cpp:247-247 | `--i`, a one-character name behind two hyphens, is refused |
| TokenizerCases.RefusedClusterValue | tests/tests.cpp:248-248 | `-ab=0`, a value assigned to a cluster of short flags, is refused |
| TokenizerCases.RefusedHyphens | tests/tests.cpp:380-380 | `---x`, three leading hyphens, is refused |
| TokenizerCases.RepeatedInCluster | tests/tests.cpp:249-249 | `-aa` is refused |
| TokenizerCases.RepeatedAssignment | tests/tests.cpp:250-250 | `-x=0 -x 0` is refused because `-x` is repeated |
| TokenizerCases.RepeatedFlag | tests/tests.cpp:251-251 | `--flag --flag` is refused |
| TokenizerCases.FlagsAndCluster | tests/tests.cpp:255-255 | `-a -bcd` reads as four bare flags |
| TokenizerCases.Equations | tests/tests.cpp:263-263 | `-a=b --abc=xy -x=y=z` reads as three assignments, the last with value `y=z` |
| TokenizerCases.AssignmentThenValue | tests/tests.cpp:268-268 | `-a=b 123` reads as one assignment and one positional |
| TokenizerCases.Values | tests/tests.cpp:272-274 | a line of plain values reads as those positionals, in order |
| TokenizerCases.BareFlagThenValue | tests/tests.cpp:275-275 | `-x 0` with `-x` not taking a value reads as a bare flag and a positional |
| TokenizerCases.JoinedFlag | tests/tests.cpp:602-604 | `-x 1` with `-x` taking a value reads as one named argument with value `1` |
| TokenizerCases.HelpLines | tests/tests.cpp:281-283 | `-h`/`--help`, alone or before a value, read as a bare flag |
| TokenizerCases.HelpAndFlag | tests/tests.cpp:288-288 | `-h -i 1` reads as two bare flags and a positional |
| TokenizerCases.CorrectParsing | tests/tests.cpp:350-350 | the correct-parsing line reads as its four named arguments and one positional |
| TokenizerCases.ThreeAssignments | tests/tests.cpp:368-368 | `-i=1 -f=… -s=test` reads as three assignments |
| TokenizerCases.ValueAssignmentValue | tests/tests.cpp:391-391 | `0 -x=3 1` reads as positionals `0`, `1` and one assignment |
| TokenizerCases.SeparatorAlone | tests/tests.cpp:419-419 | a lone `--` reads as nothing |
| TokenizerCases.DoubleDash | tests/tests.cpp:423-423 | everything after `--`, hyphens included, is positional |
| TokenizerCases.NegativeValues | tests/tests.cpp:558-562 | a negative number before an assignment `-a=<v>` is a positional, and the assignment keeps its value `v` |
| TokenizerCases.Precision | tests/tests.cpp:429-435 | the precision line reads as its four assignments |
| TokenizerCases.DashedValues | tests/tests.cpp:471-471 | `-x -1 -y=-1 -z=-name -w=--name -q=---name` reads as five named arguments with hyphenated values |
| Conversion.ParseInteger | tests/tests.cpp:349-381 | a parsed integer has the sign of the text's leading minus, and the text is digits after it |
| Conversion.ShowInt | tests/tests.cpp:428-454 | the base-10 text of an integer parses back to it |
| Conversion.ConvertInteger | tests/tests.cpp:428-454 | conversion succeeds exactly when the text is a base-10 integer inside the width's range, and yields that integer |
| Conversion.ConvertShown | tests/tests.cpp:428-454 | the text of any integer converts exactly when the width can hold it |
| Conversion.Convert | tests/tests.cpp:349-381 | a boolean query accepts only a bare flag; a non-boolean one refuses a bare flag; strings are verbatim; a result always fits the requested type |
| Conversion.DefaultValue | tests/tests.cpp:332-347 | a default is accepted exactly when its type matches the query and an integer default is in range; it yields the default itself |
| Conversion.Placeholder | tests/tests.cpp:280-316 | the value given to a query during help display fits its type |
| Evaluation.ConvertNumeral | tests/tests.cpp:428-454 | a written integer converts to itself exactly when it is in range, and fails otherwise |
| Evaluation.DigitsAtLeast | tests/tests.cpp:428-454 | a numeral without leading zero is at least ten to its length less one |
| Evaluation.DigitsBelow | tests/tests.cpp:428-454 | a numeral is below ten to its length |
| Evaluation.FewDigitsFit | tests/tests.cpp:428-454 | every numeral of at most eighteen digits converts to a 64-bit integer |
| Evaluation.TooManyDigits | tests/tests.cpp:428-454 | a numeral of more than twenty digits is outside every width |
| Matching.ClashesWith | tests/tests.cpp:476-552 | a query clashes with the answered ones exactly when it clashes with one of them |
| Matching.Settle | tests/tests.cpp:476-519 | at the declared count a strict cycle ends in help exactly when help was asked for; it otherwise succeeds only with every token claimed and no deferred error |
| Matching.Init | tests/tests.cpp:39-56 | a started cycle holds the tokens of the argument vector and answers nothing yet; a strict cycle declaring nothing starts from an empty line; a refused line fails |
| Matching.FindNamed | tests/tests.cpp:349-365 | the found position carries the alias, and no position carries it when nothing is found |
| Matching.MatchNamed | tests/tests.cpp:349-365 | the matched token carries one of the identifier's aliases; no match means no token carries any of them |
| Matching.Missing | tests/tests.cpp:521-545 | an unmatched query yields its checked default, is absent when optional, answers `false` when boolean (as tests/tests.cpp:353 also shows), and is a missing-argument error otherwise |
| Matching.ConvertAll | tests/tests.cpp:404-426 | all values convert one by one, in order, or some value fails |
| Matching.Lookup | tests/tests.cpp:383-426 | claimed tokens are those the query names, and the catch-all claims every positional |
| Matching.Admit | tests/tests.cpp:476-552 | a strict query is admitted exactly when the declared count is not reached and it clashes with no earlier query |
| Matching.CheckRequest | tests/tests.cpp:543-544 | a request is refused exactly when it is optional with a default, or its default does not fit its type |
| Matching.Resolve | tests/tests.cpp:476-519 | answering a query keeps the tokens and settings, records the query and only adds claims; a strict cycle never passes its declared count |
| Matching.RunAll | tests/tests.cpp:476-519 | a completed run answers every query, and a strict run reaching the count has claimed every token |
| Matching.RunAllConsistent | tests/tests.cpp:476-519 | running valid queries keeps every claim justified by an earlier query |
| Matching.ClaimedMeansClash | tests/tests.cpp:476-519 | a token already claimed can only be named again by a query that clashes with an earlier one |
| Matching.ResolveKeepsConsistent | tests/tests.cpp:476-519 | one step keeps the cycle consistent |
| Matching.StrictRejectsRepeat | tests/tests.cpp:511-552 | in strict mode a query clashing with an answered one fails |
| Matching.StrictDefersLookupErrors | tests/tests.cpp:476-493 | a strict lookup error before the last declared query is recorded and the cycle goes on; at the last query it is reported unless help was asked for |
| Matching.LenientRepeatable | tests/tests.cpp:349-365 | in lenient mode a repeated query succeeds again with the same answer |
| Matching.LenientIndependent | tests/tests.cpp:349-365 | in lenient mode two cycles over the same command line give a query the same outcome and the same answer, whatever was queried before |
| Matching.LenientRunAnswers | tests/tests.cpp:383-401 | a lenient run of queries succeeds exactly when each query succeeds on the starting cycle, and then answers each as that cycle does |
| Matching.MissingArgumentRules | tests/tests.cpp:521-545 | an unmatched lenient query yields its default, is absent when optional, fails when it is both, and is missing otherwise |
| Matching.MatchedNamedConverts | tests/tests.cpp:349-381 | a matched named query succeeds exactly when its token's value converts, and answers that value |
| Matching.VariadicTakesAll | tests/tests.cpp:400-426 | the lenient catch-all succeeds exactly when every positional converts, and answers all of them in order |
| Matching.StrictVariadicTakesRemainder | tests/tests.cpp:511-519 | a strict catch-all is only answered before any positional was claimed, and then claims them all |
| MatcherCases.AskMatched | tests/tests.cpp:349-365 | a lenient query matched by a named token answers the converted token value |
| MatcherCases.AskPositional | tests/tests.cpp:384-388 | a lenient positional query with a token at its index answers that token converted |
| MatcherCases.AskMissing | tests/tests.cpp:332-347 | a lenient query with no matching token answers as an absent argument |
| MatcherCases.AskRefused | tests/tests.cpp:543-544 | a malformed request fails with its own error |
| MatcherCases.AskAll | tests/tests.cpp:404-416 | the lenient catch-all answers all positionals converted |
| MatcherCases.ZeroOne | tests/tests.cpp:409-411 | `0 1` convert to the integers 0 and 1 |
| MatcherCases.InvalidInput | tests/tests.cpp:247-251 | each malformed line of the test fails to start a cycle, and so does `---x` of tests/tests.cpp:380 |
| MatcherCases.NoSpaceAssignment | tests/tests.cpp:268-275 | each accepted line of the test starts a cycle |
| MatcherCases.BooleanFlags | tests/tests.cpp:255-259 | `-a -bcd` answers true for `-a`, `-b`, `-c`, `-d` |
| MatcherCases.FlagBeforeValue | tests/tests.cpp:275-276 | an integer query for a bare `-x` fails |
| MatcherCases.EquationAnswers | tests/tests.cpp:263-266 | the three assignments answer `b`, `xy` and `y=z` |
| MatcherCases.ArgumentNaming | tests/tests.cpp:320-329 | queries with malformed names fail; `--1e3` and `--a3` are answered |
| MatcherCases.DefaultAnswers | tests/tests.cpp:333-346 | matching defaults are answered; every mismatched default type fails |
| MatcherCases.CorrectParsingAnswers | tests/tests.cpp:350-364 | every query of the test gets the expected value, including repeated and two-alias queries |
| MatcherCases.IncorrectParsingAnswers | tests/tests.cpp:368-375 | a boolean with value, a non-integer for an integer, and a missing flag each fail with their error |
| MatcherCases.MissingPositional | tests/tests.cpp:377-378 | a positional beyond the line fails |
| MatcherCases.PositionalAnswers | tests/tests.cpp:384-389 | positionals answer by index, with or without description |
| MatcherCases.MixedAnswers | tests/tests.cpp:391-401 | the mixed line answers the flag, positions 0 and 1, a default for position 2, an absent optional, and `[0, 1]` for the catch-all |
| MatcherCases.NoPositionals | tests/tests.cpp:405-407 | the catch-all on an empty line answers nothing |
| MatcherCases.AllPositionalAnswers | tests/tests.cpp:409-411 | the described catch-all answers `[0, 1]` |
| MatcherCases.TextPositional | tests/tests.cpp:413-415 | a string catch-all answers `["text"]` |
| MatcherCases.SeparatorOnly | tests/tests.cpp:419-421 | after a lone `--` the catch-all answers nothing |
| MatcherCases.DoubleDashAnswers | tests/tests.cpp:423-425 | the catch-all answers `name0` and every token after `--` verbatim |
| MatcherCases.Widest16 | tests/tests.cpp:439-440 | 65535 fits 16 unsigned bits, 65536 does not |
| MatcherCases.PermittedFits | tests/tests.cpp:449-449 | 1000000000000 fits a signed 64-bit integer |
| MatcherCases.OverflowRefused | tests/tests.cpp:450-450 | the thirty-nine digit number does not fit a signed 64-bit integer |
| MatcherCases.PrecisionAnswers | tests/tests.cpp:429-450 | the precision line's queries succeed or fail by width as the test expects |
| MatcherCases.PrecisionDefaults | tests/tests.cpp:437-448 | the largest defaults of 32-bit types are accepted and the next ones refused; `2^62` fits 64 bits; a string default for an integer is refused |
| MatcherCases.OptionalAnswers | tests/tests.cpp:522-537 | optional queries are absent when undefined and hold the value otherwise |
| MatcherCases.OptionalAndDefault | tests/tests.cpp:541-544 | an optional query with a default fails, whether or not it is matched |
| MatcherCases.NegativeAssignment | tests/tests.cpp:555-556 | `-a=-1` answers -1 |
| MatcherCases.NegativePositional | tests/tests.cpp:558-560 | `-1` is positional 0 and `-a=-2` answers -2 |
| MatcherCases.NegativeWide | tests/tests.cpp:562-564 | `-10` is positional 0 and `-a=-20` answers -20 |
| StrictCases.RunCons | tests/tests.cpp:476-519 | supports Matching.RunAll for the strict cases: a run is its first step's answer followed by the rest of the run |
| StrictCases.RunFails | tests/tests.cpp:476-519 | supports Matching.RunAll for the strict cases: a failure later in a run fails the whole run |
| StrictCases.SessionShowsHelp | tests/tests.cpp:280-296 | a strict cycle with help asked for and admissible queries ends in the help exit |
| StrictCases.HelpAlone | tests/tests.cpp:281-283 | `-h`, `--help` and `--help 1` with nothing declared show help |
| StrictCases.HelpBeforeQuery | tests/tests.cpp:285-286 | `-h` with one integer query shows help |
| StrictCases.HelpBeforeMatchedQuery | tests/tests.cpp:288-289 | `-h -i 1` with one integer query on `-i` shows help |
| StrictCases.HelpAfterThreeQueries | tests/tests.cpp:291-294 | `-h` with three integer queries shows help after the third |
| StrictCases.HelpBeforePositional | tests/tests.cpp:303-307 | `-h` and `-h 1` with one positional query show help |
| StrictCases.HelpAfterThreePositionals | tests/tests.cpp:309-312 | `-h` with three positional queries shows help |
| StrictCases.HelpBeforeCatchAll | tests/tests.cpp:314-315 | `-h` with the catch-all shows help |
| StrictCases.StrictNothingDeclared | tests/tests.cpp:477-482 | with nothing declared an empty line is accepted and `-i=1` is unclaimed |
| StrictCases.StrictMatched | tests/tests.cpp:479-480 | the declared `-x` query answers 0 |
| StrictCases.StrictDeferred | tests/tests.cpp:484-486 | with two declared queries the missing `-x` is reported after `-i` is answered |
| StrictCases.StrictMissing | tests/tests.cpp:488-489 | a single missing `-x` fails with missing argument |
| StrictCases.StrictUnclaimed | tests/tests.cpp:491-492 | a defaulted `-x` leaves `-i=1` unclaimed, which fails |
| StrictCases.StrictPositionalUnclaimed | tests/tests.cpp:496-497 | reading only position 0 of `0 1` leaves a positional unclaimed |
| StrictCases.StrictOptionalPositionals | tests/tests.cpp:499-502 | two optional positionals over `1` answer 1 and absent |
| StrictCases.StrictCatchAll | tests/tests.cpp:507-508 | the strict catch-all answers `[0, 1]` |
| StrictCases.StrictIndexAfterAll | tests/tests.cpp:512-514 | an index after the catch-all is a duplicate query |
| StrictCases.StrictAllAfterIndex | tests/tests.cpp:516-518 | the catch-all after an index is a duplicate query |
| StrictCases.StrictDuplicate | tests/tests.cpp:548-551 | a defaulted query is answered in strict mode, and repeating it is a duplicate query |
| Logging.Log | tests/tests.cpp:567-580 | logging appends the query and keeps the earlier entries |
| Logging.Aliases | tests/tests.cpp:567-580 | the logged aliases are exactly those of a named identifier |
| Logging.AssignmentNames | tests/tests.cpp:567-580 | an alias is an assignment name exactly when a named non-boolean query carries it |
| Logging.AssignmentArguments | tests/tests.cpp:567-580 | the logger's assignment arguments are the aliases of its named non-boolean queries |
| Logging.AssignmentArgumentsGrow | tests/tests.cpp:567-580 | logging a query keeps every assignment argument and adds only the new query's |
| Introspection.Declare | tests/tests.cpp:59-69 | a call yields a valid query of its own type exactly when its names build an identifier |
| Introspection.Discover | tests/tests.cpp:567-580 | discovery succeeds exactly when every call declares, and logs their queries in call order |
| Introspection.DiscoverCons | tests/tests.cpp:59-69 | discovery logs a call's query ahead of those of the later calls |
| Introspection.Fire | tests/tests.cpp:582-609 | a fired program answers every call; a strict run ends with every token claimed and no pending error |
| Introspection.AssignmentNamesOfProgram | tests/tests.cpp:567-609 | a flag takes the next token as its value exactly when some non-boolean call of the program names it |
| Introspection.HelpRunShowsHelp | tests/tests.cpp:280-316 | once help is asked for, admissible queries run to the declared count and end in the help exit |
| Introspection.HelpWins | tests/tests.cpp:280-316 | a fired program with admissible calls shows help whenever `-h` or `--help` is on the line |
| IntrospectionCases.FireRuns | tests/tests.cpp:59-69 | a program that makes a query and whose line does not ask for help runs its logged queries on a fresh strict cycle |
| IntrospectionCases.AssignmentArgumentsLogged | tests/tests.cpp:568-579 | `-i`, `--int` and `-s` take values by assignment, `--bool` does not |
| IntrospectionCases.LoggedNames | tests/tests.cpp:568-579 | the assignment arguments are `-i`, `--int`, `-s`, in query order |
| IntrospectionCases.IntegerTakesValue | tests/tests.cpp:584-604 | for an integer `-x`, the line `-x 1` answers 1 |
| IntrospectionCases.BooleanLeavesValue | tests/tests.cpp:593-607 | for a boolean `-x` and positional 0, the same line answers true and 1 |
| IntrospectionCases.DashedRun | tests/tests.cpp:458-471 | the five dashed queries, from any point, answer the remaining expected values and claim every token |
| IntrospectionCases.DashedProgram | tests/tests.cpp:458-473 | the dashed program answers -1, -1, `-name`, `--name`, `---name` |

## Left out

- The source of the library itself (`fire.hpp`) is not part of this model. Its behaviour is taken from `tests/tests.cpp`; the main choices the tests leave open are listed below and in the strict-mode choices above.
- Floating-point values. `float` and `double` conversion are not modelled. A floating default is modelled only as a default that never fits an integer, string or boolean query. The `-f=2.0` assignments are tokenized but never converted.
- IntrospectionCases.LoggedNames: the `--float` query of the logger test (tests/tests.cpp:572, 578) is not part of the modelled program, because no float type is modelled, so `--float` is absent from the list.
- IntrospectionCases.AssignmentArgumentsLogged: does not state that `--float` is an assignment argument, for the same reason.
- MatcherCases.PrecisionAnswers: the `double`/`float` lines with a `1e100` default (tests/tests.cpp:452-453) are not stated, because floating point is left out.
- Exit codes, process termination and the printed help and error text. An exit is an `Outcome` (`Failed(error)` or `ShowHelp`), and help listings are modelled only through `Identifiers.Help`, `Identifiers.Longer` and the order `Identifiers.Less`.
- The C++ machinery. The global matcher and logger singletons, the `PREPARE_FIRE_` macro and default-argument evaluation are modelled as a list of query calls (`Introspection.Call`) evaluated twice. C++ type dispatch becomes the `Conversion.Kind` datatype.
- The `AmbiguousArgument` error is not from the tests. It is a choice for a named query whose short and long alias both appear on the line, a case the tests do not exercise.
- Matching.Init: `-h`/`--help` is recognised only in strict mode; on a lenient cycle it is an ordinary flag, because the help tests (tests/tests.cpp:280-316) exercise only strict mode.
- Matching.Lookup: in lenient mode the catch-all answers with every positional, including ones read by index, as tests/tests.cpp:400-401 shows. Taking only the unclaimed remainder is not modelled.
- Identifiers.MakeIdentifier: four refusals are choices the tests do not exercise: a second description, a second `<label>`, a `<label>` on a named identifier, and a negative position. Aliases are checked by shape alone, so names such as `-=` and `--a=b` are accepted although no command-line token can ever match them.
- Identifiers.Less: named identifiers are ordered by their longer alias with its hyphens included, so a long-only `--zz` sorts before `-a`; the catch-all sorts between positionals and named identifiers. The tests (tests/tests.cpp:211-243) order neither case.
- Tokenizer.Lex: a lone `-` is refused as an invalid flag rather than read as a value; the tests do not pass one.
- Conversion.ConvertInteger: a leading `+` is refused, and `-0` converts to 0 for signed widths but fails as a negative value for unsigned ones; the tests exercise neither.
- Matching.Admit: a strict query past the declared count fails with a too-many-queries error; the tests never query past the count.
- Matching.CheckRequest: a catch-all query with a default or marked optional fails with a default-mismatch error; the tests never make such a request.

=== FILE: command_line.dfy ===
/** Command lines built from their intended reading. A command line is
    described as a list of pieces (a value, a bare flag, a cluster of short
    flags, an assignment `name=value`, or a flag followed by its value); the
    tokenizer reads back exactly the positional values and named arguments the
    pieces describe, whenever each piece is well shaped. */
module CommandLines {
  import opened Wrappers
  import opened Text
  import opened Identifiers
  import opened Tokenizer
  import opened Evaluation

  datatype Piece =
    | Value(v: string)
    | Lone(f: string)
    | Cluster(letters: string)
    | Assign(n: string, v: string)
    | Joined(f: string, v: string)

  /** A token that is read as a value: no leading hyphen, or a hyphen and a digit. */
  predicate IsValueText(v: string) {
    |v| > 0 && (v[0] != '-' || (|v| >= 2 && IsDigit(v[1])))
  }

  predicate FlagName(f: string) {
    ValidAlias(f) && NoEquals(f)
  }

  /** The tokens a piece is written as. */
  function Words(p: Piece): seq<string> {
    match p
    case Value(v) => [v]
    case Lone(f) => [f]
    case Cluster(c) => ["-" + c]
    case Assign(n, v) => [n + "=" + v]
    case Joined(f, v) => [f, v]
  }

  function Render(ps: seq<Piece>): seq<string> {
    if |ps| == 0 then [] else Words(ps[0]) + Render(ps[1..])
  }

  /** The reading a piece is meant to have. */
  function Meant(p: Piece, t: Tokens): Tokens {
    match p
    case Value(v) => AddPositional(v, t)
    case Lone(f) => AddNamed([NamedArg(f, None)], t)
    case Cluster(c) => AddNamed(Bare(Expand(c)), t)
    case Assign(n, v) => AddNamed([NamedArg(n, Some(v))], t)
    case Joined(f, v) => AddNamed([NamedArg(f, Some(v))], t)
  }

  function Reading(ps: seq<Piece>): Tokens {
    if |ps| == 0 then Tokens([], []) else Meant(ps[0], Reading(ps[1..]))
  }

  /** Whether a piece is written so that the tokenizer reads it as meant,
      given the assignment arguments `a`: a joined flag must be one of them,
      and a cluster has at least two letters, none of them `=`. */
  predicate PieceShaped(p: Piece, a: set<string>) {
    match p
    case Value(v) => IsValueText(v)
    case Lone(f) => FlagName(f)
    case Cluster(c) => |c| >= 2 && c[0] != '-' && !IsDigit(c[0]) && NoEquals(c)
    case Assign(n, _) => FlagName(n)
    case Joined(f, v) => FlagName(f) && f in a && IsValueText(v)
  }

  /** Every piece is well shaped, and a bare assignment argument is not
      followed by a value (it would take that value). */
  predicate WellShaped(ps: seq<Piece>, a: set<string>) {
    |ps| == 0 ||
    (&& PieceShaped(ps[0], a)
     && (ps[0].Lone? && ps[0].f in a ==> |ps| == 1 || !ps[1].Value?)
     && WellShaped(ps[1..], a))
  }

  lemma LexValueText(v: string)
    requires IsValueText(v)
    ensures Lex(v) == Plain(v)
  {
    if v[0] == '-' {
      LexNegative(v);
    }
  }

  lemma LexFlagName(f: string)
    requires FlagName(f)
    ensures Lex(f) == Flags([f])
  {
    if ValidShort(f) {
      assert f[1] != '=';
      LexShort(f);
    } else {
      LexLong(f);
    }
  }

  lemma RenderCons(ps: seq<Piece>)
    requires |ps| > 0
    ensures Render(ps) == Words(ps[0]) + Render(ps[1..])
  {
  }

  /** Reading a rendered command line gives back what its pieces mean. */
  lemma {:induction false} ScanRender(ps: seq<Piece>, a: set<string>)
    requires WellShaped(ps, a)
    ensures Scan(Render(ps), false, a) == Success(Reading(ps))
    decreases |ps|
  {
    if |ps| == 0 {
      ScanEmpty(a);
    } else {
      var rest := ps[1..];
      ScanRender(rest, a);
      var t := Reading(rest);
      var ts := Render(ps);
      var w := Words(ps[0]);
      RenderCons(ps);
      assert ts[..|w|] == w && ts[|w|..] == Render(rest);
      match ps[0]
      case Value(v) =>
        LexValueText(v);
        assert ts[1..] == Render(rest);
        ScanValue(ts, a, t, Reading(ps));
      case Lone(f) =>
        LexFlagName(f);
        assert ts[1..] == Render(rest);
        if f in a && |ts| > 1 {
          assert |rest| > 0 && !rest[0].Value?;
          var w1 := Words(rest[0]);
          RenderCons(rest);
          assert ts[1] == w1[0];
          match rest[0]
          case Lone(g) =>
            LexFlagName(g);
          case Cluster(c) =>
            ClusterExpands(c);
            assert w1[0] == "-" + c;
          case Assign(n, v) =>
            AssignmentSplitsAtFirstEquals(n, v);
            assert w1[0] == n + "=" + v;
          case Joined(g, v) =>
            LexFlagName(g);
        }
        ScanFlag(ts, a, t, Reading(ps));
      case Cluster(c) =>
        ClusterExpands(c);
        assert ts[0] == "-" + c && ts[1..] == Render(rest);
        ScanCluster(ts, a, Expand(c), t, Reading(ps));
      case Assign(n, v) =>
        AssignmentSplitsAtFirstEquals(n, v);
        assert ts[0] == n + "=" + v && ts[1..] == Render(rest);
        ScanAssignment(ts, a, n, v, t, Reading(ps));
      case Joined(f, v) =>
        LexFlagName(f);
        LexValueText(v);
        assert ts[2..] == Render(rest);
        ScanJoined(ts, a, t, Reading(ps));
    }
  }

  /** The tokenizer, given the program name and a rendered command line whose
      flag names are distinct, yields exactly the reading of its pieces. */
  lemma TokenizeRender(program: string, ps: seq<Piece>, a: set<string>)
    requires WellShaped(ps, a) && WellFormed(Reading(ps).named)
    ensures Tokenize([program] + Render(ps), a) == Success(Reading(ps))
  {
    ScanRender(ps, a);
    assert ([program] + Render(ps))[1..] == Render(ps);
  }
}

=== FILE: conversion.dfy ===
/** Conversion of a matched argument to the type the program asked for:
    booleans are presence-only, integers are base-10 with a range check for
    the requested width, strings are taken verbatim. Floating-point targets
    are not part of this model. */
module Conversion {
  import opened Wrappers
  import opened Errors
  import opened Text

  datatype Width = W16 | W32 | W64

  /** The requested type of a query. */
  datatype Kind = Boolean | Integer(width: Width, signed: bool) | Str

  datatype Value = BoolValue(b: bool) | IntValue(i: int) | StrValue(s: string)

  /** A default written at the query site; floating-point defaults are kept
      only as a marker, since their value is not modelled. */
  datatype Default = IntDefault(i: int) | FloatDefault | StrDefault(s: string)

  /** The smallest value of the width: the two's-complement minimum when
      signed, zero otherwise. */
  function MinOf(w: Width, signed: bool): int {
    if !signed then 0
    else match w
      case W16 => -32768
      case W32 => -2147483648
      case W64 => -9223372036854775808
  }

  /** The largest value of the width. */
  function MaxOf(w: Width, signed: bool): int {
    match w
    case W16 => if signed then 32767 else 65535
    case W32 => if signed then 2147483647 else 4294967295
    case W64 => if signed then 9223372036854775807 else 18446744073709551615
  }

  /** The values representable in a two's-complement or unsigned integer of the width. */
  predicate InRange(i: int, w: Width, signed: bool) {
    MinOf(w, signed) <= i <= MaxOf(w, signed)
  }

  /** Whether a value is one the requested kind can hold. */
  predicate Fits(v: Value, kind: Kind) {
    match kind
    case Boolean => v.BoolValue?
    case Integer(w, signed) => v.IntValue? && InRange(v.i, w, signed)
    case Str => v.StrValue?
  }

  predicate IsDecimal(s: string) {
    |s| > 0 && AllDigits(s)
  }

  /** Base-10 integer with an optional leading minus sign and nothing else. */
  function ParseInteger(s: string): (r: Option<int>)
    ensures r.Some? && |s| > 0 && s[0] == '-' ==> r.value <= 0
    ensures r.Some? && |s| > 0 && s[0] != '-' ==> r.value >= 0
    ensures r.Some? ==> forall i :: 0 < i < |s| ==> IsDigit(s[i])
  {
    if IsDecimal(s) then Some(DigitsValue(s))
    else if |s| > 1 && s[0] == '-' && IsDecimal(s[1..]) then Some(-(DigitsValue(s[1..]) as int))
    else None
  }

  /** Base-10 rendering of an integer, the inverse of `ParseInteger`. */
  function ShowInt(i: int): (r: string)
    ensures ParseInteger(r) == Some(i)
    ensures |r| > 0 && (r[0] == '-' <==> i < 0)
  {
    if i < 0 then
      var r := "-" + ShowNat(-i);
      assert r[1..] == ShowNat(-i);
      r
    else ShowNat(i)
  }

  /** Integer conversion: the text must be a base-10 integer, must not carry a
      minus sign when the target is unsigned, and must lie in the width's range. */
  function ConvertInteger(s: string, w: Width, signed: bool): (r: Result<int, Error>)
    ensures r.Success? <==>
      ParseInteger(s).Some? && InRange(ParseInteger(s).value, w, signed) && (!signed ==> s[0] != '-')
    ensures r.Success? ==> r.value == ParseInteger(s).value
  {
    match ParseInteger(s)
    case None => Failure(NotAnInteger(s))
    case Some(i) =>
      if !signed && s[0] == '-' then Failure(NegativeUnsigned(s))
      else if !InRange(i, w, signed) then Failure(OutOfRange(s))
      else Success(i)
  }

  /** A number written in base 10 converts exactly when the width can hold it:
      the bounds themselves are accepted and one beyond either bound is not. */
  lemma ConvertShown(i: int, w: Width, signed: bool)
    ensures ConvertInteger(ShowInt(i), w, signed).Success? <==> InRange(i, w, signed)
    ensures ConvertInteger(ShowInt(i), w, signed).Success? ==>
      ConvertInteger(ShowInt(i), w, signed).value == i
  {
  }

  /** Converting the raw text of a match (`None` for a bare flag) to `kind`. */
  function Convert(raw: Option<string>, kind: Kind): (r: Result<Value, Error>)
    ensures r.Success? ==> Fits(r.value, kind)
    ensures kind == Boolean ==> (r.Success? <==> raw.None?)
    ensures kind != Boolean && raw.None? ==> r == Failure(FlagWithoutValue)
    ensures kind == Str && raw.Some? ==> r == Success(StrValue(raw.value))
    ensures kind.Integer? && raw.Some? ==>
      r.Success? == ConvertInteger(raw.value, kind.width, kind.signed).Success?
  {
    match kind
    case Boolean => if raw.None? then Success(BoolValue(true)) else Failure(BooleanWithValue)
    case Integer(w, signed) =>
      if raw.None? then Failure(FlagWithoutValue)
      else
        var i :- ConvertInteger(raw.value, w, signed);
        Success(IntValue(i))
    case Str => if raw.None? then Failure(FlagWithoutValue) else Success(StrValue(raw.value))
  }

  /** The value of a default for a query of `kind`; a boolean query takes no
      default and the default's type must match the requested one. */
  function DefaultValue(d: Default, kind: Kind): (r: Result<Value, Error>)
    ensures r.Success? ==> Fits(r.value, kind)
    ensures r.Success? <==>
      (d.IntDefault? && kind.Integer? && InRange(d.i, kind.width, kind.signed)) ||
      (d.StrDefault? && kind == Str)
    ensures r.Success? && d.IntDefault? ==> r.value == IntValue(d.i)
    ensures r.Success? && d.StrDefault? ==> r.value == StrValue(d.s)
  {
    match (d, kind)
    case (IntDefault(i), Integer(w, signed)) =>
      if InRange(i, w, signed) then Success(IntValue(i)) else Failure(DefaultMismatch)
    case (StrDefault(s), Str) => Success(StrValue(s))
    case _ => Failure(DefaultMismatch)
  }

  /** The value a query receives when nothing else supplies one, during help
      display: the false flag, zero or the empty string. */
  function Placeholder(kind: Kind): (r: Value)
    ensures Fits(r, kind)
  {
    match kind
    case Boolean => BoolValue(false)
    case Integer(_, _) => IntValue(0)
    case Str => StrValue("")
  }
}

=== FILE: errors.dfy ===
/** The usage errors of the library. The library reports every one of them the
    same way (a message and the fixed failure exit code); the kinds are kept
    apart here so that lemmas can say which rule rejected an input. */
module Errors {

  datatype Error =
    // identifier construction
    | SingleHyphenNotOneLetter(alias: string)
    | SingleHyphenDigit(alias: string)
    | DoubleHyphenTooShort(alias: string)
    | TooManyHyphens(text: string)
    | SecondShortAlias(alias: string)
    | SecondLongAlias(alias: string)
    | SecondDescription(text: string)
    | SecondLabel(text: string)
    | PositionalWithAlias(alias: string)
    | LabelWithoutPosition(text: string)
    | NegativePosition(position: int)
    | NoName
    // command-line tokens
    | ClusterWithValue(token: string)
    | InvalidFlag(name: string)
    | RepeatedFlag(name: string)
    // conversion
    | NotAnInteger(text: string)
    | OutOfRange(text: string)
    | NegativeUnsigned(text: string)
    | BooleanWithValue
    | FlagWithoutValue
    // queries
    | DefaultMismatch
    | OptionalWithDefault
    | MissingArgument(display: string)
    | DuplicateQuery(display: string)
    | AmbiguousArgument(display: string)
    | TooManyQueries
    | UnclaimedArguments
    | EmptyOptional
}

=== FILE: evaluation.dfy ===
/** Facts that evaluate the tokenizer and the integer parser one token or one
    digit at a time. The concrete command lines of the test cases are read
    through these. */
module Evaluation {
  import opened Wrappers
  import opened Errors
  import opened Text
  import opened Identifiers
  import opened Conversion
  import opened Tokenizer

  predicate NoEquals(s: string) {
    forall i :: 0 <= i < |s| ==> s[i] != '='
  }

  /** A long flag without `=` is one flag. */
  lemma LexLong(f: string)
    requires ValidLong(f) && NoEquals(f)
    ensures Lex(f) == Flags([f])
  {
    assert f[0] == '-' && f[1] == '-' && f[2] != '-';
    assert LeadingHyphens(f) == 2;
  }

  /** A short flag is one flag. */
  lemma LexShort(f: string)
    requires ValidShort(f) && f[1] != '='
    ensures Lex(f) == Flags([f])
  {
    assert LeadingHyphens(f) == 1 by {
      assert f[1] != '-';
    }
    assert IndexOf(f, '=').None?;
    assert f == ['-', f[1]];
    assert Expand(f[1..]) == [f];
  }

  /** A token without a leading hyphen is a value. */
  lemma LexPlain(v: string)
    requires |v| > 0 && v[0] != '-'
    ensures Lex(v) == Plain(v)
  {
  }

  /** A hyphen followed by a digit starts a value, not a flag. */
  lemma LexNegative(v: string)
    requires |v| >= 2 && v[0] == '-' && IsDigit(v[1])
    ensures Lex(v) == Plain(v)
  {
    assert LeadingHyphens(v) == 1 by {
      assert v[1] != '-';
    }
  }

  lemma LexAssignment(s: string, n: string, v: string)
    requires ValidAlias(n) && NoEquals(n) && s == n + "=" + v
    ensures Lex(s) == Assignment(n, v)
  {
    AssignmentSplitsAtFirstEquals(n, v);
  }

  // Each step lemma names the tokens `r` it produces, so that a caller
  // states them as a literal.

  lemma ScanValue(ts: seq<string>, a: set<string>, t: Tokens, r: Tokens)
    requires |ts| > 0 && Lex(ts[0]) == Plain(ts[0]) && Scan(ts[1..], false, a) == Success(t)
    requires r == AddPositional(ts[0], t)
    ensures Scan(ts, false, a) == Success(r)
  {
  }

  /** A lone flag that does not take the next token as its value. */
  lemma ScanFlag(ts: seq<string>, a: set<string>, t: Tokens, r: Tokens)
    requires |ts| > 0 && Lex(ts[0]) == Flags([ts[0]]) && Scan(ts[1..], false, a) == Success(t)
    requires ts[0] !in a || |ts| == 1 || !Lex(ts[1]).Plain?
    requires r == AddNamed([NamedArg(ts[0], None)], t)
    ensures Scan(ts, false, a) == Success(r)
  {
    assert Bare([ts[0]]) == [NamedArg(ts[0], None)];
  }

  /** A flag taking the following value token. */
  lemma ScanJoined(ts: seq<string>, a: set<string>, t: Tokens, r: Tokens)
    requires |ts| > 1 && Lex(ts[0]) == Flags([ts[0]]) && ts[0] in a && Lex(ts[1]).Plain?
    requires Scan(ts[2..], false, a) == Success(t)
    requires r == AddNamed([NamedArg(ts[0], Some(ts[1]))], t)
    ensures Scan(ts, false, a) == Success(r)
  {
  }

  lemma ScanCluster(ts: seq<string>, a: set<string>, ns: seq<string>, t: Tokens, r: Tokens)
    requires |ts| > 0 && Lex(ts[0]) == Flags(ns) && |ns| != 1 && Scan(ts[1..], false, a) == Success(t)
    requires r == AddNamed(Bare(ns), t)
    ensures Scan(ts, false, a) == Success(r)
  {
  }

  lemma ScanAssignment(ts: seq<string>, a: set<string>, n: string, v: string, t: Tokens, r: Tokens)
    requires |ts| > 0 && Lex(ts[0]) == Assignment(n, v) && Scan(ts[1..], false, a) == Success(t)
    requires r == AddNamed([NamedArg(n, Some(v))], t)
    ensures Scan(ts, false, a) == Success(r)
  {
  }

  lemma ScanEmpty(a: set<string>)
    ensures Scan([], false, a) == Success(Tokens([], []))
  {
  }

  /** The full argument vector tokenizes to what the arguments after the
      program name scan to, when the flag names are well formed. */
  lemma TokenizeScan(argv: seq<string>, a: set<string>, t: Tokens)
    requires |argv| > 0 && Scan(argv[1..], false, a) == Success(t) && WellFormed(t.named)
    ensures Tokenize(argv, a) == Success(t)
  {
  }

  /** The tokenizer refuses a command line whose flag names are invalid or
      repeated, and one with a malformed token. */
  lemma TokenizeRefuses(argv: seq<string>, a: set<string>, t: Tokens)
    requires |argv| > 0 && Scan(argv[1..], false, a) == Success(t) && !WellFormed(t.named)
    ensures Tokenize(argv, a).Failure?
  {
  }

  lemma TokenizeRejects(argv: seq<string>, a: set<string>)
    requires |argv| > 1 && Lex(argv[1]).Rejected?
    ensures Tokenize(argv, a).Failure?
  {
    assert argv[1..][0] == argv[1];
  }

  // ---------------------------------------------------------------------------
  // Integers

  /** The text of a natural number parses back to it. */
  lemma ParseShownNat(s: string, n: nat)
    requires ShowNat(n) == s
    ensures ParseInteger(s) == Some(n)
  {
    assert ShowInt(n) == s;
  }

  /** The text of an integer converts to it exactly when the width holds it. */
  lemma ConvertNumeral(s: string, i: int, w: Width, signed: bool)
    requires ShowInt(i) == s
    ensures InRange(i, w, signed) ==> Convert(Some(s), Integer(w, signed)) == Success(IntValue(i))
    ensures !InRange(i, w, signed) ==> Convert(Some(s), Integer(w, signed)).Failure?
  {
    ConvertShown(i, w, signed);
  }

  function Pow10(k: nat): nat {
    if k == 0 then 1 else 10 * Pow10(k - 1)
  }

  /** A numeral without a leading zero is at least ten to the power of its
      length less one. */
  lemma {:induction false} DigitsAtLeast(s: string)
    requires |s| > 0 && AllDigits(s) && s[0] != '0'
    ensures DigitsValue(s) >= Pow10(|s| - 1)
    decreases |s|
  {
    if |s| > 1 {
      var p := s[..|s| - 1];
      assert p[0] == s[0];
      DigitsAtLeast(p);
    }
  }

  lemma Pow10Twenty()
    ensures Pow10(20) == 100000000000000000000
  {
    assert Pow10(3) == 1000;
    assert Pow10(6) == 1000000;
    assert Pow10(9) == 1000000000;
    assert Pow10(12) == 1000000000000;
    assert Pow10(15) == 1000000000000000;
    assert Pow10(18) == 1000000000000000000;
    assert Pow10(20) == 100000000000000000000;
  }

  lemma {:induction false} Pow10Monotone(a: nat, b: nat)
    requires a <= b
    ensures Pow10(a) <= Pow10(b)
    decreases b
  {
    if a < b {
      Pow10Monotone(a, b - 1);
    }
  }

  /** A numeral is less than ten to the power of its length. */
  lemma {:induction false} DigitsBelow(s: string)
    requires AllDigits(s)
    ensures DigitsValue(s) < Pow10(|s|)
    decreases |s|
  {
    if |s| > 0 {
      var p := s[..|s| - 1];
      DigitsBelow(p);
    }
  }

  /** A numeral of at most eighteen digits converts to a 64-bit integer,
      signed or not. */
  lemma FewDigitsFit(s: string, signed: bool)
    requires 0 < |s| <= 18 && AllDigits(s)
    ensures Convert(Some(s), Integer(W64, signed)) == Success(IntValue(DigitsValue(s)))
  {
    assert IsDecimal(s);
    DigitsBelow(s);
    Pow10Monotone(|s|, 18);
    Pow10Twenty();
    assert ParseInteger(s) == Some(DigitsValue(s) as int);
  }

  /** A numeral of more than twenty digits, the first not zero, is beyond the
      range of every width. */
  lemma TooManyDigits(s: string, w: Width, signed: bool)
    requires |s| >= 21 && AllDigits(s) && s[0] != '0'
    ensures ParseInteger(s).Some? && !InRange(ParseInteger(s).value, w, signed)
  {
    assert IsDecimal(s);
    DigitsAtLeast(s);
    Pow10Monotone(20, |s| - 1);
    Pow10Twenty();
    assert ParseInteger(s) == Some(DigitsValue(s) as int);
    assert DigitsValue(s) >= 100000000000000000000;
  }
}

=== FILE: identifier.dfy ===
/** The identifier of a queried parameter: a named argument (`-x`, `--long`
    or both), a positional argument (an index, optionally with a `<name>`
    title), or the variadic catch-all that collects every positional. */
module Identifiers {
  import opened Wrappers
  import opened Errors
  import opened Text

  datatype Name =
    | Named(short: Option<string>, long: Option<string>)
    | Positional(index: nat, title: Option<string>)
    | Variadic

  /** `optional` is set after construction when the query supplies a default. */
  datatype Identifier = Identifier(name: Name, description: Option<string>, optional: bool)

  /** `-x`: one hyphen and one character that is neither a hyphen nor a digit. */
  predicate ValidShort(a: string) {
    |a| == 2 && a[0] == '-' && a[1] != '-' && !IsDigit(a[1])
  }

  /** `--xy…`: two hyphens and at least two more characters, the first not a hyphen. */
  predicate ValidLong(a: string) {
    |a| >= 4 && a[0] == '-' && a[1] == '-' && a[2] != '-'
  }

  predicate ValidAlias(a: string) {
    ValidShort(a) || ValidLong(a)
  }

  /** A `<name>` title for a positional argument. */
  predicate IsLabel(s: string) {
    |s| >= 2 && s[0] == '<' && s[|s| - 1] == '>'
  }

  predicate Valid(id: Identifier) {
    match id.name
    case Named(s, l) =>
      && (s.Some? || l.Some?)
      && (s.Some? ==> ValidShort(s.value))
      && (l.Some? ==> ValidLong(l.value))
    case Positional(_, title) => title.Some? ==> IsLabel(title.value)
    case Variadic => true
  }

  /** Turns a bare name into an alias: one hyphen for a single character, two
      for longer names, none for the empty name. */
  function PrependHyphens(n: string): (r: string)
    ensures |n| <= |r| <= |n| + 2 && r[|r| - |n|..] == n
    ensures |r| - |n| == (if |n| >= 2 then 2 else |n|)
    ensures forall i :: 0 <= i < |r| - |n| ==> r[i] == '-'
    ensures |n| == 1 ==> (ValidShort(r) <==> n[0] != '-' && !IsDigit(n[0]))
  {
    if |n| == 0 then n
    else if |n| == 1 then "-" + n
    else "--" + n
  }

  /** A bare name becomes a valid alias exactly when it is non-empty, does not
      already start with a hyphen and, if it is a single character, is not a digit. */
  lemma PrependHyphensValid(n: string)
    ensures ValidAlias(PrependHyphens(n)) <==>
      |n| > 0 && n[0] != '-' && !(|n| == 1 && IsDigit(n[0]))
  {
    var r := PrependHyphens(n);
    if |n| >= 2 {
      assert r[2] == n[0];
    }
  }

  // ---------------------------------------------------------------------------
  // Construction

  /** How the constructor reads one of the strings it is given. */
  datatype NameClass = ShortAlias | LongAlias | Description | Label | Malformed

  predicate IsAliasClass(c: NameClass) {
    c == ShortAlias || c == LongAlias
  }

  function ClassOf(n: string): NameClass {
    var h := LeadingHyphens(n);
    if h == 0 then (if IsLabel(n) then Label else Description)
    else if h == 1 then (if ValidShort(n) then ShortAlias else Malformed)
    else if h == 2 then (if ValidLong(n) then LongAlias else Malformed)
    else Malformed
  }

  /** A class may appear among the names of a positional (`positional`) or a
      named identifier. */
  predicate Allowed(c: NameClass, positional: bool) {
    && c != Malformed
    && (positional ==> !IsAliasClass(c))
    && (!positional ==> c != Label)
  }

  /** Reference definition of the names the constructor accepts: every name is
      well formed and allowed for the kind of identifier, no two names fill the
      same slot, and a named identifier has at least one alias. */
  predicate Acceptable(names: seq<string>, position: Option<int>) {
    && (position.Some? ==> position.value >= 0)
    && (forall i :: 0 <= i < |names| ==> Allowed(ClassOf(names[i]), position.Some?))
    && (forall i, j :: 0 <= i < j < |names| ==> ClassOf(names[i]) != ClassOf(names[j]))
    && (position.None? ==> exists i :: 0 <= i < |names| && IsAliasClass(ClassOf(names[i])))
  }

  /** The slots the constructor fills while it reads the names in order. */
  datatype Draft = Draft(short: Option<string>, long: Option<string>,
                         description: Option<string>, title: Option<string>)

  function Slot(d: Draft, c: NameClass): Option<string> {
    match c
    case ShortAlias => d.short
    case LongAlias => d.long
    case Description => d.description
    case Label => d.title
    case Malformed => None
  }

  function Fill(d: Draft, c: NameClass, n: string): Draft {
    match c
    case ShortAlias => d.(short := Some(n))
    case LongAlias => d.(long := Some(n))
    case Description => d.(description := Some(n))
    case Label => d.(title := Some(n))
    case Malformed => d
  }

  /** Reads one name into the draft, rejecting it with the constructor's error. */
  function Take(d: Draft, n: string, positional: bool): (r: Result<Draft, Error>)
    ensures r.Success? <==> Allowed(ClassOf(n), positional) && Slot(d, ClassOf(n)).None?
    ensures r.Success? ==> r.value == Fill(d, ClassOf(n), n)
  {
    var h := LeadingHyphens(n);
    if h >= 3 then Failure(TooManyHyphens(n))
    else if h > 0 && positional then Failure(PositionalWithAlias(n))
    else if h == 1 then
      if |n| != 2 then Failure(SingleHyphenNotOneLetter(n))
      else if IsDigit(n[1]) then Failure(SingleHyphenDigit(n))
      else if d.short.Some? then Failure(SecondShortAlias(n))
      else Success(d.(short := Some(n)))
    else if h == 2 then
      if |n| < 4 then Failure(DoubleHyphenTooShort(n))
      else if d.long.Some? then Failure(SecondLongAlias(n))
      else Success(d.(long := Some(n)))
    else if IsLabel(n) then
      if !positional then Failure(LabelWithoutPosition(n))
      else if d.title.Some? then Failure(SecondLabel(n))
      else Success(d.(title := Some(n)))
    else if d.description.Some? then Failure(SecondDescription(n))
    else Success(d.(description := Some(n)))
  }

  function Gather(names: seq<string>, positional: bool, d: Draft): Result<Draft, Error>
    decreases |names|
  {
    if |names| == 0 then Success(d)
    else
      var d' :- Take(d, names[0], positional);
      Gather(names[1..], positional, d')
  }

  const NoDraft := Draft(None, None, None, None)

  /** The identifier constructor: `names` are aliases, a description and
      (for positionals) a `<name>` title; `position` is the positional index. */
  function MakeIdentifier(names: seq<string>, position: Option<int>): (r: Result<Identifier, Error>)
    ensures r.Success? ==> Valid(r.value) && !r.value.optional
    ensures r.Success? ==> (r.value.name.Positional? <==> position.Some?)
    ensures r.Success? && position.Some? ==> r.value.name.index == position.value
  {
    if position.Some? && position.value < 0 then Failure(NegativePosition(position.value))
    else
      var d :- Gather(names, position.Some?, NoDraft);
      GatherFills(names, position.Some?, NoDraft);
      assert Classified(NoDraft);
      assert d.short.None? || ClassOf(Slot(d, ShortAlias).value) == ShortAlias;
      assert d.long.None? || ClassOf(Slot(d, LongAlias).value) == LongAlias;
      assert d.title.None? || ClassOf(Slot(d, Label).value) == Label;
      if position.Some? then
        Success(Identifier(Positional(position.value, d.title), d.description, false))
      else if d.short.None? && d.long.None? then Failure(NoName)
      else Success(Identifier(Named(d.short, d.long), d.description, false))
  }

  /** The identifier of the variadic catch-all query. */
  function MakeVariadic(description: Option<string>): (r: Identifier)
    ensures Valid(r) && r.name.Variadic?
  {
    Identifier(Variadic, description, false)
  }

  function SetOptional(id: Identifier, optional: bool): (r: Identifier)
    ensures r.name == id.name && r.description == id.description && r.optional == optional
  {
    id.(optional := optional)
  }

  /** Every filled slot holds a name of that slot's class. */
  predicate Classified(d: Draft) {
    forall c :: Slot(d, c).Some? ==> ClassOf(Slot(d, c).value) == c
  }

  /** Whether `Gather` succeeds from draft `d`: every name is allowed, its
      slot is still empty in `d`, and no two names share a slot. */
  predicate GatherOk(names: seq<string>, positional: bool, d: Draft) {
    && (forall i :: 0 <= i < |names| ==> Allowed(ClassOf(names[i]), positional))
    && (forall i :: 0 <= i < |names| ==> Slot(d, ClassOf(names[i])).None?)
    && (forall i, j :: 0 <= i < j < |names| ==> ClassOf(names[i]) != ClassOf(names[j]))
  }

  /** Gathering succeeds exactly when every name is allowed, its slot is
      still empty, and no two names share a slot. */
  lemma {:induction false} GatherSucceeds(names: seq<string>, positional: bool, d: Draft)
    ensures Gather(names, positional, d).Success? <==> GatherOk(names, positional, d)
    decreases |names|
  {
    if |names| > 0 {
      var n := names[0];
      var t := Take(d, n, positional);
      if t.Success? {
        var d' := t.value;
        GatherSucceeds(names[1..], positional, d');
        assert forall c :: Slot(d', c) == (if c == ClassOf(n) then Some(n) else Slot(d, c));
        if GatherOk(names, positional, d) {
          forall i | 0 <= i < |names| - 1
            ensures Slot(d', ClassOf(names[1..][i])).None?
          {
            assert ClassOf(names[0]) != ClassOf(names[i + 1]);
          }
        }
        if GatherOk(names[1..], positional, d') {
          forall i, j | 0 <= i < j < |names|
            ensures ClassOf(names[i]) != ClassOf(names[j])
          {
            if i > 0 {
              assert ClassOf(names[1..][i - 1]) != ClassOf(names[1..][j - 1]);
            } else {
              assert Slot(d', ClassOf(names[1..][j - 1])).None?;
            }
          }
          forall i | 0 <= i < |names|
            ensures Slot(d, ClassOf(names[i])).None?
          {
            if i > 0 {
              assert Slot(d', ClassOf(names[1..][i - 1])).None?;
            }
          }
        }
      } else {
        assert !GatherOk(names, positional, d) by {
          assert !(Allowed(ClassOf(names[0]), positional) && Slot(d, ClassOf(names[0])).None?);
        }
      }
    }
  }

  lemma {:induction false} GatherFills(names: seq<string>, positional: bool, d: Draft)
    ensures Gather(names, positional, d).Success? <==> GatherOk(names, positional, d)
    ensures Gather(names, positional, d).Success? ==>
      var r := Gather(names, positional, d).value;
      && (forall i :: 0 <= i < |names| ==> Slot(r, ClassOf(names[i])) == Some(names[i]))
      && (forall c :: Slot(d, c).Some? ==> Slot(r, c) == Slot(d, c))
      && (forall c :: Slot(r, c).Some? ==>
            Slot(d, c).Some? || exists i :: 0 <= i < |names| && ClassOf(names[i]) == c)
      && (Classified(d) ==> Classified(r))
    decreases |names|
  {
    GatherSucceeds(names, positional, d);
    if |names| > 0 {
      var n := names[0];
      var t := Take(d, n, positional);
      if t.Success? {
        var d' := t.value;
        GatherFills(names[1..], positional, d');
        assert forall c :: Slot(d', c) == (if c == ClassOf(n) then Some(n) else Slot(d, c));
        if Gather(names, positional, d).Success? {
          var r := Gather(names, positional, d).value;
          forall c | Slot(r, c).Some?
            ensures Slot(d, c).Some? || exists i :: 0 <= i < |names| && ClassOf(names[i]) == c
          {
            if Slot(d', c).Some? && c != ClassOf(n) {
              assert Slot(d, c).Some?;
            } else if c == ClassOf(n) {
              assert ClassOf(names[0]) == c;
            } else {
              var k :| 0 <= k < |names[1..]| && ClassOf(names[1..][k]) == c;
              assert ClassOf(names[k + 1]) == c;
            }
          }
          forall i | 0 <= i < |names|
            ensures Slot(r, ClassOf(names[i])) == Some(names[i])
          {
            if i > 0 {
              assert names[i] == names[1..][i - 1];
            }
          }
        }
      }
    }
  }

  /** A named identifier gets at least one alias exactly when some name is alias-shaped. */
  lemma {:induction false} GatherHasAlias(names: seq<string>, positional: bool)
    requires Gather(names, positional, NoDraft).Success?
    ensures var d := Gather(names, positional, NoDraft).value;
      (d.short.Some? || d.long.Some?) <==> exists i :: 0 <= i < |names| && IsAliasClass(ClassOf(names[i]))
  {
    GatherFills(names, positional, NoDraft);
    var d := Gather(names, positional, NoDraft).value;
    if exists i :: 0 <= i < |names| && IsAliasClass(ClassOf(names[i])) {
      var i :| 0 <= i < |names| && IsAliasClass(ClassOf(names[i]));
      assert Slot(d, ClassOf(names[i])).Some?;
    }
    if d.short.Some? || d.long.Some? {
      var c := if d.short.Some? then ShortAlias else LongAlias;
      assert Slot(d, c).Some? && Slot(NoDraft, c).None?;
      var k :| 0 <= k < |names| && ClassOf(names[k]) == c;
    }
  }

  /** The constructor accepts exactly the name lists of the reference definition. */
  lemma MakeIdentifierAccepts(names: seq<string>, position: Option<int>)
    ensures MakeIdentifier(names, position).Success? <==> Acceptable(names, position)
  {
    if !(position.Some? && position.value < 0) {
      GatherFills(names, position.Some?, NoDraft);
      assert forall c :: Slot(NoDraft, c).None?;
      if Gather(names, position.Some?, NoDraft).Success? {
        GatherHasAlias(names, position.Some?);
      }
    }
  }

  /** The aliases of a constructed identifier are exactly the alias-shaped
      names it was given. */
  lemma MakeIdentifierAliases(names: seq<string>, position: Option<int>, a: string)
    requires MakeIdentifier(names, position).Success?
    ensures Contains(MakeIdentifier(names, position).value, a) <==>
      a in names && IsAliasClass(ClassOf(a))
  {
    GatherFills(names, position.Some?, NoDraft);
    var d := Gather(names, position.Some?, NoDraft).value;
    var id := MakeIdentifier(names, position).value;
    if a in names && IsAliasClass(ClassOf(a)) {
      var i :| 0 <= i < |names| && names[i] == a;
      assert Slot(d, ClassOf(names[i])) == Some(a);
    }
    if Contains(id, a) {
      var c := if d.short == Some(a) then ShortAlias else LongAlias;
      assert Slot(d, c) == Some(a) && Slot(NoDraft, c).None?;
      var k :| 0 <= k < |names| && ClassOf(names[k]) == c;
      assert Slot(d, ClassOf(names[k])) == Some(names[k]);
    }
  }

  // ---------------------------------------------------------------------------
  // Overlap and containment

  predicate Contains(id: Identifier, alias: string) {
    id.name.Named? && (id.name.short == Some(alias) || id.name.long == Some(alias))
  }

  predicate ContainsIndex(id: Identifier, index: int) {
    id.name.Positional? && id.name.index == index
  }

  /** Two identifiers overlap when they share an alias, are positionals with
      the same index, or are both the variadic catch-all. */
  predicate Overlaps(a: Identifier, b: Identifier) {
    match (a.name, b.name)
    case (Named(s1, l1), Named(s2, l2)) => (s1.Some? && s1 == s2) || (l1.Some? && l1 == l2)
    case (Positional(i, _), Positional(j, _)) => i == j
    case (Variadic, Variadic) => true
    case _ => false
  }

  /** Overlap is symmetric and, for non-variadic identifiers, means exactly
      sharing a member alias or index; a named and a positional identifier
      never overlap. */
  lemma OverlapsShared(a: Identifier, b: Identifier)
    requires Valid(a) && Valid(b)
    requires !a.name.Variadic? && !b.name.Variadic?
    ensures Overlaps(a, b) == Overlaps(b, a)
    ensures Overlaps(a, b) <==>
      (exists s :: Contains(a, s) && Contains(b, s)) ||
      (exists i :: ContainsIndex(a, i) && ContainsIndex(b, i))
    ensures a.name.Named? != b.name.Named? ==> !Overlaps(a, b)
  {
    if a.name.Named? && b.name.Named? {
      if exists s :: Contains(a, s) && Contains(b, s) {
        var s :| Contains(a, s) && Contains(b, s);
        assert ValidShort(s) ==> |s| == 2;
        assert ValidLong(s) ==> |s| >= 4;
      }
      if a.name.short.Some? && a.name.short == b.name.short {
        assert Contains(a, a.name.short.value) && Contains(b, a.name.short.value);
      }
      if a.name.long.Some? && a.name.long == b.name.long {
        assert Contains(a, a.name.long.value) && Contains(b, a.name.long.value);
      }
    } else if a.name.Positional? && b.name.Positional? {
      if a.name.index == b.name.index {
        assert ContainsIndex(a, a.name.index) && ContainsIndex(b, a.name.index);
      }
    }
  }

  lemma OverlapsReflexive(a: Identifier)
    requires Valid(a)
    ensures Overlaps(a, a)
  {
  }

  // ---------------------------------------------------------------------------
  // Display forms

  /** Display form shared by positional and variadic identifiers. */
  function PlaceForm(id: Identifier): string {
    match id.name
    case Positional(i, title) => if title.Some? then title.value else "<" + ShowNat(i) + ">"
    case _ => "..."
  }

  /** The alias listed first: the short one when present. */
  function Shorter(id: Identifier): string {
    match id.name
    case Named(s, l) => if s.Some? then s.value else if l.Some? then l.value else ""
    case _ => PlaceForm(id)
  }

  /** The long alias when there is one, otherwise the short one; for positional
      and variadic identifiers the same text as `Help`. */
  function Longer(id: Identifier): (r: string)
    ensures Valid(id) && id.name.Named? ==>
      Contains(id, r) && forall a :: Contains(id, a) ==> |a| <= |r|
  {
    match id.name
    case Named(s, l) => if l.Some? then l.value else if s.Some? then s.value else ""
    case _ => PlaceForm(id)
  }

  /** `-s|--long` for a named identifier, `<title>` or `<index>` for a
      positional one and `...` for the variadic catch-all. */
  function Help(id: Identifier): (r: string)
    ensures Valid(id) && id.name.Named? && Shorter(id) != Longer(id) ==>
      r == Shorter(id) + "|" + Longer(id) && |Shorter(id)| < |Longer(id)|
    ensures Valid(id) && id.name.Named? && Shorter(id) == Longer(id) ==> r == Longer(id)
    ensures !id.name.Named? ==> r == Longer(id)
    ensures id.name.Positional? && Valid(id) ==> |r| >= 2 && r[0] == '<' && r[|r| - 1] == '>'
  {
    match id.name
    case Named(s, l) =>
      if s.Some? && l.Some? then s.value + "|" + l.value
      else if s.Some? then s.value
      else if l.Some? then l.value
      else ""
    case _ => PlaceForm(id)
  }

  // ---------------------------------------------------------------------------
  // Ordering for help listings

  function Rank(id: Identifier): nat {
    match id.name
    case Positional(_, _) => 0
    case Variadic => 1
    case Named(_, _) => 2
  }

  /** Positionals first, by index; then the catch-all; then named identifiers,
      required before optional, then by their longer alias compared without
      regard to letter case. */
  predicate Less(a: Identifier, b: Identifier) {
    if Rank(a) != Rank(b) then Rank(a) < Rank(b)
    else if a.name.Positional? then a.name.index < b.name.index
    else if a.name.Named? then
      if a.optional != b.optional then b.optional
      else LexLess(Lower(Longer(a)), Lower(Longer(b)))
    else false
  }

  /** `Less` is a strict order: irreflexive, asymmetric and transitive. */
  lemma LessStrictOrder(a: Identifier, b: Identifier, c: Identifier)
    ensures !Less(a, a)
    ensures Less(a, b) ==> !Less(b, a)
    ensures Less(a, b) && Less(b, c) ==> Less(a, c)
  {
    LexLessIrreflexive(Lower(Longer(a)));
    if Less(a, b) && Less(b, a) && a.name.Named? && b.name.Named? {
      LexLessTransitive(Lower(Longer(a)), Lower(Longer(b)), Lower(Longer(a)));
    }
    if Less(a, b) && Less(b, c) && a.name.Named? && b.name.Named? && c.name.Named?
       && a.optional == b.optional && b.optional == c.optional {
      LexLessTransitive(Lower(Longer(a)), Lower(Longer(b)), Lower(Longer(c)));
    }
  }

  /** Positionals precede named identifiers whatever their optional flags, and
      among named identifiers a required one precedes an optional one. */
  lemma LessGroups(a: Identifier, b: Identifier)
    ensures a.name.Positional? && b.name.Named? ==> Less(a, b) && !Less(b, a)
    ensures a.name.Named? && b.name.Named? && !a.optional && b.optional ==>
      Less(a, b) && !Less(b, a)
  {
  }
}

=== FILE: identifier_cases.dfy ===
/** Concrete identifier cases: construction, overlap, containment, display
    forms and the help-listing order. */
module IdentifierCases {
  import opened Wrappers
  import opened Errors
  import opened Identifiers

  lemma PrependHyphensCases()
    ensures PrependHyphens("") == ""
    ensures PrependHyphens("a") == "-a"
    ensures PrependHyphens("ab") == "--ab"
    ensures PrependHyphens("abc") == "--abc"
  {
  }

  lemma ConstructorAccepts()
    ensures MakeIdentifier(["-l", "--long"], None) == Success(Identifier(Named(Some("-l"), Some("--long")), None, false))
    ensures MakeIdentifier(["--long", "-l"], None) == Success(Identifier(Named(Some("-l"), Some("--long")), None, false))
    ensures MakeIdentifier(["-l"], None) == Success(Identifier(Named(Some("-l"), None), None, false))
    ensures MakeIdentifier(["--long"], None) == Success(Identifier(Named(None, Some("--long")), None, false))
  {
  }

  lemma ConstructorAcceptsMore()
    ensures MakeIdentifier(["--long", ""], None) == Success(Identifier(Named(None, Some("--long")), Some(""), false))
    ensures MakeIdentifier(["description"], Some(0)) == Success(Identifier(Positional(0, None), Some("description"), false))
    ensures MakeIdentifier([], Some(0)) == Success(Identifier(Positional(0, None), None, false))
    ensures MakeIdentifier(["--1e3"], None).Success?
    ensures MakeIdentifier(["--a3"], None).Success?
  {
  }

  lemma ConstructorRejects()
    ensures MakeIdentifier(["-l", "-l"], None).Failure?
    ensures MakeIdentifier(["--long", "--long"], None).Failure?
    ensures MakeIdentifier(["-l"], Some(0)).Failure?
    ensures MakeIdentifier(["--long"], Some(0)).Failure?
  {
  }

  lemma ConstructorRejectsMalformed()
    ensures MakeIdentifier([], None).Failure?
    ensures MakeIdentifier(["-long"], None).Failure?
    ensures MakeIdentifier(["--l"], None).Failure?
  {
  }

  /** The malformed names of the argument-naming test, and an alias given a position. */
  lemma NamingRejected()
    ensures MakeIdentifier(["s"], None).Failure?
    ensures MakeIdentifier(["--s"], None).Failure?
    ensures MakeIdentifier(["---cmon"], None).Failure?
    ensures MakeIdentifier(["-1"], None).Failure?
    ensures MakeIdentifier(["-x"], Some(3)).Failure?
  {
  }

  const Long0 := Identifier(Named(Some("-l"), None), None, false)
  const Long1 := Identifier(Named(Some("-l"), Some("--long")), None, false)
  const Long2 := Identifier(Named(None, Some("--long")), None, false)
  const Short0 := Identifier(Named(Some("-s"), None), None, false)
  const Short1 := Identifier(Named(Some("-s"), Some("--short")), None, false)
  const Short2 := Identifier(Named(None, Some("--short")), None, false)
  const Pos0 := Identifier(Positional(0, None), None, false)
  const Pos1 := Identifier(Positional(1, None), None, false)

  lemma OverlapCases()
    ensures Overlaps(Long0, Long1) && Overlaps(Long1, Long2) && !Overlaps(Long2, Long0)
    ensures !Overlaps(Long0, Short0) && !Overlaps(Long1, Short1) && !Overlaps(Long2, Short2)
    ensures !Overlaps(Long0, Pos0) && !Overlaps(Long1, Pos0) && !Overlaps(Long2, Pos0)
    ensures !Overlaps(Pos0, Long0) && !Overlaps(Pos0, Long2)
    ensures Overlaps(Pos0, Pos0) && !Overlaps(Pos0, Pos1)
  {
  }

  lemma ContainsCases()
    ensures !Contains(Long0, "--long") && Contains(Long1, "--long") && Contains(Long2, "--long")
    ensures Contains(Long0, "-l") && Contains(Long1, "-l") && !Contains(Long2, "-l")
    ensures !ContainsIndex(Long0, 0) && !ContainsIndex(Long2, 0)
    ensures ContainsIndex(Pos0, 0) && !Contains(Pos0, "--zeroth") && !ContainsIndex(Pos0, 1)
  {
  }

  lemma HelpCases()
    ensures Help(Long0) == "-l"
    ensures Help(Long1) == "-l|--long"
    ensures Help(Long2) == "--long"
  {
  }

  lemma HelpCasesPositional()
    ensures Help(MakeIdentifier(["description"], Some(0)).value) == "<0>"
    ensures Help(MakeIdentifier(["<name>", "description"], Some(0)).value) == "<name>"
    ensures Help(MakeIdentifier(["<name>"], Some(0)).value) == "<name>"
    ensures Help(MakeVariadic(None)) == "..."
  {
  }

  lemma LongerCases()
    ensures Longer(Long0) == "-l"
    ensures Longer(Long1) == "--long"
    ensures Longer(Long2) == "--long"
    ensures Longer(MakeIdentifier(["zeroth"], Some(0)).value) == "<0>"
    ensures Longer(MakeIdentifier(["<name>"], Some(0)).value) == "<name>"
    ensures Longer(MakeVariadic(None)) == "..."
  {
  }

  function N(short: string): Identifier {
    Identifier(Named(Some(short), None), None, false)
  }

  function L(long: string): Identifier {
    Identifier(Named(None, Some(long)), None, false)
  }

  function P(i: nat): Identifier {
    Identifier(Positional(i, None), None, false)
  }

  lemma LessByAlias()
    ensures Less(N("-a"), N("-z")) && !Less(N("-z"), N("-a"))
    ensures Less(L("--abc"), L("--zyx")) && !Less(L("--zyx"), L("--abc"))
    ensures Less(N("-a"), N("-B")) && Less(N("-B"), N("-c"))
  {
  }

  lemma LessByLongAlias()
    ensures var za := Identifier(Named(Some("-z"), Some("--aa")), None, false);
      var az := Identifier(Named(Some("-a"), Some("--az")), None, false);
      Less(za, az) && !Less(az, za)
  {
  }

  lemma LessPositionalsFirst()
    ensures Less(P(0), P(1)) && !Less(P(1), P(0))
    ensures Less(P(0), N("-a")) && !Less(N("-a"), P(0))
    ensures var first := Identifier(Positional(1, None), Some("first"), false);
      Less(P(0), first) && Less(first, P(2))
    ensures Less(SetOptional(P(0), true), N("-a"))
  {
  }

  lemma LessRequiredFirst()
    ensures Less(N("-c"), SetOptional(N("-a"), true))
  {
  }
}

=== FILE: introspection.dfy ===
/** The two-phase protocol. A program is the list of its query sites. The
    discovery pass builds and logs every query without touching the command
    line; the execution pass tokenizes the command line with the assignment
    arguments found by discovery, expects exactly as many queries as were
    discovered, and answers them in order. */
module Introspection {
  import opened Wrappers
  import opened Errors
  import opened Identifiers
  import opened Conversion
  import opened Tokenizer
  import opened Matching
  import opened Logging

  /** One query site: named or positional (`names` as given to the
      identifier constructor), or the catch-all for every positional value. */
  datatype Call =
    | Arg(names: seq<string>, position: Option<int>, kind: Kind, default: Option<Default>, optional: bool)
    | ArgAll(description: Option<string>, kind: Kind)

  /** The query a site makes; building its identifier may fail. */
  function Declare(c: Call): (r: Result<Query, Error>)
    ensures r.Success? ==> Valid(r.value.id) && r.value.kind == c.kind
    ensures c.Arg? ==> (r.Success? <==> MakeIdentifier(c.names, c.position).Success?)
    ensures c.Arg? && r.Success? ==>
      r.value.id == MakeIdentifier(c.names, c.position).value &&
      r.value.default == c.default && r.value.optional == c.optional
    ensures c.ArgAll? ==> r.Success? && r.value.id.name.Variadic?
  {
    match c
    case Arg(names, position, kind, default, optional) =>
      var id :- MakeIdentifier(names, position);
      Success(Query(id, kind, default, optional))
    case ArgAll(description, kind) =>
      Success(Query(MakeVariadic(description), kind, None, false))
  }

  /** Discovery: the log of every query the program makes, in order. */
  function Discover(program: seq<Call>): (r: Result<Logger, Error>)
    ensures r.Success? <==> forall k :: 0 <= k < |program| ==> Declare(program[k]).Success?
    ensures r.Success? ==> |r.value.entries| == |program|
    ensures r.Success? ==> forall k :: 0 <= k < |program| ==> r.value.entries[k] == Declare(program[k]).value
  {
    if |program| == 0 then Success(Empty)
    else
      var q :- Declare(program[0]);
      var rest :- Discover(program[1..]);
      assert forall k :: 1 <= k < |program| ==> program[k] == program[1..][k - 1];
      Success(Logger([q] + rest.entries))
  }

  /** Discovery logs a query site's query ahead of those of the sites after it. */
  lemma DiscoverCons(c: Call, cs: seq<Call>, q: Query, log: Logger)
    requires Declare(c) == Success(q) && Discover(cs) == Success(log)
    ensures Discover([c] + cs) == Success(Logger([q] + log.entries))
  {
    assert ([c] + cs)[1..] == cs;
  }

  /** Execution: a cycle over the full argument vector. In strict mode the
      number of expected queries is the number discovered. */
  function Fire(program: seq<Call>, argv: seq<string>, strict: bool): (r: Outcome<Run>)
    ensures r.Done? ==> |r.value.answers| == |program|
    ensures r.Done? ==> Consistent(r.value.final)
    ensures r.Done? && strict ==> AllClaimed(r.value.final) && r.value.final.deferred.None?
  {
    match Discover(program)
    case Failure(e) => Failed(e)
    case Success(log) =>
      var names := set a | a in AssignmentArguments(log);
      match Init(argv, strict, |log.entries|, names)
      case Failed(e) => Failed(e)
      case ShowHelp => ShowHelp
      case Done(m) =>
        RunAllConsistent(m, log.entries);
        RunAll(m, log.entries)
  }

  /** The assignment arguments of a program: a bare flag in the command line
      takes the following value exactly when some query names it with a
      non-boolean type. */
  lemma AssignmentNamesOfProgram(program: seq<Call>, a: string)
    requires Discover(program).Success?
    ensures a in AssignmentArguments(Discover(program).value) <==>
      exists k :: 0 <= k < |program| && program[k].Arg? && program[k].kind != Boolean &&
        Contains(Declare(program[k]).value.id, a)
  {
    var log := Discover(program).value;
    if a in AssignmentArguments(log) {
      var k :| 0 <= k < |log.entries| && log.entries[k].id.name.Named? &&
        log.entries[k].kind != Boolean && Contains(log.entries[k].id, a);
      assert program[k].Arg?;
    }
    if exists k :: 0 <= k < |program| && program[k].Arg? && program[k].kind != Boolean &&
        Contains(Declare(program[k]).value.id, a) {
      var k :| 0 <= k < |program| && program[k].Arg? && program[k].kind != Boolean &&
        Contains(Declare(program[k]).value.id, a);
      assert log.entries[k] == Declare(program[k]).value;
    }
  }

  /** Queries that are well formed, free of conflicts with each other and
      with the queries already answered. */
  predicate Admissible(queried: seq<Identifier>, qs: seq<Query>) {
    && (forall k :: 0 <= k < |qs| ==> CheckRequest(qs[k]).None?)
    && (forall k :: 0 <= k < |qs| ==> !ClashesWith(queried, qs[k].id))
    && (forall k, l :: 0 <= k < l < |qs| ==> !Clash(qs[k].id, qs[l].id))
  }

  /** Once help was asked for in strict mode, admissible queries run to the
      declared count and the cycle ends in the help exit, whatever else the
      command line holds. */
  lemma {:induction false} HelpRunShowsHelp(m: Matcher, qs: seq<Query>)
    requires m.strict && m.help && |qs| > 0 && |m.queried| + |qs| == m.declared
    requires Admissible(m.queried, qs)
    ensures RunAll(m, qs) == ShowHelp
    decreases |qs|
  {
    var q := qs[0];
    assert Admit(m, q.id).None?;
    if |qs| > 1 {
      var s := Resolve(m, q).value;
      var id := SetOptional(q.id, q.default.Some?);
      assert s.next.queried == m.queried + [id];
      forall k | 0 <= k < |qs[1..]|
        ensures !ClashesWith(s.next.queried, qs[1..][k].id)
      {
        assert !Clash(q.id, qs[k + 1].id);
        assert !Clash(id, qs[k + 1].id);
        assert !ClashesWith(m.queried, qs[k + 1].id);
      }
      HelpRunShowsHelp(s.next, qs[1..]);
    }
  }

  /** A program whose queries are admissible shows help, in strict mode,
      whenever the command line tokenizes and names `-h` or `--help`. */
  lemma HelpWins(program: seq<Call>, argv: seq<string>)
    requires Discover(program).Success?
    requires Admissible([], Discover(program).value.entries)
    requires var t := Tokenize(argv, set a | a in AssignmentArguments(Discover(program).value));
      t.Success? && HelpRequested(t.value)
    ensures Fire(program, argv, true) == ShowHelp
  {
    var log := Discover(program).value;
    var names := set a | a in AssignmentArguments(log);
    if |log.entries| > 0 {
      var m := Init(argv, true, |log.entries|, names).value;
      HelpRunShowsHelp(m, log.entries);
    }
  }
}

=== FILE: introspection_cases.dfy ===
/** Concrete two-phase cases: the query log of a discovery pass, and whole
    programs run through discovery and execution, where the same command line
    is read differently according to the types the program asks for. */
module IntrospectionCases {
  import opened Wrappers
  import opened Errors
  import opened Identifiers
  import opened Conversion
  import opened Tokenizer
  import opened Matching
  import opened Logging
  import opened Introspection
  import opened Evaluation
  import opened TokenizerCases
  import opened MatcherCases
  import opened StrictCases

  function ShortQuery(name: string, kind: Kind): Query {
    Query(Identifier(Named(Some(name), None), None, false), kind, None, false)
  }

  /** A program whose command line tokenizes, does not ask for help and makes
      at least one query runs its logged queries on a fresh strict cycle. */
  lemma FireRuns(program: seq<Call>, args: seq<string>, log: Logger, t: Tokens)
    requires Discover(program) == Success(log) && |log.entries| > 0
    requires Tokenize(Argv(args), set a | a in AssignmentArguments(log)) == Success(t)
    requires !HelpRequested(t)
    ensures Fire(program, Argv(args), true) == RunAll(Fresh(t, true, |log.entries|), log.entries)
  {
  }

  // ---------------------------------------------------------------------------
  // The query log

  const IntOrLong := Query(Identifier(Named(Some("-i"), Some("--int")), None, false), Int32, None, false)
  const LoggedCalls := [Arg(["-i", "--int"], None, Int32, None, false), Flag("-s", Str), Flag("--bool", Boolean)]
  const LoggedQueries := Logger([IntOrLong, ShortQuery("-s", Str), Query(Identifier(Named(None, Some("--bool")), None, false), Boolean, None, false)])

  lemma LoggedDiscovered()
    ensures Discover(LoggedCalls) == Success(LoggedQueries)
  {
    assert Declare(LoggedCalls[0]) == Success(IntOrLong);
    assert Declare(LoggedCalls[1]) == Success(ShortQuery("-s", Str));
    assert Declare(LoggedCalls[2]) == Success(LoggedQueries.entries[2]);
    Logs3(LoggedCalls[0], LoggedCalls[1], LoggedCalls[2], LoggedQueries.entries[0], LoggedQueries.entries[1], LoggedQueries.entries[2]);
  }

  /** Both aliases of an integer query and the alias of a string query are
      assignment arguments; a boolean flag is not. */
  lemma AssignmentArgumentsLogged()
    ensures Discover(LoggedCalls).Success?
    ensures var a := AssignmentArguments(Discover(LoggedCalls).value);
      "-i" in a && "--int" in a && "-s" in a && "--bool" !in a
  {
    LoggedDiscovered();
    LoggedNames();
  }

  lemma LoggedNames()
    ensures AssignmentArguments(LoggedQueries) == ["-i", "--int", "-s"]
  {
    var qs := LoggedQueries.entries;
    assert qs[2..][1..] == [];
    assert AssignmentNames(qs[2..]) == [];
    assert qs[1..][1..] == qs[2..];
    assert AssignmentNames(qs[1..]) == ["-s"];
    assert Aliases(IntOrLong.id) == ["-i", "--int"];
    assert AssignmentNames(qs) == ["-i", "--int"] + ["-s"];
  }

  // ---------------------------------------------------------------------------
  // One command line, two programs

  const XOne := Tokens([], [NamedArg("-x", Some("1"))])

  lemma XTakesOne()
    ensures Fire([Flag("-x", Int32)], Argv(["-x", "1"]), true) == RunAll(Fresh(XOne, true, 1), [IntX])
  {
    DeclaredX();
    var names := set a | a in AssignmentArguments(Logger([IntX]));
    assert Logger([IntX]).entries[0] == IntX;
    assert "-x" in names;
    JoinedFlag(names);
    FireRuns([Flag("-x", Int32)], ["-x", "1"], Logger([IntX]), XOne);
  }

  lemma XIsOne()
    ensures var r := Resolve(Fresh(XOne, true, 1), IntX);
      r.Done? && r.value.answer == Single(IntValue(1))
  {
    assert ShowInt(1) == "1";
    ConvertNumeral("1", 1, W32, true);
    assert FindNamed(XOne.named, "-x") == Some(0);
  }

  /** An integer `-x` takes the following `1` as its value. */
  lemma IntegerTakesValue()
    ensures var r := Fire([Flag("-x", Int32)], Argv(["-x", "1"]), true);
      r.Done? && r.value.answers == [Single(IntValue(1))]
  {
    XTakesOne();
    XIsOne();
    var m := Fresh(XOne, true, 1);
    var s := Resolve(m, IntX).value;
    assert [IntX][1..] == [];
    RunCons(m, [IntX], s, Run([], s.next));
  }

  const BoolX := ShortQuery("-x", Boolean)
  const FlagThenValue := Tokens(["1"], [NamedArg("-x", None)])
  const FlagSeen := Matcher(FlagThenValue, true, 2, false, [BoolX.id], {0}, {}, None)

  lemma FlagFirst()
    ensures Resolve(Fresh(FlagThenValue, true, 2), BoolX) == Done(Step(Single(BoolValue(true)), FlagSeen))
  {
    var f := Found(Single(BoolValue(true)), {0}, {});
    assert FindNamed(FlagThenValue.named, "-x") == Some(0);
    assert Lookup(FlagThenValue, BoolX) == Success(f);
    assert SetOptional(BoolX.id, false) == BoolX.id;
    assert Record(Fresh(FlagThenValue, true, 2), BoolX, f, None) == FlagSeen;
  }

  lemma ValueSecond()
    ensures var r := Resolve(FlagSeen, IntAt(0));
      r.Done? && r.value.answer == Single(IntValue(1))
  {
    assert ShowInt(1) == "1";
    ConvertNumeral("1", 1, W32, true);
    assert !ClashesWith([BoolX.id], IntAt(0).id);
    var f := Found(Single(IntValue(1)), {}, {0});
    assert Lookup(FlagThenValue, IntAt(0)) == Success(f);
    var n := Record(FlagSeen, IntAt(0), f, None);
    assert n.claimedNamed == {0} && n.claimedPositional == {0};
    assert AllClaimed(n);
  }

  /** Neither a boolean flag nor a positional takes a value by assignment. */
  lemma NothingAssigned()
    ensures AssignmentArguments(Logger([BoolX, IntAt(0)])) == []
  {
    assert [BoolX, IntAt(0)][1..][1..] == [];
    assert AssignmentNames([BoolX, IntAt(0)][1..]) == [];
  }

  lemma FlagThenValueStart()
    ensures Fire([Flag("-x", Boolean), At(0, Int32)], Argv(["-x", "1"]), true) ==
      RunAll(Fresh(FlagThenValue, true, 2), [BoolX, IntAt(0)])
  {
    var log := Logger([BoolX, IntAt(0)]);
    Logs2(Flag("-x", Boolean), At(0, Int32), BoolX, IntAt(0));
    NothingAssigned();
    var names := set a | a in AssignmentArguments(log);
    assert names == {};
    BareFlagThenValue(names, "1");
    FireRuns([Flag("-x", Boolean), At(0, Int32)], ["-x", "1"], log, FlagThenValue);
  }

  /** A boolean `-x` leaves the following `1` to the positional query. */
  lemma BooleanLeavesValue()
    ensures var r := Fire([Flag("-x", Boolean), At(0, Int32)], Argv(["-x", "1"]), true);
      r.Done? && r.value.answers == [Single(BoolValue(true)), Single(IntValue(1))]
  {
    FlagThenValueStart();
    FlagFirst();
    ValueSecond();
    var s := Resolve(FlagSeen, IntAt(0)).value;
    assert [IntAt(0)][1..] == [];
    RunCons(FlagSeen, [IntAt(0)], s, Run([], s.next));
    assert [Single(IntValue(1))] + [] == [Single(IntValue(1))];
    assert [BoolX, IntAt(0)][1..] == [IntAt(0)];
    RunCons(Fresh(FlagThenValue, true, 2), [BoolX, IntAt(0)], Step(Single(BoolValue(true)), FlagSeen), Run([Single(IntValue(1))], s.next));
  }

  // ---------------------------------------------------------------------------
  // Values that begin with hyphens

  const DashedCalls := [Flag("-x", Int32), Flag("-y", Int32), Flag("-z", Str), Flag("-w", Str), Flag("-q", Str)]
  const DashedQueries := [ShortQuery("-x", Int32), ShortQuery("-y", Int32), ShortQuery("-z", Str), ShortQuery("-w", Str), ShortQuery("-q", Str)]
  const DashedTokens := Tokens([], [NamedArg("-x", Some("-1")), NamedArg("-y", Some("-1")), NamedArg("-z", Some("-name")),
                                    NamedArg("-w", Some("--name")), NamedArg("-q", Some("---name"))])
  const DashedAnswers := [Single(IntValue(-1)), Single(IntValue(-1)), Single(StrValue("-name")),
                          Single(StrValue("--name")), Single(StrValue("---name"))]

  /** The strict cycle after the first `k` of the five queries. */
  function DashedAt(k: nat): Matcher
    requires k <= 5
  {
    Matcher(DashedTokens, true, 5, false, seq(k, i requires 0 <= i < k => DashedQueries[i].id), Indices(k), {}, None)
  }

  lemma DashedTailDiscovered()
    ensures Discover(DashedCalls[2..]) == Success(Logger(DashedQueries[2..]))
  {
    var cs := DashedCalls;
    var qs := DashedQueries;
    assert Declare(cs[3]) == Success(qs[3]) && Declare(cs[4]) == Success(qs[4]);
    Logs2(cs[3], cs[4], qs[3], qs[4]);
    assert Declare(cs[2]) == Success(qs[2]);
    DiscoverCons(cs[2], [cs[3], cs[4]], qs[2], Logger([qs[3], qs[4]]));
    assert [cs[2]] + [cs[3], cs[4]] == cs[2..] && [qs[2]] + [qs[3], qs[4]] == qs[2..];
  }

  lemma DashedDiscovered()
    ensures Discover(DashedCalls) == Success(Logger(DashedQueries))
  {
    var cs := DashedCalls;
    var qs := DashedQueries;
    DashedTailDiscovered();
    assert Declare(cs[1]) == Success(qs[1]);
    DiscoverCons(cs[1], cs[2..], qs[1], Logger(qs[2..]));
    assert [cs[1]] + cs[2..] == cs[1..] && [qs[1]] + qs[2..] == qs[1..];
    assert Declare(cs[0]) == Success(qs[0]);
    DiscoverCons(cs[0], cs[1..], qs[0], Logger(qs[1..]));
    assert [cs[0]] + cs[1..] == cs && [qs[0]] + qs[1..] == qs;
  }

  lemma DashedAssigned()
    ensures "-x" in set a | a in AssignmentArguments(Logger(DashedQueries))
  {
    assert Logger(DashedQueries).entries[0] == ShortQuery("-x", Int32);
  }

  lemma DashedNoHelp()
    ensures !HelpRequested(DashedTokens)
  {
    var named := DashedTokens.named;
    assert !Occurs("-h", named[2..]) && !Occurs("--help", named[2..]);
  }

  lemma DashedStart()
    ensures Fire(DashedCalls, Argv(["-x", "-1", "-y=-1", "-z=-name", "-w=--name", "-q=---name"]), true) ==
      RunAll(Fresh(DashedTokens, true, 5), DashedQueries)
  {
    DashedDiscovered();
    DashedAssigned();
    DashedValues(set a | a in AssignmentArguments(Logger(DashedQueries)));
    DashedNoHelp();
    FireRuns(DashedCalls, ["-x", "-1", "-y=-1", "-z=-name", "-w=--name", "-q=---name"], Logger(DashedQueries), DashedTokens);
  }

  /** The `k`-th query finds its token at index `k` and converts it. */
  lemma DashedFound(k: nat)
    requires k < 5
    ensures MatchNamed(DashedTokens.named, DashedQueries[k].id) == Success(Some(k))
    ensures Convert(DashedTokens.named[k].value, DashedQueries[k].kind) == Success(DashedAnswers[k].v)
  {
    var named := DashedTokens.named;
    if k < 2 {
      assert ShowInt(-1) == "-1";
      ConvertNumeral("-1", -1, W32, true);
      assert FindNamed(named, "-x") == Some(0);
      assert FindNamed(named, "-y") == Some(1);
    } else if k == 2 {
      assert FindNamed(named[2..], "-z") == Some(0);
    } else if k == 3 {
      assert FindNamed(named[3..], "-w") == Some(0);
      assert FindNamed(named[2..], "-w") == Some(1);
    } else {
      assert FindNamed(named[4..], "-q") == Some(0);
      assert FindNamed(named[3..], "-q") == Some(1);
      assert FindNamed(named[2..], "-q") == Some(2);
    }
  }

  /** No query conflicts with the ones before it. */
  lemma DashedDistinct(k: nat)
    requires k < 5
    ensures !ClashesWith(DashedAt(k).queried, DashedQueries[k].id)
  {
    forall i | 0 <= i < k
      ensures !Clash(DashedAt(k).queried[i], DashedQueries[k].id)
    {
      assert DashedAt(k).queried[i] == DashedQueries[i].id;
    }
  }

  /** Recording the `k`-th query and its token gives the next cycle. */
  lemma DashedNext(k: nat)
    requires k < 5
    ensures DashedAt(k).(queried := DashedAt(k).queried + [DashedQueries[k].id],
                         claimedNamed := DashedAt(k).claimedNamed + {k}) == DashedAt(k + 1)
    ensures AllClaimed(DashedAt(5))
  {
    assert DashedAt(k).queried + [DashedQueries[k].id] == DashedAt(k + 1).queried;
    assert Indices(k) + {k} == Indices(k + 1);
  }

  lemma DashedStep(k: nat)
    requires k < 5
    ensures Resolve(DashedAt(k), DashedQueries[k]) == Done(Step(DashedAnswers[k], DashedAt(k + 1)))
  {
    DashedFound(k);
    DashedDistinct(k);
    DashedNext(k);
    ClaimStep(DashedAt(k), DashedQueries[k], k, DashedAnswers[k].v);
  }

  /** The queries from the `k`-th on answer in turn, each claiming its token. */
  lemma {:induction false} DashedRun(k: nat)
    requires k <= 5
    ensures RunAll(DashedAt(k), DashedQueries[k..]) == Done(Run(DashedAnswers[k..], DashedAt(5)))
    decreases 5 - k
  {
    if k < 5 {
      DashedStep(k);
      DashedRun(k + 1);
      assert DashedQueries[k..][1..] == DashedQueries[k + 1..];
      assert [DashedAnswers[k]] + DashedAnswers[k + 1..] == DashedAnswers[k..];
      RunCons(DashedAt(k), DashedQueries[k..], Step(DashedAnswers[k], DashedAt(k + 1)), Run(DashedAnswers[k + 1..], DashedAt(5)));
    } else {
      assert DashedQueries[k..] == [] && DashedAnswers[k..] == [];
    }
  }

  /** Values beginning with one, two or three hyphens reach their queries
      intact, and `-1` after an integer flag is its value. */
  lemma DashedProgram()
    ensures var r := Fire(DashedCalls, Argv(["-x", "-1", "-y=-1", "-z=-name", "-w=--name", "-q=---name"]), true);
      r.Done? && r.value.answers == DashedAnswers
  {
    DashedStart();
    DashedRun(0);
    assert DashedAt(0) == Fresh(DashedTokens, true, 5);
    assert DashedQueries[0..] == DashedQueries && DashedAnswers[0..] == DashedAnswers;
  }
}

=== FILE: logger.dfy ===
/** The query log: every query in the order it was made, whatever its
    outcome. The flag names of the named queries for a non-boolean type are
    the assignment arguments: a bare occurrence of such a flag takes the next
    token as its value. */
module Logging {
  import opened Wrappers
  import opened Identifiers
  import opened Conversion
  import opened Matching

  datatype Logger = Logger(entries: seq<Query>)

  const Empty := Logger([])

  function Log(l: Logger, q: Query): (r: Logger)
    ensures |r.entries| == |l.entries| + 1
    ensures r.entries[..|l.entries|] == l.entries && r.entries[|l.entries|] == q
  {
    Logger(l.entries + [q])
  }

  /** The aliases of a named identifier, short first. */
  function Aliases(id: Identifier): (r: seq<string>)
    ensures forall a :: a in r <==> id.name.Named? && Contains(id, a)
  {
    match id.name
    case Named(s, l) =>
      (if s.Some? then [s.value] else []) + (if l.Some? then [l.value] else [])
    case _ => []
  }

  /** A query takes its value by assignment when it is named and not boolean. */
  predicate TakesAssignment(q: Query) {
    q.id.name.Named? && q.kind != Boolean
  }

  function AssignmentNames(qs: seq<Query>): (r: seq<string>)
    ensures forall a :: a in r <==>
      exists k :: 0 <= k < |qs| && TakesAssignment(qs[k]) && Contains(qs[k].id, a)
  {
    if |qs| == 0 then []
    else
      var rest := AssignmentNames(qs[1..]);
      assert forall k :: 1 <= k < |qs| ==> qs[k] == qs[1..][k - 1];
      (if TakesAssignment(qs[0]) then Aliases(qs[0].id) else []) + rest
  }

  /** The flag names logged for non-boolean named queries, in query order. */
  function AssignmentArguments(l: Logger): (r: seq<string>)
    ensures forall a :: a in r <==>
      exists k :: 0 <= k < |l.entries| &&
        l.entries[k].id.name.Named? && l.entries[k].kind != Boolean && Contains(l.entries[k].id, a)
  {
    AssignmentNames(l.entries)
  }

  /** Logging more queries never withdraws an assignment argument. */
  lemma AssignmentArgumentsGrow(l: Logger, q: Query)
    ensures forall a :: a in AssignmentArguments(l) ==> a in AssignmentArguments(Log(l, q))
    ensures forall a :: a in AssignmentArguments(Log(l, q)) ==>
      a in AssignmentArguments(l) || (TakesAssignment(q) && Contains(q.id, a))
  {
    var n := Log(l, q);
    forall a | a in AssignmentArguments(l)
      ensures a in AssignmentArguments(n)
    {
      var k :| 0 <= k < |l.entries| && l.entries[k].id.name.Named? &&
        l.entries[k].kind != Boolean && Contains(l.entries[k].id, a);
      assert n.entries[k] == l.entries[k];
    }
    forall a | a in AssignmentArguments(n) && !(TakesAssignment(q) && Contains(q.id, a))
      ensures a in AssignmentArguments(l)
    {
      var k :| 0 <= k < |n.entries| && n.entries[k].id.name.Named? &&
        n.entries[k].kind != Boolean && Contains(n.entries[k].id, a);
      assert k < |l.entries|;
      assert l.entries[k] == n.entries[k];
    }
  }
}

=== FILE: matcher.dfy ===
/** The resolution engine: binds each query to the command-line tokens,
    converts the match, applies defaults, and in strict mode enforces that no
    two queries overlap, that the declared number of queries is not exceeded
    and that every token has been claimed once that number is reached. */
module Matching {
  import opened Wrappers
  import opened Errors
  import opened Identifiers
  import opened Conversion
  import opened Tokenizer

  /** One resolution cycle. `declared` is the number of queries the program
      will make (only used in strict mode); `help` is set in strict mode when
      `-h` or `--help` was given; `queried` lists the identifiers queried so
      far; the claimed sets hold indices into the token lists. In strict mode
      an error about the command line is `deferred` until the declared number
      of queries is reached, so that a help request still wins over it. */
  datatype Matcher = Matcher(
    tokens: Tokens,
    strict: bool,
    declared: nat,
    help: bool,
    queried: seq<Identifier>,
    claimedNamed: set<nat>,
    claimedPositional: set<nat>,
    deferred: Option<Error>)

  /** `ShowHelp` is the successful exit after the help listing. */
  datatype Outcome<T> = Done(value: T) | Failed(error: Error) | ShowHelp

  /** `Absent` is the empty result of a query for an optional value. */
  datatype Answer = Single(v: Value) | Absent | Many(vs: seq<Value>)

  datatype Step = Step(answer: Answer, next: Matcher)

  /** The answers to a list of queries and the cycle after the last one. */
  datatype Run = Run(answers: seq<Answer>, final: Matcher)

  /** A query for `id` as `kind`, with an optional default, possibly asking
      for an optional result instead of a plain value. */
  datatype Query = Query(id: Identifier, kind: Kind, default: Option<Default>, optional: bool)

  /** Two queries conflict in strict mode when their identifiers overlap or
      one is positional and the other the catch-all. */
  predicate Clash(a: Identifier, b: Identifier) {
    || Overlaps(a, b)
    || (a.name.Variadic? && b.name.Positional?)
    || (a.name.Positional? && b.name.Variadic?)
  }

  function ClashesWith(qs: seq<Identifier>, id: Identifier): (r: bool)
    ensures r <==> exists k :: 0 <= k < |qs| && Clash(qs[k], id)
  {
    if |qs| == 0 then false else Clash(qs[0], id) || ClashesWith(qs[1..], id)
  }

  predicate AllClaimed(m: Matcher) {
    && (forall j :: 0 <= j < |m.tokens.named| ==> j in m.claimedNamed)
    && (forall i :: 0 <= i < |m.tokens.positional| ==> i in m.claimedPositional)
  }

  // ---------------------------------------------------------------------------
  // Construction

  function HelpRequested(t: Tokens): bool {
    Occurs("-h", t.named) || Occurs("--help", t.named)
  }

  /** Checks made when the declared number of queries has been reached in
      strict mode: help is shown if asked for, otherwise the first deferred
      error is reported, otherwise every token must have been claimed. */
  function Settle(m: Matcher): (r: Outcome<Matcher>)
    ensures r.Done? ==> r.value == m
    ensures r.Done? && m.strict && |m.queried| == m.declared ==> AllClaimed(m) && m.deferred.None?
    ensures r.ShowHelp? <==> m.strict && |m.queried| == m.declared && m.help
    ensures r.Failed? && m.deferred.Some? ==> r.error == m.deferred.value
  {
    if m.strict && |m.queried| == m.declared then
      if m.help then ShowHelp
      else if m.deferred.Some? then Failed(m.deferred.value)
      else if !AllClaimed(m) then Failed(UnclaimedArguments)
      else Done(m)
    else Done(m)
  }

  /** Starts a cycle from the full argument vector. `assignment` is the set of
      flag names the program queries with a non-boolean type, found by the
      discovery pass. */
  function Init(argv: seq<string>, strict: bool, declared: nat, assignment: set<string>): (r: Outcome<Matcher>)
    ensures r.Done? ==> Consistent(r.value) && r.value.queried == []
    ensures r.Done? ==> r.value.strict == strict && r.value.declared == declared
    ensures r.Done? ==> Tokenize(argv, assignment).Success? && r.value.tokens == Tokenize(argv, assignment).value
    ensures r.Done? && strict && declared == 0 ==> r.value.tokens == Tokens([], [])
    ensures Tokenize(argv, assignment).Failure? ==> r.Failed?
  {
    match Tokenize(argv, assignment)
    case Failure(e) => Failed(e)
    case Success(t) =>
      var m := Matcher(t, strict, declared, strict && HelpRequested(t), [], {}, {}, None);
      Settle(m)
  }

  // ---------------------------------------------------------------------------
  // Lookup

  function FindNamed(named: seq<NamedArg>, alias: string): (r: Option<nat>)
    ensures r.Some? ==> r.value < |named| && named[r.value].name == alias
    ensures r.None? ==> forall j :: 0 <= j < |named| ==> named[j].name != alias
  {
    if |named| == 0 then None
    else if named[0].name == alias then Some(0)
    else match FindNamed(named[1..], alias)
      case None => None
      case Some(j) => Some(j + 1)
  }

  /** The token matched by a named identifier; a token for each of its two
      aliases is ambiguous. */
  function MatchNamed(named: seq<NamedArg>, id: Identifier): (r: Result<Option<nat>, Error>)
    requires id.name.Named?
    ensures r.Success? && r.value.Some? ==>
      r.value.value < |named| && Contains(id, named[r.value.value].name)
    ensures r.Success? && r.value.None? ==>
      forall j :: 0 <= j < |named| ==> !Contains(id, named[j].name)
    ensures r.Failure? ==>
      exists j, k :: 0 <= j < |named| && 0 <= k < |named| && j != k &&
                     Contains(id, named[j].name) && Contains(id, named[k].name)
  {
    var s := if id.name.short.Some? then FindNamed(named, id.name.short.value) else None;
    var l := if id.name.long.Some? then FindNamed(named, id.name.long.value) else None;
    if s.Some? && l.Some? && s != l then Failure(AmbiguousArgument(Help(id)))
    else Success(if s.Some? then s else l)
  }

  /** The answer to a query nothing on the command line matched. */
  function Missing(q: Query): (r: Result<Answer, Error>)
    ensures q.default.Some? ==> r == (match DefaultValue(q.default.value, q.kind)
                                      case Success(v) => Success(Single(v))
                                      case Failure(e) => Failure(e))
    ensures q.default.None? && q.optional ==> r == Success(Absent)
    ensures q.default.None? && !q.optional ==>
      (r.Success? <==> q.kind == Boolean) && (r.Success? ==> r.value == Single(BoolValue(false)))
  {
    if q.default.Some? then
      var v :- DefaultValue(q.default.value, q.kind);
      Success(Single(v))
    else if q.optional then Success(Absent)
    else if q.kind == Boolean then Success(Single(BoolValue(false)))
    else Failure(MissingArgument(Longer(q.id)))
  }

  function ConvertAll(vs: seq<string>, kind: Kind): (r: Result<seq<Value>, Error>)
    ensures r.Success? ==> |r.value| == |vs|
    ensures r.Success? ==> forall i :: 0 <= i < |vs| ==> Convert(Some(vs[i]), kind) == Success(r.value[i])
    ensures r.Failure? ==> exists i :: 0 <= i < |vs| && Convert(Some(vs[i]), kind).Failure?
  {
    if |vs| == 0 then Success([])
    else
      var v :- Convert(Some(vs[0]), kind);
      var rest :- ConvertAll(vs[1..], kind);
      assert forall i :: 1 <= i < |vs| ==> vs[i] == vs[1..][i - 1];
      Success([v] + rest)
  }

  function Indices(n: nat): (r: set<nat>)
    ensures forall i: nat :: i in r <==> i < n
  {
    if n == 0 then {} else Indices(n - 1) + {n - 1}
  }

  /** What a query found and which tokens it claims. */
  datatype Found = Found(answer: Answer, named: set<nat>, positional: set<nat>)

  function Lookup(t: Tokens, q: Query): (r: Result<Found, Error>)
    ensures r.Success? ==> forall j :: j in r.value.named ==>
      j < |t.named| && Contains(q.id, t.named[j].name)
    ensures r.Success? ==> forall i :: i in r.value.positional ==>
      i < |t.positional| && (ContainsIndex(q.id, i) || q.id.name.Variadic?)
    ensures r.Success? && q.id.name.Variadic? ==> r.value.positional == Indices(|t.positional|)
  {
    match q.id.name
    case Named(_, _) =>
      var hit :- MatchNamed(t.named, q.id);
      if hit.Some? then
        var v :- Convert(t.named[hit.value].value, q.kind);
        Success(Found(Single(v), {hit.value}, {}))
      else
        var a :- Missing(q);
        Success(Found(a, {}, {}))
    case Positional(i, _) =>
      if i < |t.positional| then
        var v :- Convert(Some(t.positional[i]), q.kind);
        Success(Found(Single(v), {}, {i}))
      else
        var a :- Missing(q);
        Success(Found(a, {}, {}))
    case Variadic =>
      var vs :- ConvertAll(t.positional, q.kind);
      Success(Found(Many(vs), {}, Indices(|t.positional|)))
  }

  /** During help display every query is answered without looking at the
      command line. */
  function HelpAnswer(q: Query): Answer {
    if q.id.name.Variadic? then Many([])
    else if q.default.Some? && DefaultValue(q.default.value, q.kind).Success? then
      Single(DefaultValue(q.default.value, q.kind).value)
    else if q.optional then Absent
    else Single(Placeholder(q.kind))
  }

  // ---------------------------------------------------------------------------
  // Resolution

  /** The strict-mode admission checks: the declared count is not yet
      reached and no earlier query conflicts with this one. */
  function Admit(m: Matcher, id: Identifier): (r: Option<Error>)
    ensures r.None? <==> !m.strict || (|m.queried| < m.declared && !ClashesWith(m.queried, id))
  {
    if !m.strict then None
    else if |m.queried| >= m.declared then Some(TooManyQueries)
    else if ClashesWith(m.queried, id) then Some(DuplicateQuery(Longer(id)))
    else None
  }

  /** The request itself is well formed: a default and an optional result
      exclude each other, the catch-all takes neither, and a default must
      have the requested type. */
  function CheckRequest(q: Query): (r: Option<Error>)
    ensures r.None? <==>
      && !(q.optional && q.default.Some?)
      && !(q.id.name.Variadic? && (q.optional || q.default.Some?))
      && (q.default.Some? ==> DefaultValue(q.default.value, q.kind).Success?)
  {
    if q.optional && q.default.Some? then Some(OptionalWithDefault)
    else if q.id.name.Variadic? && (q.optional || q.default.Some?) then Some(DefaultMismatch)
    else if q.default.Some? && DefaultValue(q.default.value, q.kind).Failure? then Some(DefaultMismatch)
    else None
  }

  function Record(m: Matcher, q: Query, f: Found, error: Option<Error>): Matcher {
    m.(queried := m.queried + [SetOptional(q.id, q.default.Some?)],
       claimedNamed := m.claimedNamed + f.named,
       claimedPositional := m.claimedPositional + f.positional,
       deferred := if m.deferred.Some? then m.deferred else error)
  }

  /** The result of looking a query up: during help display nothing is looked
      up, and in strict mode a failed lookup answers like help display. */
  function Effective(m: Matcher, q: Query): Found {
    var found := Lookup(m.tokens, q);
    if m.help || found.Failure? then Found(HelpAnswer(q), {}, {}) else found.value
  }

  /** Answers one query and advances the cycle. */
  function Resolve(m: Matcher, q: Query): (r: Outcome<Step>)
    ensures r.Done? ==> r.value.next.tokens == m.tokens && r.value.next.strict == m.strict
    ensures r.Done? ==> r.value.next.declared == m.declared && r.value.next.help == m.help
    ensures r.Done? ==> r.value.next.queried == m.queried + [SetOptional(q.id, q.default.Some?)]
    ensures r.Done? ==> m.claimedNamed <= r.value.next.claimedNamed
    ensures r.Done? ==> m.claimedPositional <= r.value.next.claimedPositional
    ensures r.Done? && m.strict ==> |r.value.next.queried| <= m.declared
    ensures r.Done? && m.strict && |r.value.next.queried| == m.declared ==>
      AllClaimed(r.value.next) && r.value.next.deferred.None?
    ensures r.Done? && m.strict ==> !ClashesWith(m.queried, q.id)
    ensures r.ShowHelp? ==> m.help
  {
    match Admit(m, q.id)
    case Some(e) => Failed(e)
    case None =>
      match CheckRequest(q)
      case Some(e) => Failed(e)
      case None =>
        var found := Lookup(m.tokens, q);
        if !m.help && !m.strict && found.Failure? then Failed(found.error)
        else
          var error := if !m.help && found.Failure? then Some(found.error) else None;
          var f := Effective(m, q);
          match Settle(Record(m, q, f, error))
          case Done(n) => Done(Step(f.answer, n))
          case Failed(e) => Failed(e)
          case ShowHelp => ShowHelp
  }

  /** Answers the queries in order, stopping at the first failure or at the
      help exit. */
  function RunAll(m: Matcher, qs: seq<Query>): (r: Outcome<Run>)
    ensures r.Done? ==> |r.value.answers| == |qs| && r.value.final.tokens == m.tokens
    ensures r.Done? ==> r.value.final.strict == m.strict && r.value.final.declared == m.declared
    ensures r.Done? ==> |r.value.final.queried| == |m.queried| + |qs|
    ensures r.Done? && m.strict && |qs| > 0 && |m.queried| + |qs| == m.declared ==>
      AllClaimed(r.value.final) && r.value.final.deferred.None?
    ensures r.ShowHelp? ==> m.help
    decreases |qs|
  {
    if |qs| == 0 then Done(Run([], m))
    else match Resolve(m, qs[0])
      case Failed(e) => Failed(e)
      case ShowHelp => ShowHelp
      case Done(s) =>
        match RunAll(s.next, qs[1..])
        case Done(rest) => Done(Run([s.answer] + rest.answers, rest.final))
        case Failed(e) => Failed(e)
        case ShowHelp => ShowHelp
  }

  /** Resolving a list of well-formed queries keeps the cycle consistent. */
  lemma {:induction false} RunAllConsistent(m: Matcher, qs: seq<Query>)
    requires Consistent(m)
    requires forall k :: 0 <= k < |qs| ==> Valid(qs[k].id)
    ensures RunAll(m, qs).Done? ==> Consistent(RunAll(m, qs).value.final)
    decreases |qs|
  {
    if |qs| > 0 {
      ResolveKeepsConsistent(m, qs[0]);
      if Resolve(m, qs[0]).Done? {
        RunAllConsistent(Resolve(m, qs[0]).value.next, qs[1..]);
      }
    }
  }

  // ---------------------------------------------------------------------------
  // Invariant of a cycle

  /** Every claimed token is justified by an earlier query that names it, and
      in strict mode the queries are pairwise free of conflicts and within the
      declared count. */
  predicate Consistent(m: Matcher) {
    && WellFormed(m.tokens.named)
    && (forall k :: 0 <= k < |m.queried| ==> Valid(m.queried[k]))
    && (forall j :: j in m.claimedNamed ==>
          && j < |m.tokens.named|
          && exists k :: 0 <= k < |m.queried| && Contains(m.queried[k], m.tokens.named[j].name))
    && (forall i :: i in m.claimedPositional ==>
          && i < |m.tokens.positional|
          && exists k :: 0 <= k < |m.queried| &&
               (ContainsIndex(m.queried[k], i) || m.queried[k].name.Variadic?))
    && (m.strict ==> |m.queried| <= m.declared)
    && (m.strict ==> forall k, l :: 0 <= k < l < |m.queried| ==> !Clash(m.queried[k], m.queried[l]))
  }

  /** A token already claimed by an earlier query can only be claimed again
      by a query that conflicts with that earlier one. */
  lemma ClaimedMeansClash(m: Matcher, id: Identifier)
    requires Consistent(m) && Valid(id)
    ensures forall j :: j in m.claimedNamed && Contains(id, m.tokens.named[j].name) ==>
      ClashesWith(m.queried, id)
    ensures forall i :: i in m.claimedPositional && (ContainsIndex(id, i) || id.name.Variadic?) ==>
      ClashesWith(m.queried, id)
  {
    forall j | j in m.claimedNamed && Contains(id, m.tokens.named[j].name)
      ensures ClashesWith(m.queried, id)
    {
      var k :| 0 <= k < |m.queried| && Contains(m.queried[k], m.tokens.named[j].name);
      OverlapsShared(m.queried[k], id);
      assert Clash(m.queried[k], id);
    }
    forall i | i in m.claimedPositional && (ContainsIndex(id, i) || id.name.Variadic?)
      ensures ClashesWith(m.queried, id)
    {
      var k :| 0 <= k < |m.queried| && (ContainsIndex(m.queried[k], i) || m.queried[k].name.Variadic?);
      assert Clash(m.queried[k], id);
    }
  }

  /** Resolving a well-formed query keeps the cycle consistent, and in strict
      mode the tokens it claims were not claimed before: every token is
      claimed at most once. */
  lemma ResolveKeepsConsistent(m: Matcher, q: Query)
    requires Consistent(m) && Valid(q.id)
    ensures Resolve(m, q).Done? ==> Consistent(Resolve(m, q).value.next)
    ensures Resolve(m, q).Done? && m.strict ==>
      var n := Resolve(m, q).value.next;
      && n.claimedNamed - m.claimedNamed !! m.claimedNamed
      && (forall j :: j in n.claimedNamed - m.claimedNamed ==> Contains(q.id, m.tokens.named[j].name))
      && (forall i :: i in n.claimedPositional - m.claimedPositional ==>
            ContainsIndex(q.id, i) || q.id.name.Variadic?)
      && (forall i :: i in n.claimedPositional - m.claimedPositional ==> i !in m.claimedPositional)
  {
    if Resolve(m, q).Done? {
      var n := Resolve(m, q).value.next;
      var f := Effective(m, q);
      assert n.claimedNamed == m.claimedNamed + f.named;
      assert n.claimedPositional == m.claimedPositional + f.positional;
      var id' := SetOptional(q.id, q.default.Some?);
      assert n.queried[|m.queried|] == id';
      assert forall k :: 0 <= k < |m.queried| ==> n.queried[k] == m.queried[k];
      forall j | j in n.claimedNamed
        ensures j < |n.tokens.named|
        ensures exists k :: 0 <= k < |n.queried| && Contains(n.queried[k], n.tokens.named[j].name)
      {
        if j in m.claimedNamed {
          var k :| 0 <= k < |m.queried| && Contains(m.queried[k], m.tokens.named[j].name);
          assert Contains(n.queried[k], n.tokens.named[j].name);
        } else {
          assert Contains(n.queried[|m.queried|], n.tokens.named[j].name);
        }
      }
      forall i | i in n.claimedPositional
        ensures i < |n.tokens.positional|
        ensures exists k :: 0 <= k < |n.queried| &&
                            (ContainsIndex(n.queried[k], i) || n.queried[k].name.Variadic?)
      {
        if i in m.claimedPositional {
          var k :| 0 <= k < |m.queried| &&
            (ContainsIndex(m.queried[k], i) || m.queried[k].name.Variadic?);
          assert ContainsIndex(n.queried[k], i) || n.queried[k].name.Variadic?;
        } else {
          assert ContainsIndex(n.queried[|m.queried|], i) || n.queried[|m.queried|].name.Variadic?;
        }
      }
      if m.strict {
        assert !ClashesWith(m.queried, q.id);
        forall k, l | 0 <= k < l < |n.queried|
          ensures !Clash(n.queried[k], n.queried[l])
        {
          if l == |m.queried| {
            assert !Clash(m.queried[k], q.id);
          }
        }
        ClaimedMeansClash(m, q.id);
      }
    }
  }

  // ---------------------------------------------------------------------------
  // Properties of resolution

  /** In strict mode a query that conflicts with one already answered is an
      error: repeating a query, or mixing the catch-all with indexed
      positionals in either order. */
  lemma StrictRejectsRepeat(m: Matcher, q: Query, q': Query)
    requires m.strict && Resolve(m, q).Done?
    requires Clash(q.id, q'.id)
    ensures Resolve(Resolve(m, q).value.next, q').Failed?
  {
    var n := Resolve(m, q).value.next;
    var id := SetOptional(q.id, q.default.Some?);
    assert n.queried[|m.queried|] == id;
    assert Clash(id, q'.id);
  }

  /** In strict mode an error found while looking a query up does not stop
      the cycle: the query gets the help-display answer, and the first such
      error is reported once the declared number of queries is reached. */
  lemma StrictDefersLookupErrors(m: Matcher, q: Query)
    requires m.strict && !m.help && Admit(m, q.id).None? && CheckRequest(q).None?
    requires Lookup(m.tokens, q).Failure?
    ensures |m.queried| + 1 < m.declared ==>
      && Resolve(m, q).Done?
      && Resolve(m, q).value.answer == HelpAnswer(q)
      && Resolve(m, q).value.next.deferred.Some?
    ensures |m.queried| + 1 == m.declared ==>
      Resolve(m, q) == Failed(if m.deferred.Some? then m.deferred.value else Lookup(m.tokens, q).error)
  {
  }

  /** Outside strict mode a query can be repeated and gets the same answer. */
  lemma LenientRepeatable(m: Matcher, q: Query)
    requires !m.strict && Resolve(m, q).Done?
    ensures Resolve(Resolve(m, q).value.next, q).Done?
    ensures Resolve(Resolve(m, q).value.next, q).value.answer == Resolve(m, q).value.answer
  {
  }

  /** Outside strict mode the answer to a query depends only on the command
      line: two cycles over the same tokens answer it alike, whatever was
      asked before. */
  lemma LenientIndependent(m1: Matcher, m2: Matcher, q: Query)
    requires !m1.strict && !m2.strict && !m1.help && !m2.help && m1.tokens == m2.tokens
    ensures Resolve(m1, q).Done? <==> Resolve(m2, q).Done?
    ensures Resolve(m1, q).Done? ==> Resolve(m1, q).value.answer == Resolve(m2, q).value.answer
    ensures !Resolve(m1, q).Done? ==> Resolve(m1, q) == Resolve(m2, q)
  {
  }

  /** A lenient run of queries in order succeeds exactly when each query
      succeeds on the starting cycle, and then answers each as that cycle does. */
  lemma {:induction false} LenientRunAnswers(m: Matcher, qs: seq<Query>)
    requires !m.strict && !m.help
    ensures RunAll(m, qs).Done? <==> forall k :: 0 <= k < |qs| ==> Resolve(m, qs[k]).Done?
    ensures RunAll(m, qs).Done? ==>
      forall k :: 0 <= k < |qs| ==> RunAll(m, qs).value.answers[k] == Resolve(m, qs[k]).value.answer
    decreases |qs|
  {
    if |qs| > 0 && Resolve(m, qs[0]).Done? {
      var s := Resolve(m, qs[0]).value;
      var rest := qs[1..];
      LenientRunAnswers(s.next, rest);
      forall k | 0 <= k < |rest|
        ensures Resolve(s.next, rest[k]).Done? <==> Resolve(m, qs[k + 1]).Done?
        ensures Resolve(s.next, rest[k]).Done? ==>
          Resolve(s.next, rest[k]).value.answer == Resolve(m, qs[k + 1]).value.answer
      {
        LenientIndependent(s.next, m, rest[k]);
      }
      if RunAll(m, qs).Done? {
        var r := RunAll(m, qs).value;
        var tail := RunAll(s.next, rest).value;
        assert r.answers == [s.answer] + tail.answers;
        forall k | 0 <= k < |qs|
          ensures r.answers[k] == Resolve(m, qs[k]).value.answer
        {
          if k > 0 {
            assert r.answers[k] == tail.answers[k - 1];
          }
        }
      }
      if forall k :: 0 <= k < |qs| ==> Resolve(m, qs[k]).Done? {
        assert forall k :: 0 <= k < |rest| ==> Resolve(s.next, rest[k]).Done?;
      }
    } else if |qs| > 0 {
      assert !Resolve(m, qs[0]).Done?;
    }
  }

  /** A query nothing on the command line matches yields its default, an
      empty optional, `false` for a flag, and otherwise fails; asking for an
      optional result and giving a default is always an error. */
  lemma MissingArgumentRules(m: Matcher, q: Query)
    requires !m.strict && !m.help
    requires q.id.name.Named? || q.id.name.Positional?
    requires q.id.name.Named? ==> forall j :: 0 <= j < |m.tokens.named| ==> !Contains(q.id, m.tokens.named[j].name)
    requires q.id.name.Positional? ==> q.id.name.index >= |m.tokens.positional|
    ensures q.optional && q.default.Some? ==> Resolve(m, q) == Failed(OptionalWithDefault)
    ensures q.default.Some? && DefaultValue(q.default.value, q.kind).Success? && !q.optional ==>
      Resolve(m, q).Done? &&
      Resolve(m, q).value.answer == Single(DefaultValue(q.default.value, q.kind).value)
    ensures q.default.None? && q.optional ==>
      Resolve(m, q).Done? && Resolve(m, q).value.answer == Absent
    ensures q.default.None? && !q.optional ==>
      (Resolve(m, q).Done? <==> q.kind == Boolean) &&
      (Resolve(m, q).Done? ==> Resolve(m, q).value.answer == Single(BoolValue(false)))
  {
  }

  /** A named query matched by a token converts that token's value: a bare
      flag answers `true` to a boolean query, and an assignment answers a
      string query with exactly the text after the first `=`. */
  lemma MatchedNamedConverts(m: Matcher, q: Query, j: nat)
    requires !m.strict && !m.help && CheckRequest(q).None?
    requires Valid(q.id) && q.id.name.Named?
    requires WellFormed(m.tokens.named)
    requires j < |m.tokens.named| && Contains(q.id, m.tokens.named[j].name)
    requires forall k :: 0 <= k < |m.tokens.named| && k != j ==> !Contains(q.id, m.tokens.named[k].name)
    ensures Convert(m.tokens.named[j].value, q.kind).Success? <==> Resolve(m, q).Done?
    ensures Resolve(m, q).Done? ==>
      Resolve(m, q).value.answer == Single(Convert(m.tokens.named[j].value, q.kind).value)
  {
  }

  /** Outside strict mode the catch-all answers with every positional value,
      converted in order, whatever was queried before. */
  lemma VariadicTakesAll(m: Matcher, q: Query)
    requires !m.strict && !m.help && q.id.name.Variadic? && CheckRequest(q).None?
    ensures Resolve(m, q).Done? <==> ConvertAll(m.tokens.positional, q.kind).Success?
    ensures Resolve(m, q).Done? ==>
      var vs := Resolve(m, q).value.answer;
      && vs.Many?
      && |vs.vs| == |m.tokens.positional|
      && (forall i :: 0 <= i < |vs.vs| ==> Convert(Some(m.tokens.positional[i]), q.kind) == Success(vs.vs[i]))
      && (q.kind == Str ==> forall i :: 0 <= i < |vs.vs| ==> vs.vs[i] == StrValue(m.tokens.positional[i]))
  {
  }

  /** In strict mode the catch-all can only be resolved before any positional
      has been claimed, so "all positionals" and "all unclaimed positionals"
      coincide, and afterwards every positional is claimed. */
  lemma StrictVariadicTakesRemainder(m: Matcher, q: Query)
    requires m.strict && !m.help && Consistent(m) && q.id.name.Variadic?
    requires ConvertAll(m.tokens.positional, q.kind).Success?
    requires Resolve(m, q).Done?
    ensures m.claimedPositional == {}
    ensures forall i :: 0 <= i < |m.tokens.positional| ==> i in Resolve(m, q).value.next.claimedPositional
  {
    ClaimedMeansClash(m, q.id);
    assert Resolve(m, q).value.next.claimedPositional ==
      m.claimedPositional + Lookup(m.tokens, q).value.positional;
  }
}

=== FILE: matcher_cases.dfy ===
/** Concrete resolution cases: the command lines and queries of the library's
    matcher and argument tests. Outside strict mode the answer to a query
    depends only on the command line (`Matching.LenientIndependent`, and for a
    whole run `Matching.LenientRunAnswers`), so each query is resolved against
    the freshly started cycle; the strict cases run the queries in order. */
module MatcherCases {
  import opened Wrappers
  import opened Errors
  import opened Identifiers
  import opened Conversion
  import opened Tokenizer
  import opened Matching
  import opened Introspection
  import opened Evaluation
  import opened TokenizerCases

  const Int32 := Integer(W32, true)

  /** A cycle over `args` (after the program name) with no assignment
      arguments, as a test sets it up directly. */
  function Start(args: seq<string>, strict: bool, declared: nat): Outcome<Matcher> {
    Init(Argv(args), strict, declared, {})
  }

  /** A cycle before any query. */
  function Fresh(t: Tokens, strict: bool, declared: nat): Matcher {
    Matcher(t, strict, declared, false, [], {}, {}, None)
  }

  /** A lenient cycle over `args`; a command line the tokenizer refuses
      yields an empty cycle. */
  function Lenient(args: seq<string>): Matcher {
    match Start(args, false, 0)
    case Done(m) => m
    case _ => Fresh(Tokens([], []), false, 0)
  }

  /** The answer to one query site, or the error that ends the cycle. */
  function Ask(m: Matcher, c: Call): Outcome<Answer> {
    match Declare(c)
    case Failure(e) => Failed(e)
    case Success(q) =>
      match Resolve(m, q)
      case Done(s) => Done(s.answer)
      case Failed(e) => Failed(e)
      case ShowHelp => ShowHelp
  }

  /** A session: the cycle is started and the query sites run in order. */
  function Session(args: seq<string>, strict: bool, declared: nat, calls: seq<Call>): Outcome<Run> {
    match Start(args, strict, declared)
    case Failed(e) => Failed(e)
    case ShowHelp => ShowHelp
    case Done(m) =>
      match Discover(calls)
      case Failure(e) => Failed(e)
      case Success(log) => RunAll(m, log.entries)
  }

  function Flag(name: string, kind: Kind): Call {
    Arg([name], None, kind, None, false)
  }

  function WithDefault(name: string, kind: Kind, d: Default): Call {
    Arg([name], None, kind, Some(d), false)
  }

  function Maybe(name: string, kind: Kind): Call {
    Arg([name], None, kind, None, true)
  }

  function At(i: int, kind: Kind): Call {
    Arg([], Some(i), kind, None, false)
  }

  /** A conversion's result as the answer to a query. */
  function Answered(r: Result<Value, Error>): Outcome<Answer> {
    match r
    case Success(v) => Done(Single(v))
    case Failure(e) => Failed(e)
  }

  function AnsweredWith(r: Result<Answer, Error>): Outcome<Answer> {
    match r
    case Success(a) => Done(a)
    case Failure(e) => Failed(e)
  }

  function QueryOf(c: Call, id: Identifier): Query
    requires c.Arg?
  {
    Query(id, c.kind, c.default, c.optional)
  }

  /** Outside strict mode a named query that a token matches answers with
      that token's value converted to the requested type. */
  lemma AskMatched(t: Tokens, c: Call, id: Identifier, j: nat)
    requires c.Arg? && MakeIdentifier(c.names, c.position) == Success(id) && id.name.Named?
    requires CheckRequest(QueryOf(c, id)).None?
    requires MatchNamed(t.named, id) == Success(Some(j))
    ensures Ask(Fresh(t, false, 0), c) == Answered(Convert(t.named[j].value, c.kind))
  {
    assert Declare(c) == Success(QueryOf(c, id));
  }

  /** Outside strict mode an indexed query within the positional values
      answers with that value converted. */
  lemma AskPositional(t: Tokens, c: Call, id: Identifier, i: nat)
    requires c.Arg? && MakeIdentifier(c.names, c.position) == Success(id) && id.name.Positional?
    requires CheckRequest(QueryOf(c, id)).None?
    requires id.name.index == i < |t.positional|
    ensures Ask(Fresh(t, false, 0), c) == Answered(Convert(Some(t.positional[i]), c.kind))
  {
    assert Declare(c) == Success(QueryOf(c, id));
  }

  /** Outside strict mode a query nothing matches gets what `Missing` gives:
      its default, an empty optional, `false` for a flag, or an error. */
  lemma AskMissing(t: Tokens, c: Call, id: Identifier)
    requires c.Arg? && MakeIdentifier(c.names, c.position) == Success(id)
    requires CheckRequest(QueryOf(c, id)).None?
    requires id.name.Named? ==> MatchNamed(t.named, id) == Success(None)
    requires id.name.Positional? ==> id.name.index >= |t.positional|
    ensures Ask(Fresh(t, false, 0), c) == AnsweredWith(Missing(QueryOf(c, id)))
  {
    assert Declare(c) == Success(QueryOf(c, id));
  }

  /** Outside strict mode a malformed request fails with its error. */
  lemma AskRefused(t: Tokens, c: Call, id: Identifier)
    requires c.Arg? && MakeIdentifier(c.names, c.position) == Success(id)
    requires CheckRequest(QueryOf(c, id)).Some?
    ensures Ask(Fresh(t, false, 0), c) == Failed(CheckRequest(QueryOf(c, id)).value)
  {
    assert Declare(c) == Success(QueryOf(c, id));
  }

  /** Outside strict mode the catch-all answers with every positional value
      converted, or fails on the first that does not convert. */
  lemma AskAll(t: Tokens, d: Option<string>, kind: Kind)
    ensures Ask(Fresh(t, false, 0), ArgAll(d, kind)) ==
      match ConvertAll(t.positional, kind)
      case Success(vs) => Done(Many(vs))
      case Failure(e) => Failed(e)
  {
  }

  function Strings(vs: seq<string>): seq<Value> {
    if |vs| == 0 then [] else [StrValue(vs[0])] + Strings(vs[1..])
  }

  /** Every text converts to a string. */
  lemma {:induction false} ConvertAllStrings(vs: seq<string>)
    ensures ConvertAll(vs, Str) == Success(Strings(vs))
    decreases |vs|
  {
    if |vs| > 0 {
      ConvertAllStrings(vs[1..]);
    }
  }

  lemma ConvertAllCons(vs: seq<string>, kind: Kind, x: Value, rest: seq<Value>)
    requires |vs| > 0 && Convert(Some(vs[0]), kind) == Success(x) && ConvertAll(vs[1..], kind) == Success(rest)
    ensures ConvertAll(vs, kind) == Success([x] + rest)
  {
  }

  /** The positional values `0 1` convert to the integers 0 and 1. */
  lemma ZeroOne()
    ensures ConvertAll(["0", "1"], Int32) == Success([IntValue(0), IntValue(1)])
  {
    assert ShowInt(0) == "0";
    ConvertNumeral("0", 0, W32, true);
    assert ShowInt(1) == "1";
    ConvertNumeral("1", 1, W32, true);
    assert ConvertAll([], Int32) == Success([]);
    assert ["1"][1..] == [];
    ConvertAllCons(["1"], Int32, IntValue(1), []);
    assert [IntValue(1)] + [] == [IntValue(1)];
    assert ["0", "1"][1..] == ["1"];
    ConvertAllCons(["0", "1"], Int32, IntValue(0), [IntValue(1)]);
    assert [IntValue(0)] + [IntValue(1)] == [IntValue(0), IntValue(1)];
  }

  /** The largest unsigned 16-bit value converts and the next does not. */
  lemma Widest16()
    ensures Convert(Some("65535"), Integer(W16, false)) == Success(IntValue(65535))
    ensures Convert(Some("65536"), Integer(W16, false)).Failure?
  {
    assert ShowInt(65535) == "65535";
    ConvertNumeral("65535", 65535, W16, false);
    assert ShowInt(65536) == "65536";
    ConvertNumeral("65536", 65536, W16, false);
  }

  lemma PermittedFits()
    ensures Convert(Some("1000000000000"), Integer(W64, true)).Success?
  {
    FewDigitsFit("1000000000000", true);
  }

  lemma OverflowRefused()
    ensures Convert(Some(Overflow), Integer(W64, true)).Failure?
  {
    TooManyDigits(Overflow, W64, true);
  }

  /** A lenient cycle starts on exactly the tokens of its command line, and
      a strict one that is not yet at its declared count does too. */
  lemma StartsOn(args: seq<string>, strict: bool, declared: nat, t: Tokens)
    requires Tokenize(Argv(args), {}) == Success(t)
    requires strict ==> declared > 0 && !HelpRequested(t)
    ensures Start(args, strict, declared) == Done(Fresh(t, strict, declared))
  {
  }

  lemma LenientOn(args: seq<string>, t: Tokens)
    requires Tokenize(Argv(args), {}) == Success(t)
    ensures Lenient(args) == Fresh(t, false, 0)
  {
    StartsOn(args, false, 0, t);
  }

  /** A command line the tokenizer refuses ends the cycle before any query. */
  lemma InvalidInput()
    ensures Start(["--i"], false, 0).Failed?
    ensures Start(["-ab=0"], false, 0).Failed?
    ensures Start(["-aa"], false, 0).Failed?
    ensures Start(["-x=0", "-x", "0"], false, 0).Failed?
    ensures Start(["--flag", "--flag"], false, 0).Failed?
    ensures Start(["---x"], false, 0).Failed?
  {
    RefusedShortLong();
    RefusedClusterValue();
    RefusedHyphens();
    RepeatedInCluster();
    RepeatedAssignment();
    TokenizerCases.RepeatedFlag();
  }


  /** Without an `=` and without discovery, any mix of values starts a cycle. */
  lemma NoSpaceAssignment()
    ensures Start([], false, 0).Done?
    ensures Start(["0"], false, 0).Done?
    ensures Start(["0", "0"], false, 0).Done?
    ensures Start(["-x", "0"], false, 0).Done?
    ensures Start(["-a=b", "123"], false, 0).Done?
  {
    Values({}, []);
    Values({}, ["0"]);
    Values({}, ["0", "0"]);
    BareFlagThenValue({}, "0");
    AssignmentThenValue();
  }

  const BooleanFlagsTokens := Tokens([], [NamedArg("-a", None), NamedArg("-b", None), NamedArg("-c", None), NamedArg("-d", None)])

  lemma BooleanFlagsQuery0()
    ensures Ask(Fresh(BooleanFlagsTokens, false, 0), Flag("-a", Boolean)) == Done(Single(BoolValue(true)))
  {
  }

  lemma BooleanFlagsQuery1()
    ensures Ask(Fresh(BooleanFlagsTokens, false, 0), Flag("-b", Boolean)) == Done(Single(BoolValue(true)))
  {
  }

  lemma BooleanFlagsQuery2()
    ensures Ask(Fresh(BooleanFlagsTokens, false, 0), Flag("-c", Boolean)) == Done(Single(BoolValue(true)))
  {
  }

  lemma BooleanFlagsQuery3()
    ensures Ask(Fresh(BooleanFlagsTokens, false, 0), Flag("-d", Boolean)) == Done(Single(BoolValue(true)))
  {
  }

  lemma BooleanFlagsStart()
    ensures Lenient(["-a", "-bcd"]) == Fresh(BooleanFlagsTokens, false, 0)
  {
    FlagsAndCluster();
    LenientOn(["-a", "-bcd"], BooleanFlagsTokens);
  }

  /** Every flag of a cluster answers a boolean query with true. */
  lemma BooleanFlags()
    ensures var m := Lenient(["-a", "-bcd"]);
      && Ask(m, Flag("-a", Boolean)) == Done(Single(BoolValue(true)))
      && Ask(m, Flag("-b", Boolean)) == Done(Single(BoolValue(true)))
      && Ask(m, Flag("-c", Boolean)) == Done(Single(BoolValue(true)))
      && Ask(m, Flag("-d", Boolean)) == Done(Single(BoolValue(true)))
  {
    BooleanFlagsStart();
    BooleanFlagsQuery0();
    BooleanFlagsQuery1();
    BooleanFlagsQuery2();
    BooleanFlagsQuery3();
  }

  const FlagBeforeValueTokens := Tokens(["0"], [NamedArg("-x", None)])

  lemma FlagBeforeValueQuery0()
    ensures Ask(Fresh(FlagBeforeValueTokens, false, 0), Flag("-x", Int32)) == Failed(FlagWithoutValue)
  {
  }

  lemma FlagBeforeValueStart()
    ensures Lenient(["-x", "0"]) == Fresh(FlagBeforeValueTokens, false, 0)
  {
    BareFlagThenValue({}, "0");
    LenientOn(["-x", "0"], FlagBeforeValueTokens);
  }

  /** Without an `=` and without discovery, `-x 0` is a flag and a value: an integer query for the flag fails. */
  lemma FlagBeforeValue()
    ensures var m := Lenient(["-x", "0"]);
      && Ask(m, Flag("-x", Int32)) == Failed(FlagWithoutValue)
  {
    FlagBeforeValueStart();
    FlagBeforeValueQuery0();
  }

  const EquationAnswersTokens := Tokens([], [NamedArg("-a", Some("b")), NamedArg("--abc", Some("xy")), NamedArg("-x", Some("y=z"))])

  lemma EquationAnswersQuery0()
    ensures Ask(Fresh(EquationAnswersTokens, false, 0), Flag("-a", Str)) == Done(Single(StrValue("b")))
  {
  }

  lemma EquationAnswersQuery1()
    ensures Ask(Fresh(EquationAnswersTokens, false, 0), Flag("--abc", Str)) == Done(Single(StrValue("xy")))
  {
  }

  lemma EquationAnswersQuery2()
    ensures Ask(Fresh(EquationAnswersTokens, false, 0), Flag("-x", Str)) == Done(Single(StrValue("y=z")))
  {
  }

  lemma EquationAnswersStart()
    ensures Lenient(["-a=b", "--abc=xy", "-x=y=z"]) == Fresh(EquationAnswersTokens, false, 0)
  {
    Equations();
    LenientOn(["-a=b", "--abc=xy", "-x=y=z"], EquationAnswersTokens);
  }

  /** An assignment answers a string query with the text after its first `=`. */
  lemma EquationAnswers()
    ensures var m := Lenient(["-a=b", "--abc=xy", "-x=y=z"]);
      && Ask(m, Flag("-a", Str)) == Done(Single(StrValue("b")))
      && Ask(m, Flag("--abc", Str)) == Done(Single(StrValue("xy")))
      && Ask(m, Flag("-x", Str)) == Done(Single(StrValue("y=z")))
  {
    EquationAnswersStart();
    EquationAnswersQuery0();
    EquationAnswersQuery1();
    EquationAnswersQuery2();
  }

  const ArgumentNamingTokens := Tokens([], [])

  lemma ArgumentNamingQuery0()
    ensures Ask(Fresh(ArgumentNamingTokens, false, 0), Arg(["s"], None, Boolean, None, false)).Failed?
  {
  }

  lemma ArgumentNamingQuery1()
    ensures Ask(Fresh(ArgumentNamingTokens, false, 0), Arg(["--s"], None, Int32, Some(IntDefault(0)), false)).Failed?
  {
  }

  lemma ArgumentNamingQuery2()
    ensures Ask(Fresh(ArgumentNamingTokens, false, 0), Arg(["-long"], None, Int32, Some(FloatDefault), false)).Failed?
  {
  }

  lemma ArgumentNamingQuery3()
    ensures Ask(Fresh(ArgumentNamingTokens, false, 0), Arg(["---cmon"], None, Str, Some(StrDefault("test")), false)).Failed?
  {
  }

  lemma ArgumentNamingQuery4()
    ensures Ask(Fresh(ArgumentNamingTokens, false, 0), Arg(["-1"], None, Int32, Some(IntDefault(0)), false)).Failed?
  {
  }

  lemma ArgumentNamingQuery5()
    ensures Ask(Fresh(ArgumentNamingTokens, false, 0), Arg(["--1e3"], None, Int32, Some(IntDefault(0)), false)) == Done(Single(IntValue(0)))
  {
  }

  lemma ArgumentNamingQuery6()
    ensures Ask(Fresh(ArgumentNamingTokens, false, 0), Flag("--a3", Boolean)) == Done(Single(BoolValue(false)))
  {
  }

  lemma ArgumentNamingStart()
    ensures Lenient([]) == Fresh(ArgumentNamingTokens, false, 0)
  {
    Values({}, []);
    LenientOn([], ArgumentNamingTokens);
  }

  /** Badly formed names are refused when the query is made; `--1e3` and `--a3` are accepted. */
  lemma ArgumentNaming()
    ensures var m := Lenient([]);
      && Ask(m, Arg(["s"], None, Boolean, None, false)).Failed?
      && Ask(m, Arg(["--s"], None, Int32, Some(IntDefault(0)), false)).Failed?
      && Ask(m, Arg(["-long"], None, Int32, Some(FloatDefault), false)).Failed?
      && Ask(m, Arg(["---cmon"], None, Str, Some(StrDefault("test")), false)).Failed?
      && Ask(m, Arg(["-1"], None, Int32, Some(IntDefault(0)), false)).Failed?
      && Ask(m, Arg(["--1e3"], None, Int32, Some(IntDefault(0)), false)) == Done(Single(IntValue(0)))
      && Ask(m, Flag("--a3", Boolean)) == Done(Single(BoolValue(false)))
  {
    ArgumentNamingStart();
    ArgumentNamingQuery0();
    ArgumentNamingQuery1();
    ArgumentNamingQuery2();
    ArgumentNamingQuery3();
    ArgumentNamingQuery4();
    ArgumentNamingQuery5();
    ArgumentNamingQuery6();
  }

  const DefaultAnswersTokens := Tokens([], [])

  lemma DefaultAnswersQuery0()
    ensures Ask(Fresh(DefaultAnswersTokens, false, 0), WithDefault("-i", Int32, IntDefault(1))) == Done(Single(IntValue(1)))
  {
  }

  lemma DefaultAnswersQuery1()
    ensures Ask(Fresh(DefaultAnswersTokens, false, 0), WithDefault("-s", Str, StrDefault("test"))) == Done(Single(StrValue("test")))
  {
  }

  lemma DefaultAnswersQuery2()
    ensures Ask(Fresh(DefaultAnswersTokens, false, 0), WithDefault("-i", Int32, FloatDefault)) == Failed(DefaultMismatch)
  {
  }

  lemma DefaultAnswersQuery3()
    ensures Ask(Fresh(DefaultAnswersTokens, false, 0), WithDefault("-i", Int32, StrDefault("test"))) == Failed(DefaultMismatch)
  {
  }

  lemma DefaultAnswersQuery4()
    ensures Ask(Fresh(DefaultAnswersTokens, false, 0), WithDefault("-s", Str, IntDefault(1))) == Failed(DefaultMismatch)
  {
  }

  lemma DefaultAnswersQuery5()
    ensures Ask(Fresh(DefaultAnswersTokens, false, 0), WithDefault("-s", Str, FloatDefault)) == Failed(DefaultMismatch)
  {
  }

  lemma DefaultAnswersQuery6()
    ensures Ask(Fresh(DefaultAnswersTokens, false, 0), WithDefault("-b", Boolean, IntDefault(1))) == Failed(DefaultMismatch)
  {
  }

  lemma DefaultAnswersStart()
    ensures Lenient([]) == Fresh(DefaultAnswersTokens, false, 0)
  {
    Values({}, []);
    LenientOn([], DefaultAnswersTokens);
  }

  /** A query nothing matches takes its default, which must have the requested type. */
  lemma DefaultAnswers()
    ensures var m := Lenient([]);
      && Ask(m, WithDefault("-i", Int32, IntDefault(1))) == Done(Single(IntValue(1)))
      && Ask(m, WithDefault("-s", Str, StrDefault("test"))) == Done(Single(StrValue("test")))
      && Ask(m, WithDefault("-i", Int32, FloatDefault)) == Failed(DefaultMismatch)
      && Ask(m, WithDefault("-i", Int32, StrDefault("test"))) == Failed(DefaultMismatch)
      && Ask(m, WithDefault("-s", Str, IntDefault(1))) == Failed(DefaultMismatch)
      && Ask(m, WithDefault("-s", Str, FloatDefault)) == Failed(DefaultMismatch)
      && Ask(m, WithDefault("-b", Boolean, IntDefault(1))) == Failed(DefaultMismatch)
  {
    DefaultAnswersStart();
    DefaultAnswersQuery0();
    DefaultAnswersQuery1();
    DefaultAnswersQuery2();
    DefaultAnswersQuery3();
    DefaultAnswersQuery4();
    DefaultAnswersQuery5();
    DefaultAnswersQuery6();
  }

  const CorrectParsingAnswersTokens := Tokens(["1"], [NamedArg("--bool1", None), NamedArg("-i", Some("1")), NamedArg("-f", Some("2.0")), NamedArg("-s", Some("test"))])

  lemma CorrectParsingAnswersQuery0()
    ensures Ask(Fresh(CorrectParsingAnswersTokens, false, 0), Flag("--bool1", Boolean)) == Done(Single(BoolValue(true)))
  {
  }

  lemma CorrectParsingAnswersQuery1()
    ensures Ask(Fresh(CorrectParsingAnswersTokens, false, 0), Flag("--bool2", Boolean)) == Done(Single(BoolValue(false)))
  {
    var id := Identifier(Named(None, Some("--bool2")), None, false);
    assert MakeIdentifier(["--bool2"], None) == Success(id);
    assert FindNamed(CorrectParsingAnswersTokens.named[3..], "--bool2") == None;
    assert FindNamed(CorrectParsingAnswersTokens.named[2..], "--bool2") == None;
    assert FindNamed(CorrectParsingAnswersTokens.named[1..], "--bool2") == None;
    assert MatchNamed(CorrectParsingAnswersTokens.named, id) == Success(None);
    AskMissing(CorrectParsingAnswersTokens, Flag("--bool2", Boolean), id);
  }

  lemma CorrectParsingAnswersQuery2()
    ensures Ask(Fresh(CorrectParsingAnswersTokens, false, 0), WithDefault("-i", Int32, IntDefault(2))) == Done(Single(IntValue(1)))
  {
    var id := Identifier(Named(Some("-i"), None), None, false);
    assert MakeIdentifier(["-i"], None) == Success(id);
    assert FindNamed(CorrectParsingAnswersTokens.named[1..], "-i") == Some(0);
    assert MatchNamed(CorrectParsingAnswersTokens.named, id) == Success(Some(1));
    AskMatched(CorrectParsingAnswersTokens, WithDefault("-i", Int32, IntDefault(2)), id, 1);
    assert ShowInt(1) == "1";
    ConvertNumeral("1", 1, W32, true);
  }

  lemma CorrectParsingAnswersQuery3()
    ensures Ask(Fresh(CorrectParsingAnswersTokens, false, 0), Flag("-i", Int32)) == Done(Single(IntValue(1)))
  {
    var id := Identifier(Named(Some("-i"), None), None, false);
    assert MakeIdentifier(["-i"], None) == Success(id);
    assert FindNamed(CorrectParsingAnswersTokens.named[1..], "-i") == Some(0);
    assert MatchNamed(CorrectParsingAnswersTokens.named, id) == Success(Some(1));
    AskMatched(CorrectParsingAnswersTokens, Flag("-i", Int32), id, 1);
    assert ShowInt(1) == "1";
    ConvertNumeral("1", 1, W32, true);
  }

  lemma CorrectParsingAnswersQuery4()
    ensures Ask(Fresh(CorrectParsingAnswersTokens, false, 0), Flag("-s", Str)) == Done(Single(StrValue("test")))
  {
    var id := Identifier(Named(Some("-s"), None), None, false);
    assert MakeIdentifier(["-s"], None) == Success(id);
    assert FindNamed(CorrectParsingAnswersTokens.named[3..], "-s") == Some(0);
    assert FindNamed(CorrectParsingAnswersTokens.named[2..], "-s") == Some(1);
    assert FindNamed(CorrectParsingAnswersTokens.named[1..], "-s") == Some(2);
    assert MatchNamed(CorrectParsingAnswersTokens.named, id) == Success(Some(3));
    AskMatched(CorrectParsingAnswersTokens, Flag("-s", Str), id, 3);
  }

  lemma CorrectParsingAnswersQuery5()
    ensures Ask(Fresh(CorrectParsingAnswersTokens, false, 0), At(0, Int32)) == Done(Single(IntValue(1)))
  {
    assert ShowInt(1) == "1";
    ConvertNumeral("1", 1, W32, true);
  }

  lemma CorrectParsingAnswersQuery6()
    ensures Ask(Fresh(CorrectParsingAnswersTokens, false, 0), Arg(["-s", "--string"], None, Str, None, false)) == Done(Single(StrValue("test")))
  {
    var id := Identifier(Named(Some("-s"), Some("--string")), None, false);
    assert MakeIdentifier(["-s", "--string"], None) == Success(id);
    assert FindNamed(CorrectParsingAnswersTokens.named[3..], "-s") == Some(0);
    assert FindNamed(CorrectParsingAnswersTokens.named[2..], "-s") == Some(1);
    assert FindNamed(CorrectParsingAnswersTokens.named[1..], "-s") == Some(2);
    assert FindNamed(CorrectParsingAnswersTokens.named[3..], "--string") == None;
    assert FindNamed(CorrectParsingAnswersTokens.named[2..], "--string") == None;
    assert FindNamed(CorrectParsingAnswersTokens.named[1..], "--string") == None;
    assert MatchNamed(CorrectParsingAnswersTokens.named, id) == Success(Some(3));
    AskMatched(CorrectParsingAnswersTokens, Arg(["-s", "--string"], None, Str, None, false), id, 3);
  }

  lemma CorrectParsingAnswersQuery7()
    ensures Ask(Fresh(CorrectParsingAnswersTokens, false, 0), Arg(["--string", "-s", "description"], None, Str, None, false)) == Done(Single(StrValue("test")))
  {
    var id := Identifier(Named(Some("-s"), Some("--string")), Some("description"), false);
    assert MakeIdentifier(["--string", "-s", "description"], None) == Success(id);
    assert FindNamed(CorrectParsingAnswersTokens.named[3..], "-s") == Some(0);
    assert FindNamed(CorrectParsingAnswersTokens.named[2..], "-s") == Some(1);
    assert FindNamed(CorrectParsingAnswersTokens.named[1..], "-s") == Some(2);
    assert FindNamed(CorrectParsingAnswersTokens.named[3..], "--string") == None;
    assert FindNamed(CorrectParsingAnswersTokens.named[2..], "--string") == None;
    assert FindNamed(CorrectParsingAnswersTokens.named[1..], "--string") == None;
    assert MatchNamed(CorrectParsingAnswersTokens.named, id) == Success(Some(3));
    AskMatched(CorrectParsingAnswersTokens, Arg(["--string", "-s", "description"], None, Str, None, false), id, 3);
  }

  lemma CorrectParsingAnswersStart()
    ensures Lenient(["--bool1", "-i=1", "-f=2.0", "-s=test", "1"]) == Fresh(CorrectParsingAnswersTokens, false, 0)
  {
    CorrectParsing();
    LenientOn(["--bool1", "-i=1", "-f=2.0", "-s=test", "1"], CorrectParsingAnswersTokens);
  }

  /** Each query finds its own token, whatever its aliases, and a default yields to it. */
  lemma CorrectParsingAnswers()
    ensures var m := Lenient(["--bool1", "-i=1", "-f=2.0", "-s=test", "1"]);
      && Ask(m, Flag("--bool1", Boolean)) == Done(Single(BoolValue(true)))
      && Ask(m, Flag("--bool2", Boolean)) == Done(Single(BoolValue(false)))
      && Ask(m, WithDefault("-i", Int32, IntDefault(2))) == Done(Single(IntValue(1)))
      && Ask(m, Flag("-i", Int32)) == Done(Single(IntValue(1)))
      && Ask(m, Flag("-s", Str)) == Done(Single(StrValue("test")))
      && Ask(m, At(0, Int32)) == Done(Single(IntValue(1)))
      && Ask(m, Arg(["-s", "--string"], None, Str, None, false)) == Done(Single(StrValue("test")))
      && Ask(m, Arg(["--string", "-s", "description"], None, Str, None, false)) == Done(Single(StrValue("test")))
  {
    CorrectParsingAnswersStart();
    CorrectParsingAnswersQuery0();
    CorrectParsingAnswersQuery1();
    CorrectParsingAnswersQuery2();
    CorrectParsingAnswersQuery3();
    CorrectParsingAnswersQuery4();
    CorrectParsingAnswersQuery5();
    CorrectParsingAnswersQuery6();
    CorrectParsingAnswersQuery7();
  }

  const IncorrectParsingAnswersTokens := Tokens([], [NamedArg("-i", Some("1")), NamedArg("-f", Some("2.0")), NamedArg("-s", Some("test"))])

  lemma IncorrectParsingAnswersQuery0()
    ensures Ask(Fresh(IncorrectParsingAnswersTokens, false, 0), Flag("-i", Boolean)) == Failed(BooleanWithValue)
  {
  }

  lemma IncorrectParsingAnswersQuery1()
    ensures Ask(Fresh(IncorrectParsingAnswersTokens, false, 0), Flag("-f", Int32)) == Failed(NotAnInteger("2.0"))
  {
  }

  lemma IncorrectParsingAnswersQuery2()
    ensures Ask(Fresh(IncorrectParsingAnswersTokens, false, 0), Flag("-s", Int32)) == Failed(NotAnInteger("test"))
  {
  }

  lemma IncorrectParsingAnswersQuery3()
    ensures Ask(Fresh(IncorrectParsingAnswersTokens, false, 0), Flag("-x", Int32)) == Failed(MissingArgument("-x"))
  {
  }

  lemma IncorrectParsingAnswersStart()
    ensures Lenient(["-i=1", "-f=2.0", "-s=test"]) == Fresh(IncorrectParsingAnswersTokens, false, 0)
  {
    ThreeAssignments("2.0");
    assert "-f=" + "2.0" == "-f=2.0";
    LenientOn(["-i=1", "-f=2.0", "-s=test"], IncorrectParsingAnswersTokens);
  }

  /** A value of the wrong type, or a missing required value, is an error. */
  lemma IncorrectParsingAnswers()
    ensures var m := Lenient(["-i=1", "-f=2.0", "-s=test"]);
      && Ask(m, Flag("-i", Boolean)) == Failed(BooleanWithValue)
      && Ask(m, Flag("-f", Int32)) == Failed(NotAnInteger("2.0"))
      && Ask(m, Flag("-s", Int32)) == Failed(NotAnInteger("test"))
      && Ask(m, Flag("-x", Int32)) == Failed(MissingArgument("-x"))
  {
    IncorrectParsingAnswersStart();
    IncorrectParsingAnswersQuery0();
    IncorrectParsingAnswersQuery1();
    IncorrectParsingAnswersQuery2();
    IncorrectParsingAnswersQuery3();
  }

  const MissingPositionalTokens := Tokens([], [])

  lemma MissingPositionalQuery0()
    ensures Ask(Fresh(MissingPositionalTokens, false, 0), At(0, Int32)).Failed?
  {
  }

  lemma MissingPositionalStart()
    ensures Lenient([]) == Fresh(MissingPositionalTokens, false, 0)
  {
    Values({}, []);
    LenientOn([], MissingPositionalTokens);
  }

  lemma MissingPositional()
    ensures var m := Lenient([]);
      && Ask(m, At(0, Int32)).Failed?
  {
    MissingPositionalStart();
    MissingPositionalQuery0();
  }

  const PositionalAnswersTokens := Tokens(["0", "1"], [])

  lemma PositionalAnswersQuery0()
    ensures Ask(Fresh(PositionalAnswersTokens, false, 0), At(0, Int32)) == Done(Single(IntValue(0)))
  {
    assert ShowInt(0) == "0";
    ConvertNumeral("0", 0, W32, true);
  }

  lemma PositionalAnswersQuery1()
    ensures Ask(Fresh(PositionalAnswersTokens, false, 0), At(1, Int32)) == Done(Single(IntValue(1)))
  {
    assert ShowInt(1) == "1";
    ConvertNumeral("1", 1, W32, true);
  }

  lemma PositionalAnswersQuery2()
    ensures Ask(Fresh(PositionalAnswersTokens, false, 0), Arg(["zeroth"], Some(0), Int32, None, false)) == Done(Single(IntValue(0)))
  {
    assert ShowInt(0) == "0";
    ConvertNumeral("0", 0, W32, true);
  }

  lemma PositionalAnswersQuery3()
    ensures Ask(Fresh(PositionalAnswersTokens, false, 0), Arg(["first"], Some(1), Int32, None, false)) == Done(Single(IntValue(1)))
  {
    assert ShowInt(1) == "1";
    ConvertNumeral("1", 1, W32, true);
  }

  lemma PositionalAnswersQuery4()
    ensures Ask(Fresh(PositionalAnswersTokens, false, 0), At(2, Int32)).Failed?
  {
  }

  lemma PositionalAnswersStart()
    ensures Lenient(["0", "1"]) == Fresh(PositionalAnswersTokens, false, 0)
  {
    Values({}, ["0", "1"]);
    LenientOn(["0", "1"], PositionalAnswersTokens);
  }

  /** Positional values are found by index, with or without a description. */
  lemma PositionalAnswers()
    ensures var m := Lenient(["0", "1"]);
      && Ask(m, At(0, Int32)) == Done(Single(IntValue(0)))
      && Ask(m, At(1, Int32)) == Done(Single(IntValue(1)))
      && Ask(m, Arg(["zeroth"], Some(0), Int32, None, false)) == Done(Single(IntValue(0)))
      && Ask(m, Arg(["first"], Some(1), Int32, None, false)) == Done(Single(IntValue(1)))
      && Ask(m, At(2, Int32)).Failed?
  {
    PositionalAnswersStart();
    PositionalAnswersQuery0();
    PositionalAnswersQuery1();
    PositionalAnswersQuery2();
    PositionalAnswersQuery3();
    PositionalAnswersQuery4();
  }

  const MixedAnswersTokens := Tokens(["0", "1"], [NamedArg("-x", Some("3"))])

  lemma MixedAnswersQuery0()
    ensures Ask(Fresh(MixedAnswersTokens, false, 0), Flag("-x", Int32)) == Done(Single(IntValue(3)))
  {
    assert ShowInt(3) == "3";
    ConvertNumeral("3", 3, W32, true);
  }

  lemma MixedAnswersQuery1()
    ensures Ask(Fresh(MixedAnswersTokens, false, 0), Arg(["-x"], Some(3), Int32, None, false)).Failed?
  {
  }

  lemma MixedAnswersQuery2()
    ensures Ask(Fresh(MixedAnswersTokens, false, 0), At(0, Int32)) == Done(Single(IntValue(0)))
  {
    assert ShowInt(0) == "0";
    ConvertNumeral("0", 0, W32, true);
  }

  lemma MixedAnswersQuery3()
    ensures Ask(Fresh(MixedAnswersTokens, false, 0), At(1, Int32)) == Done(Single(IntValue(1)))
  {
    assert ShowInt(1) == "1";
    ConvertNumeral("1", 1, W32, true);
  }

  lemma MixedAnswersQuery4()
    ensures Ask(Fresh(MixedAnswersTokens, false, 0), Arg([], Some(2), Int32, Some(IntDefault(-1)), false)) == Done(Single(IntValue(-1)))
  {
  }

  lemma MixedAnswersQuery5()
    ensures Ask(Fresh(MixedAnswersTokens, false, 0), Arg([], Some(2), Int32, None, true)) == Done(Absent)
  {
  }

  lemma MixedAnswersQuery6()
    ensures Ask(Fresh(MixedAnswersTokens, false, 0), ArgAll(None, Int32)) == Done(Many([IntValue(0), IntValue(1)]))
  {
    ZeroOne();
    AskAll(MixedAnswersTokens, None, Int32);
  }

  lemma MixedAnswersStart()
    ensures Lenient(["0", "-x=3", "1"]) == Fresh(MixedAnswersTokens, false, 0)
  {
    ValueAssignmentValue();
    LenientOn(["0", "-x=3", "1"], MixedAnswersTokens);
  }

  /** Named and positional arguments interleave; beyond the last positional a default or an empty optional answers, and the catch-all takes every positional value. */
  lemma MixedAnswers()
    ensures var m := Lenient(["0", "-x=3", "1"]);
      && Ask(m, Flag("-x", Int32)) == Done(Single(IntValue(3)))
      && Ask(m, Arg(["-x"], Some(3), Int32, None, false)).Failed?
      && Ask(m, At(0, Int32)) == Done(Single(IntValue(0)))
      && Ask(m, At(1, Int32)) == Done(Single(IntValue(1)))
      && Ask(m, Arg([], Some(2), Int32, Some(IntDefault(-1)), false)) == Done(Single(IntValue(-1)))
      && Ask(m, Arg([], Some(2), Int32, None, true)) == Done(Absent)
      && Ask(m, ArgAll(None, Int32)) == Done(Many([IntValue(0), IntValue(1)]))
  {
    MixedAnswersStart();
    MixedAnswersQuery0();
    MixedAnswersQuery1();
    MixedAnswersQuery2();
    MixedAnswersQuery3();
    MixedAnswersQuery4();
    MixedAnswersQuery5();
    MixedAnswersQuery6();
  }

  const NoPositionalsTokens := Tokens([], [])

  lemma NoPositionalsQuery0()
    ensures Ask(Fresh(NoPositionalsTokens, false, 0), ArgAll(None, Int32)) == Done(Many([]))
  {
  }

  lemma NoPositionalsStart()
    ensures Lenient([]) == Fresh(NoPositionalsTokens, false, 0)
  {
    Values({}, []);
    LenientOn([], NoPositionalsTokens);
  }

  lemma NoPositionals()
    ensures var m := Lenient([]);
      && Ask(m, ArgAll(None, Int32)) == Done(Many([]))
  {
    NoPositionalsStart();
    NoPositionalsQuery0();
  }

  const AllPositionalAnswersTokens := Tokens(["0", "1"], [])

  lemma AllPositionalAnswersQuery0()
    ensures Ask(Fresh(AllPositionalAnswersTokens, false, 0), ArgAll(Some("description"), Int32)) == Done(Many([IntValue(0), IntValue(1)]))
  {
    ZeroOne();
    AskAll(AllPositionalAnswersTokens, Some("description"), Int32);
  }

  lemma AllPositionalAnswersStart()
    ensures Lenient(["0", "1"]) == Fresh(AllPositionalAnswersTokens, false, 0)
  {
    Values({}, ["0", "1"]);
    LenientOn(["0", "1"], AllPositionalAnswersTokens);
  }

  lemma AllPositionalAnswers()
    ensures var m := Lenient(["0", "1"]);
      && Ask(m, ArgAll(Some("description"), Int32)) == Done(Many([IntValue(0), IntValue(1)]))
  {
    AllPositionalAnswersStart();
    AllPositionalAnswersQuery0();
  }

  const TextPositionalTokens := Tokens(["text"], [])

  lemma TextPositionalQuery0()
    ensures Ask(Fresh(TextPositionalTokens, false, 0), ArgAll(None, Str)) == Done(Many([StrValue("text")]))
  {
    ConvertAllStrings(["text"]);
    assert Strings(["text"]) == [StrValue("text")];
    AskAll(TextPositionalTokens, None, Str);
  }

  lemma TextPositionalStart()
    ensures Lenient(["text"]) == Fresh(TextPositionalTokens, false, 0)
  {
    Values({}, ["text"]);
    LenientOn(["text"], TextPositionalTokens);
  }

  lemma TextPositional()
    ensures var m := Lenient(["text"]);
      && Ask(m, ArgAll(None, Str)) == Done(Many([StrValue("text")]))
  {
    TextPositionalStart();
    TextPositionalQuery0();
  }

  const SeparatorOnlyTokens := Tokens([], [])

  lemma SeparatorOnlyQuery0()
    ensures Ask(Fresh(SeparatorOnlyTokens, false, 0), ArgAll(None, Str)) == Done(Many([]))
  {
  }

  lemma SeparatorOnlyStart()
    ensures Lenient(["--"]) == Fresh(SeparatorOnlyTokens, false, 0)
  {
    SeparatorAlone();
    LenientOn(["--"], SeparatorOnlyTokens);
  }

  lemma SeparatorOnly()
    ensures var m := Lenient(["--"]);
      && Ask(m, ArgAll(None, Str)) == Done(Many([]))
  {
    SeparatorOnlyStart();
    SeparatorOnlyQuery0();
  }

  const DoubleDashAnswersTokens := Tokens(["name0", "name1", "-name2", "--name3", "---name4"], [NamedArg("--flag1", None)])

  lemma DoubleDashAnswersQuery0()
    ensures Ask(Fresh(DoubleDashAnswersTokens, false, 0), ArgAll(None, Str)) == Done(Many([StrValue("name0"), StrValue("name1"), StrValue("-name2"), StrValue("--name3"), StrValue("---name4")]))
  {
    ConvertAllStrings(DoubleDashAnswersTokens.positional);
    assert Strings(DoubleDashAnswersTokens.positional) == [StrValue("name0"), StrValue("name1"), StrValue("-name2"), StrValue("--name3"), StrValue("---name4")];
    AskAll(DoubleDashAnswersTokens, None, Str);
  }

  lemma DoubleDashAnswersStart()
    ensures Lenient(["--flag1", "name0", "--", "name1", "-name2", "--name3", "---name4"]) == Fresh(DoubleDashAnswersTokens, false, 0)
  {
    DoubleDash();
    LenientOn(["--flag1", "name0", "--", "name1", "-name2", "--name3", "---name4"], DoubleDashAnswersTokens);
  }

  /** Everything after `--` is positional, however many hyphens it starts with. */
  lemma DoubleDashAnswers()
    ensures var m := Lenient(["--flag1", "name0", "--", "name1", "-name2", "--name3", "---name4"]);
      && Ask(m, ArgAll(None, Str)) == Done(Many([StrValue("name0"), StrValue("name1"), StrValue("-name2"), StrValue("--name3"), StrValue("---name4")]))
  {
    DoubleDashAnswersStart();
    DoubleDashAnswersQuery0();
  }

  const PrecisionAnswersTokens := Tokens([], [NamedArg("--65535", Some("65535")), NamedArg("--65536", Some("65536")), NamedArg("--permitted", Some("1000000000000")), NamedArg("--overflow", Some(Overflow))])

  lemma PrecisionAnswersQuery0()
    ensures Ask(Fresh(PrecisionAnswersTokens, false, 0), Flag("--65535", Integer(W16, false))) == Done(Single(IntValue(65535)))
  {
    var id := Identifier(Named(None, Some("--65535")), None, false);
    assert MakeIdentifier(["--65535"], None) == Success(id);
    assert MatchNamed(PrecisionAnswersTokens.named, id) == Success(Some(0));
    AskMatched(PrecisionAnswersTokens, Flag("--65535", Integer(W16, false)), id, 0);
    Widest16();
  }

  lemma PrecisionAnswersQuery1()
    ensures Ask(Fresh(PrecisionAnswersTokens, false, 0), Flag("--65536", Integer(W16, false))).Failed?
  {
    var id := Identifier(Named(None, Some("--65536")), None, false);
    assert MakeIdentifier(["--65536"], None) == Success(id);
    assert FindNamed(PrecisionAnswersTokens.named[1..], "--65536") == Some(0);
    assert MatchNamed(PrecisionAnswersTokens.named, id) == Success(Some(1));
    AskMatched(PrecisionAnswersTokens, Flag("--65536", Integer(W16, false)), id, 1);
    Widest16();
  }

  lemma PrecisionAnswersQuery2()
    ensures Ask(Fresh(PrecisionAnswersTokens, false, 0), Flag("--permitted", Integer(W64, true))).Done?
  {
    var id := Identifier(Named(None, Some("--permitted")), None, false);
    var named := PrecisionAnswersTokens.named;
    assert MakeIdentifier(["--permitted"], None) == Success(id);
    assert FindNamed(named[2..], "--permitted") == Some(0);
    assert FindNamed(named[1..], "--permitted") == Some(1);
    assert MatchNamed(named, id) == Success(Some(2));
    PermittedFits();
    AskMatched(PrecisionAnswersTokens, Flag("--permitted", Integer(W64, true)), id, 2);
  }

  lemma PrecisionAnswersQuery3()
    ensures Ask(Fresh(PrecisionAnswersTokens, false, 0), Flag("--overflow", Integer(W64, true))).Failed?
  {
    var id := Identifier(Named(None, Some("--overflow")), None, false);
    assert MakeIdentifier(["--overflow"], None) == Success(id);
    assert FindNamed(PrecisionAnswersTokens.named[3..], "--overflow") == Some(0);
    assert FindNamed(PrecisionAnswersTokens.named[2..], "--overflow") == Some(1);
    assert FindNamed(PrecisionAnswersTokens.named[1..], "--overflow") == Some(2);
    assert MatchNamed(PrecisionAnswersTokens.named, id) == Success(Some(3));
    AskMatched(PrecisionAnswersTokens, Flag("--overflow", Integer(W64, true)), id, 3);
    OverflowRefused();
  }

  lemma PrecisionAnswersStart()
    ensures Lenient(["--65535=65535", "--65536=65536", "--permitted=1000000000000", "--overflow=" + Overflow]) == Fresh(PrecisionAnswersTokens, false, 0)
  {
    Precision();
    LenientOn(["--65535=65535", "--65536=65536", "--permitted=1000000000000", "--overflow=" + Overflow], PrecisionAnswersTokens);
  }

  /** Values are checked against the range of the requested width, at both ends. */
  lemma PrecisionAnswers()
    ensures var m := Lenient(["--65535=65535", "--65536=65536", "--permitted=1000000000000", "--overflow=" + Overflow]);
      && Ask(m, Flag("--65535", Integer(W16, false))) == Done(Single(IntValue(65535)))
      && Ask(m, Flag("--65536", Integer(W16, false))).Failed?
      && Ask(m, Flag("--permitted", Integer(W64, true))).Done?
      && Ask(m, Flag("--overflow", Integer(W64, true))).Failed?
  {
    PrecisionAnswersStart();
    PrecisionAnswersQuery0();
    PrecisionAnswersQuery1();
    PrecisionAnswersQuery2();
    PrecisionAnswersQuery3();
  }

  lemma PrecisionDefaultsQuery0()
    ensures Ask(Fresh(PrecisionAnswersTokens, false, 0), WithDefault("-a", Integer(W32, false), StrDefault("-1"))) == Failed(DefaultMismatch)
  {
  }

  lemma PrecisionDefaultsQuery1()
    ensures Ask(Fresh(PrecisionAnswersTokens, false, 0), WithDefault("-a", Integer(W32, true), IntDefault(2147483647))) == Done(Single(IntValue(2147483647)))
  {
  }

  lemma PrecisionDefaultsQuery2()
    ensures Ask(Fresh(PrecisionAnswersTokens, false, 0), WithDefault("-a", Integer(W32, true), IntDefault(2147483648))) == Failed(DefaultMismatch)
  {
  }

  lemma PrecisionDefaultsQuery3()
    ensures Ask(Fresh(PrecisionAnswersTokens, false, 0), WithDefault("-a", Integer(W32, false), IntDefault(4294967295))) == Done(Single(IntValue(4294967295)))
  {
  }

  lemma PrecisionDefaultsQuery4()
    ensures Ask(Fresh(PrecisionAnswersTokens, false, 0), WithDefault("-a", Integer(W32, false), IntDefault(4294967296))) == Failed(DefaultMismatch)
  {
  }

  lemma PrecisionDefaultsQuery5()
    ensures Ask(Fresh(PrecisionAnswersTokens, false, 0), WithDefault("-a", Integer(W64, true), IntDefault(4611686018427387904))) == Done(Single(IntValue(4611686018427387904)))
  {
  }

  lemma PrecisionDefaultsStart()
    ensures Lenient(["--65535=65535", "--65536=65536", "--permitted=1000000000000", "--overflow=" + Overflow]) == Fresh(PrecisionAnswersTokens, false, 0)
  {
    Precision();
    LenientOn(["--65535=65535", "--65536=65536", "--permitted=1000000000000", "--overflow=" + Overflow], PrecisionAnswersTokens);
  }

  /** Defaults are checked against the range of the requested width, at both ends. */
  lemma PrecisionDefaults()
    ensures var m := Lenient(["--65535=65535", "--65536=65536", "--permitted=1000000000000", "--overflow=" + Overflow]);
      && Ask(m, WithDefault("-a", Integer(W32, false), StrDefault("-1"))) == Failed(DefaultMismatch)
      && Ask(m, WithDefault("-a", Integer(W32, true), IntDefault(2147483647))) == Done(Single(IntValue(2147483647)))
      && Ask(m, WithDefault("-a", Integer(W32, true), IntDefault(2147483648))) == Failed(DefaultMismatch)
      && Ask(m, WithDefault("-a", Integer(W32, false), IntDefault(4294967295))) == Done(Single(IntValue(4294967295)))
      && Ask(m, WithDefault("-a", Integer(W32, false), IntDefault(4294967296))) == Failed(DefaultMismatch)
      && Ask(m, WithDefault("-a", Integer(W64, true), IntDefault(4611686018427387904))) == Done(Single(IntValue(4611686018427387904)))
  {
    PrecisionDefaultsStart();
    PrecisionDefaultsQuery0();
    PrecisionDefaultsQuery1();
    PrecisionDefaultsQuery2();
    PrecisionDefaultsQuery3();
    PrecisionDefaultsQuery4();
    PrecisionDefaultsQuery5();
  }

  const OptionalAnswersTokens := Tokens([], [NamedArg("-i", Some("1")), NamedArg("-f", Some("1.0")), NamedArg("-s", Some("test"))])

  /** `--undefined` names a long-only identifier. */
  lemma UndefinedNamed()
    ensures MakeIdentifier(["--undefined"], None) == Success(Identifier(Named(None, Some("--undefined")), None, false))
  {
  }

  lemma OptionalAnswersQuery0()
    ensures Ask(Fresh(OptionalAnswersTokens, false, 0), Maybe("--undefined", Int32)) == Done(Absent)
  {
    var id := Identifier(Named(None, Some("--undefined")), None, false);
    UndefinedNamed();
    assert MatchNamed(OptionalAnswersTokens.named, id) == Success(None);
    AskMissing(OptionalAnswersTokens, Maybe("--undefined", Int32), id);
  }

  lemma OptionalAnswersQuery1()
    ensures Ask(Fresh(OptionalAnswersTokens, false, 0), Maybe("-i", Int32)) == Done(Single(IntValue(1)))
  {
    assert ShowInt(1) == "1";
    ConvertNumeral("1", 1, W32, true);
  }

  lemma OptionalAnswersQuery2()
    ensures Ask(Fresh(OptionalAnswersTokens, false, 0), Maybe("--undefined", Str)) == Done(Absent)
  {
    var id := Identifier(Named(None, Some("--undefined")), None, false);
    UndefinedNamed();
    assert MatchNamed(OptionalAnswersTokens.named, id) == Success(None);
    AskMissing(OptionalAnswersTokens, Maybe("--undefined", Str), id);
  }

  lemma OptionalAnswersQuery3()
    ensures Ask(Fresh(OptionalAnswersTokens, false, 0), Maybe("-s", Str)) == Done(Single(StrValue("test")))
  {
  }

  lemma OptionalAnswersStart()
    ensures Lenient(["-i=1", "-f=1.0", "-s=test"]) == Fresh(OptionalAnswersTokens, false, 0)
  {
    ThreeAssignments("1.0");
    assert "-f=" + "1.0" == "-f=1.0";
    LenientOn(["-i=1", "-f=1.0", "-s=test"], OptionalAnswersTokens);
  }

  /** An optional query is empty when nothing matches and holds the converted value otherwise. */
  lemma OptionalAnswers()
    ensures var m := Lenient(["-i=1", "-f=1.0", "-s=test"]);
      && Ask(m, Maybe("--undefined", Int32)) == Done(Absent)
      && Ask(m, Maybe("-i", Int32)) == Done(Single(IntValue(1)))
      && Ask(m, Maybe("--undefined", Str)) == Done(Absent)
      && Ask(m, Maybe("-s", Str)) == Done(Single(StrValue("test")))
  {
    OptionalAnswersStart();
    OptionalAnswersQuery0();
    OptionalAnswersQuery1();
    OptionalAnswersQuery2();
    OptionalAnswersQuery3();
  }

  const OptionalAndDefaultTokens := Tokens([], [NamedArg("-i", Some("0"))])

  lemma OptionalAndDefaultQuery0()
    ensures Ask(Fresh(OptionalAndDefaultTokens, false, 0), Arg(["--undefined"], None, Int32, Some(IntDefault(0)), true)) == Failed(OptionalWithDefault)
  {
  }

  lemma OptionalAndDefaultQuery1()
    ensures Ask(Fresh(OptionalAndDefaultTokens, false, 0), Arg(["-i"], None, Int32, Some(IntDefault(0)), true)) == Failed(OptionalWithDefault)
  {
  }

  lemma OptionalAndDefaultStart()
    ensures Lenient(["-i=0"]) == Fresh(OptionalAndDefaultTokens, false, 0)
  {
    SingleAssignment("-i", "0");
    assert "-i" + "=" + "0" == "-i=0";
    LenientOn(["-i=0"], OptionalAndDefaultTokens);
  }

  /** An optional query cannot also carry a default, matched or not. */
  lemma OptionalAndDefault()
    ensures var m := Lenient(["-i=0"]);
      && Ask(m, Arg(["--undefined"], None, Int32, Some(IntDefault(0)), true)) == Failed(OptionalWithDefault)
      && Ask(m, Arg(["-i"], None, Int32, Some(IntDefault(0)), true)) == Failed(OptionalWithDefault)
  {
    OptionalAndDefaultStart();
    OptionalAndDefaultQuery0();
    OptionalAndDefaultQuery1();
  }

  const NegativeAssignmentTokens := Tokens([], [NamedArg("-a", Some("-1"))])

  lemma NegativeAssignmentQuery0()
    ensures Ask(Fresh(NegativeAssignmentTokens, false, 0), Flag("-a", Int32)) == Done(Single(IntValue(-1)))
  {
    assert ShowInt(-1) == "-1";
    ConvertNumeral("-1", -1, W32, true);
  }

  lemma NegativeAssignmentStart()
    ensures Lenient(["-a=-1"]) == Fresh(NegativeAssignmentTokens, false, 0)
  {
    SingleAssignment("-a", "-1");
    assert "-a" + "=" + "-1" == "-a=-1";
    LenientOn(["-a=-1"], NegativeAssignmentTokens);
  }

  /** Negative numbers are values, both after `=` and on their own. */
  lemma NegativeAssignment()
    ensures var m := Lenient(["-a=-1"]);
      && Ask(m, Flag("-a", Int32)) == Done(Single(IntValue(-1)))
  {
    NegativeAssignmentStart();
    NegativeAssignmentQuery0();
  }

  const NegativePositionalTokens := Tokens(["-1"], [NamedArg("-a", Some("-2"))])

  lemma NegativePositionalQuery0()
    ensures Ask(Fresh(NegativePositionalTokens, false, 0), At(0, Int32)) == Done(Single(IntValue(-1)))
  {
    assert ShowInt(-1) == "-1";
    ConvertNumeral("-1", -1, W32, true);
  }

  lemma NegativePositionalQuery1()
    ensures Ask(Fresh(NegativePositionalTokens, false, 0), Flag("-a", Int32)) == Done(Single(IntValue(-2)))
  {
    assert ShowInt(-2) == "-2";
    ConvertNumeral("-2", -2, W32, true);
  }

  lemma NegativePositionalStart()
    ensures Lenient(["-1", "-a=-2"]) == Fresh(NegativePositionalTokens, false, 0)
  {
    NegativeValues("-1", "-2");
    assert "-a=" + "-2" == "-a=-2";
    LenientOn(["-1", "-a=-2"], NegativePositionalTokens);
  }

  lemma NegativePositional()
    ensures var m := Lenient(["-1", "-a=-2"]);
      && Ask(m, At(0, Int32)) == Done(Single(IntValue(-1)))
      && Ask(m, Flag("-a", Int32)) == Done(Single(IntValue(-2)))
  {
    NegativePositionalStart();
    NegativePositionalQuery0();
    NegativePositionalQuery1();
  }

  const NegativeWideTokens := Tokens(["-10"], [NamedArg("-a", Some("-20"))])

  lemma NegativeWideQuery0()
    ensures Ask(Fresh(NegativeWideTokens, false, 0), At(0, Int32)) == Done(Single(IntValue(-10)))
  {
    assert ShowInt(-10) == "-10";
    ConvertNumeral("-10", -10, W32, true);
  }

  lemma NegativeWideQuery1()
    ensures Ask(Fresh(NegativeWideTokens, false, 0), Flag("-a", Int32)) == Done(Single(IntValue(-20)))
  {
    assert ShowInt(-20) == "-20";
    ConvertNumeral("-20", -20, W32, true);
  }

  lemma NegativeWideStart()
    ensures Lenient(["-10", "-a=-20"]) == Fresh(NegativeWideTokens, false, 0)
  {
    NegativeValues("-10", "-20");
    assert "-a=" + "-20" == "-a=-20";
    LenientOn(["-10", "-a=-20"], NegativeWideTokens);
  }

  lemma NegativeWide()
    ensures var m := Lenient(["-10", "-a=-20"]);
      && Ask(m, At(0, Int32)) == Done(Single(IntValue(-10)))
      && Ask(m, Flag("-a", Int32)) == Done(Single(IntValue(-20)))
  {
    NegativeWideStart();
    NegativeWideQuery0();
    NegativeWideQuery1();
  }

}

=== FILE: optional.dfy ===
/** The library's own optional wrapper, the result type of a query for a value
    that may be absent. An empty wrapper converts to `false`, supplies the
    fallback of `value_or`, and reading its value is a usage error. */
module Optionals {
  import opened Wrappers
  import opened Errors
  import opened Conversion
  import opened Matching

  /** Reading the value of an empty wrapper fails; a full one yields what it holds. */
  function Value<T>(o: Option<T>): (r: Result<T, Error>)
    ensures r.Failure? <==> o == None
    ensures r.Failure? ==> r.error == EmptyOptional
    ensures r.Success? ==> r == Success(o.value)
  {
    if o.Some? then Success(o.value) else Failure(EmptyOptional)
  }

  /** `has_value()` and the conversion to `bool`: true exactly when reading
      the value succeeds. */
  function HasValue<T>(o: Option<T>): (r: bool)
    ensures r <==> Value(o).Success?
  {
    o.Some?
  }

  /** `value_or` agrees with `Value` whenever there is a value, and yields
      the fallback exactly when `Value` fails. */
  function ValueOr<T>(o: Option<T>, fallback: T): (r: T)
    ensures Value(o).Success? ==> r == Value(o).value
    ensures Value(o).Failure? ==> r == fallback
  {
    if o.Some? then o.value else fallback
  }

  /** The optional a query answer converts to: an absent answer is empty and
      a single value is held; a list of values has no optional form. */
  function FromAnswer(a: Answer): (r: Option<Value>)
    requires !a.Many?
    ensures HasValue(r) <==> a.Single?
    ensures a.Single? ==> Value(r) == Success(a.v)
  {
    if a.Single? then Some(a.v) else None
  }

  /** The cases of the wrapper's tests: an empty wrapper and one holding 1,
      each asked for its value, `value_or(3)` and whether it has a value. */
  lemma WrapperCases()
    ensures var empty: Option<int> := None;
      !HasValue(empty) && ValueOr(empty, 3) == 3 && Value(empty) == Failure(EmptyOptional)
    ensures HasValue(Some(1)) && ValueOr(Some(1), 3) == 1 && Value(Some(1)) == Success(1)
    ensures HasValue(Some(3))
  {
  }
}

=== FILE: strict_cases.dfy ===
/** Concrete strict-mode cases: help display, the declared query count,
    unclaimed tokens, conflicting queries, the query log and the two-phase
    protocol, each as the library's tests run them. */
module StrictCases {
  import opened Wrappers
  import opened Errors
  import opened Text
  import opened Identifiers
  import opened Conversion
  import opened Tokenizer
  import opened Matching
  import opened Logging
  import opened Introspection
  import opened Evaluation
  import opened TokenizerCases
  import opened MatcherCases

  // ---------------------------------------------------------------------------
  // Running a list of queries one step at a time

  lemma RunCons(m: Matcher, qs: seq<Query>, s: Step, rest: Run)
    requires |qs| > 0 && Resolve(m, qs[0]) == Done(s) && RunAll(s.next, qs[1..]) == Done(rest)
    ensures RunAll(m, qs) == Done(Run([s.answer] + rest.answers, rest.final))
  {
  }

  lemma RunStops(m: Matcher, qs: seq<Query>, e: Error)
    requires |qs| > 0 && Resolve(m, qs[0]) == Failed(e)
    ensures RunAll(m, qs) == Failed(e)
  {
  }

  lemma RunFails(m: Matcher, qs: seq<Query>, s: Step, e: Error)
    requires |qs| > 0 && Resolve(m, qs[0]) == Done(s) && RunAll(s.next, qs[1..]) == Failed(e)
    ensures RunAll(m, qs) == Failed(e)
  {
  }

  /** In strict mode, a plain named query that matches a token and converts
      its value answers with that value and claims the token; reaching the
      declared count then requires every token to be claimed. */
  lemma ClaimStep(m: Matcher, q: Query, j: nat, v: Value)
    requires m.strict && !m.help && m.deferred.None? && q.id.name.Named? && !q.id.optional
    requires q.default.None? && !q.optional
    requires |m.queried| < m.declared && !ClashesWith(m.queried, q.id)
    requires MatchNamed(m.tokens.named, q.id) == Success(Some(j))
    requires Convert(m.tokens.named[j].value, q.kind) == Success(v)
    requires |m.queried| + 1 == m.declared ==> AllClaimed(m.(claimedNamed := m.claimedNamed + {j}))
    ensures Resolve(m, q) == Done(Step(Single(v), m.(queried := m.queried + [q.id], claimedNamed := m.claimedNamed + {j})))
  {
    assert SetOptional(q.id, false) == q.id;
    assert m.claimedPositional + {} == m.claimedPositional;
  }

  lemma Logs1(c0: Call, q0: Query)
    requires Declare(c0) == Success(q0)
    ensures Discover([c0]) == Success(Logger([q0]))
  {
    assert Discover([]) == Success(Logger([]));
    DiscoverCons(c0, [], q0, Logger([]));
    assert [c0] + [] == [c0] && [q0] + [] == [q0];
  }

  lemma Logs2(c0: Call, c1: Call, q0: Query, q1: Query)
    requires Declare(c0) == Success(q0) && Declare(c1) == Success(q1)
    ensures Discover([c0, c1]) == Success(Logger([q0, q1]))
  {
    Logs1(c1, q1);
    DiscoverCons(c0, [c1], q0, Logger([q1]));
    assert [c0] + [c1] == [c0, c1] && [q0] + [q1] == [q0, q1];
  }

  lemma Logs3(c0: Call, c1: Call, c2: Call, q0: Query, q1: Query, q2: Query)
    requires Declare(c0) == Success(q0) && Declare(c1) == Success(q1) && Declare(c2) == Success(q2)
    ensures Discover([c0, c1, c2]) == Success(Logger([q0, q1, q2]))
  {
    Logs2(c1, c2, q1, q2);
    DiscoverCons(c0, [c1, c2], q0, Logger([q1, q2]));
    assert [c0] + [c1, c2] == [c0, c1, c2] && [q0] + [q1, q2] == [q0, q1, q2];
  }

  /** A strict session below its declared count runs its queries on a fresh
      cycle over the tokens of its command line. */
  lemma SessionRuns(args: seq<string>, declared: nat, calls: seq<Call>, t: Tokens, log: Logger)
    requires Tokenize(Argv(args), {}) == Success(t) && declared > 0 && !HelpRequested(t)
    requires Discover(calls) == Success(log)
    ensures Session(args, true, declared, calls) == RunAll(Fresh(t, true, declared), log.entries)
  {
    StartsOn(args, true, declared, t);
  }

  /** A strict session that asks for help shows it once its admissible
      queries reach the declared count. */
  lemma SessionShowsHelp(args: seq<string>, calls: seq<Call>, t: Tokens, log: Logger)
    requires Tokenize(Argv(args), {}) == Success(t) && HelpRequested(t)
    requires Discover(calls) == Success(log) && |calls| > 0
    requires Admissible([], log.entries)
    ensures Session(args, true, |calls|, calls) == ShowHelp
  {
    var m := Matcher(t, true, |calls|, true, [], {}, {}, None);
    assert Start(args, true, |calls|) == Done(m);
    HelpRunShowsHelp(m, log.entries);
  }

  // ---------------------------------------------------------------------------
  // Help

  const IntI := Query(Identifier(Named(Some("-i"), None), None, false), Int32, None, false)

  lemma HelpAlone()
    ensures Start(["-h"], true, 0) == ShowHelp
    ensures Start(["--help"], true, 0) == ShowHelp
    ensures Start(["--help", "1"], true, 0) == ShowHelp
  {
    HelpLines("-h");
    HelpLines("--help");
  }

  lemma HelpBeforeQuery()
    ensures Session(["-h"], true, 1, [Flag("-i", Int32)]) == ShowHelp
  {
    HelpLines("-h");
    Logs1(Flag("-i", Int32), IntI);
    SessionShowsHelp(["-h"], [Flag("-i", Int32)], Tokens([], [NamedArg("-h", None)]), Logger([IntI]));
  }

  lemma HelpBeforeMatchedQuery()
    ensures Session(["-h", "-i", "1"], true, 1, [Flag("-i", Int32)]) == ShowHelp
  {
    HelpAndFlag();
    Logs1(Flag("-i", Int32), IntI);
    SessionShowsHelp(["-h", "-i", "1"], [Flag("-i", Int32)], Tokens(["1"], [NamedArg("-h", None), NamedArg("-i", None)]), Logger([IntI]));
  }

  function IntLong(name: string): Query {
    Query(Identifier(Named(None, Some(name)), None, false), Int32, None, false)
  }

  const LongCalls := [Flag("--i1", Int32), Flag("--i2", Int32), Flag("--i3", Int32)]
  const LongLog := Logger([IntLong("--i1"), IntLong("--i2"), IntLong("--i3")])

  lemma LongDiscovered()
    ensures Discover(LongCalls) == Success(LongLog)
  {
    assert Declare(Flag("--i1", Int32)) == Success(IntLong("--i1"));
    assert Declare(Flag("--i2", Int32)) == Success(IntLong("--i2"));
    assert Declare(Flag("--i3", Int32)) == Success(IntLong("--i3"));
    Logs3(Flag("--i1", Int32), Flag("--i2", Int32), Flag("--i3", Int32), IntLong("--i1"), IntLong("--i2"), IntLong("--i3"));
  }

  lemma LongAdmissible()
    ensures Admissible([], LongLog.entries)
  {
  }

  lemma HelpAfterThreeQueries()
    ensures Session(["-h"], true, 3, [Flag("--i1", Int32), Flag("--i2", Int32), Flag("--i3", Int32)]) == ShowHelp
  {
    HelpLines("-h");
    LongDiscovered();
    LongAdmissible();
    SessionShowsHelp(["-h"], LongCalls, Tokens([], [NamedArg("-h", None)]), LongLog);
  }

  function IntAt(i: nat): Query {
    Query(Identifier(Positional(i, None), None, false), Int32, None, false)
  }

  lemma HelpBeforePositional()
    ensures Session(["-h"], true, 1, [At(0, Int32)]) == ShowHelp
    ensures Session(["-h", "1"], true, 1, [At(0, Int32)]) == ShowHelp
  {
    HelpLines("-h");
    Logs1(At(0, Int32), IntAt(0));
    SessionShowsHelp(["-h"], [At(0, Int32)], Tokens([], [NamedArg("-h", None)]), Logger([IntAt(0)]));
    SessionShowsHelp(["-h", "1"], [At(0, Int32)], Tokens(["1"], [NamedArg("-h", None)]), Logger([IntAt(0)]));
  }

  const IndexCalls := [At(0, Int32), At(1, Int32), At(2, Int32)]
  const IndexLog := Logger([IntAt(0), IntAt(1), IntAt(2)])

  lemma IndexDiscovered()
    ensures Discover(IndexCalls) == Success(IndexLog)
  {
    Logs3(At(0, Int32), At(1, Int32), At(2, Int32), IntAt(0), IntAt(1), IntAt(2));
  }

  lemma IndexAdmissible()
    ensures Admissible([], IndexLog.entries)
  {
  }

  lemma HelpAfterThreePositionals()
    ensures Session(["-h"], true, 3, [At(0, Int32), At(1, Int32), At(2, Int32)]) == ShowHelp
  {
    HelpLines("-h");
    IndexDiscovered();
    IndexAdmissible();
    SessionShowsHelp(["-h"], IndexCalls, Tokens([], [NamedArg("-h", None)]), IndexLog);
  }

  lemma HelpBeforeCatchAll()
    ensures Session(["-h"], true, 1, [ArgAll(None, Str)]) == ShowHelp
  {
    HelpLines("-h");
    var log := Logger([Query(MakeVariadic(None), Str, None, false)]);
    Logs1(ArgAll(None, Str), Query(MakeVariadic(None), Str, None, false));
    SessionShowsHelp(["-h"], [ArgAll(None, Str)], Tokens([], [NamedArg("-h", None)]), log);
  }

  // ---------------------------------------------------------------------------
  // The declared query count

  const IntX := Query(Identifier(Named(Some("-x"), None), None, false), Int32, None, false)
  const XTokens := Tokens([], [NamedArg("-x", Some("0"))])
  const ITokens := Tokens([], [NamedArg("-i", Some("1"))])

  lemma AssignedX()
    ensures Tokenize(Argv(["-x=0"]), {}) == Success(XTokens)
  {
    SingleAssignment("-x", "0");
    assert "-x" + "=" + "0" == "-x=0";
  }

  lemma AssignedI()
    ensures Tokenize(Argv(["-i=1"]), {}) == Success(ITokens)
  {
    SingleAssignment("-i", "1");
    assert "-i" + "=" + "1" == "-i=1";
  }

  /** A strict session over `-i=1` runs its logged queries on the one token. */
  lemma SessionOnI(declared: nat, calls: seq<Call>, log: Logger)
    requires declared > 0 && Discover(calls) == Success(log)
    ensures Session(["-i=1"], true, declared, calls) == RunAll(Fresh(ITokens, true, declared), log.entries)
  {
    AssignedI();
    SessionRuns(["-i=1"], declared, calls, ITokens, log);
  }

  lemma DeclaredX()
    ensures Discover([Flag("-x", Int32)]) == Success(Logger([IntX]))
  {
    Logs1(Flag("-x", Int32), IntX);
  }

  /** The declared count of zero accepts an empty command line and refuses
      any token, which no query can claim. */
  lemma StrictNothingDeclared()
    ensures Start([], true, 0).Done?
    ensures Start(["-i=1"], true, 0) == Failed(UnclaimedArguments)
  {
    Values({}, []);
    AssignedI();
  }

  lemma XMatched()
    ensures var r := Resolve(Fresh(XTokens, true, 1), IntX);
      r.Done? && r.value.answer == Single(IntValue(0))
  {
    assert ShowInt(0) == "0";
    ConvertNumeral("0", 0, W32, true);
    assert FindNamed(XTokens.named, "-x") == Some(0);
  }

  /** The one declared query claims the one token. */
  lemma StrictMatched()
    ensures var r := Session(["-x=0"], true, 1, [Flag("-x", Int32)]);
      r.Done? && r.value.answers == [Single(IntValue(0))]
  {
    AssignedX();
    DeclaredX();
    SessionRuns(["-x=0"], 1, [Flag("-x", Int32)], XTokens, Logger([IntX]));
    var m := Fresh(XTokens, true, 1);
    XMatched();
    var s := Resolve(m, IntX).value;
    assert [IntX][1..] == [];
    RunCons(m, [IntX], s, Run([], s.next));
  }

  const IMatched := Matcher(ITokens, true, 2, false, [IntI.id], {0}, {}, None)

  lemma IFirst()
    ensures Resolve(Fresh(ITokens, true, 2), IntI) == Done(Step(Single(IntValue(1)), IMatched))
  {
    assert ShowInt(1) == "1";
    ConvertNumeral("1", 1, W32, true);
    assert FindNamed(ITokens.named, "-i") == Some(0);
    assert SetOptional(IntI.id, false) == IntI.id;
    assert [] + [IntI.id] == [IntI.id];
    var f := Found(Single(IntValue(1)), {0}, {});
    assert Lookup(ITokens, IntI) == Success(f);
    assert Record(Fresh(ITokens, true, 2), IntI, f, None) == IMatched;
  }

  lemma XSecond()
    ensures Resolve(IMatched, IntX) == Failed(MissingArgument("-x"))
  {
    assert FindNamed(ITokens.named, "-x") == None;
    assert Lookup(ITokens, IntX) == Failure(MissingArgument("-x"));
  }

  lemma DeferredRun()
    ensures RunAll(Fresh(ITokens, true, 2), [IntI, IntX]) == Failed(MissingArgument("-x"))
  {
    IFirst();
    XSecond();
    assert [IntI, IntX][1..] == [IntX];
    RunStops(IMatched, [IntX], MissingArgument("-x"));
    RunFails(Fresh(ITokens, true, 2), [IntI, IntX], Step(Single(IntValue(1)), IMatched), MissingArgument("-x"));
  }

  /** A missing argument is reported once the declared count is reached. */
  lemma StrictDeferred()
    ensures Session(["-i=1"], true, 2, [Flag("-i", Int32), Flag("-x", Int32)]) == Failed(MissingArgument("-x"))
  {
    Logs2(Flag("-i", Int32), Flag("-x", Int32), IntI, IntX);
    SessionOnI(2, [Flag("-i", Int32), Flag("-x", Int32)], Logger([IntI, IntX]));
    DeferredRun();
  }

  lemma XAlone()
    ensures Resolve(Fresh(ITokens, true, 1), IntX) == Failed(MissingArgument("-x"))
  {
    assert FindNamed(ITokens.named, "-x") == None;
    assert Lookup(ITokens, IntX) == Failure(MissingArgument("-x"));
  }

  /** With one query declared, the query that misses fails with its missing
      argument, ahead of the unclaimed token. */
  lemma StrictMissing()
    ensures Session(["-i=1"], true, 1, [Flag("-x", Int32)]) == Failed(MissingArgument("-x"))
  {
    DeclaredX();
    SessionOnI(1, [Flag("-x", Int32)], Logger([IntX]));
    XAlone();
    RunStops(Fresh(ITokens, true, 1), [IntX], MissingArgument("-x"));
  }

  const XDefault := Query(Identifier(Named(Some("-x"), None), None, false), Int32, Some(IntDefault(0)), false)

  lemma XDefaulted()
    ensures Resolve(Fresh(ITokens, true, 1), XDefault) == Failed(UnclaimedArguments)
  {
    assert FindNamed(ITokens.named, "-x") == None;
    assert Lookup(ITokens, XDefault).Success?;
  }

  /** A default answers the query, but the token it leaves is unclaimed. */
  lemma StrictUnclaimed()
    ensures Session(["-i=1"], true, 1, [WithDefault("-x", Int32, IntDefault(0))]) == Failed(UnclaimedArguments)
  {
    Logs1(WithDefault("-x", Int32, IntDefault(0)), XDefault);
    SessionOnI(1, [WithDefault("-x", Int32, IntDefault(0))], Logger([XDefault]));
    XDefaulted();
    RunStops(Fresh(ITokens, true, 1), [XDefault], UnclaimedArguments);
  }

  // ---------------------------------------------------------------------------
  // Positional queries against the declared count

  const PTokens := Tokens(["0", "1"], [])
  const OneToken := Tokens(["1"], [])
  const AllInt := Query(MakeVariadic(None), Int32, None, false)

  function MaybeAt(i: int, kind: Kind): Call {
    Arg([], Some(i), kind, None, true)
  }

  function OptAt(i: nat): Query {
    Query(Identifier(Positional(i, None), None, false), Int32, None, true)
  }

  lemma ZeroOneRead()
    ensures Tokenize(Argv(["0", "1"]), {}) == Success(PTokens)
  {
    Values({}, ["0", "1"]);
  }

  lemma ZeroFirst()
    ensures Resolve(Fresh(PTokens, true, 1), IntAt(0)) == Failed(UnclaimedArguments)
  {
    assert ShowInt(0) == "0";
    ConvertNumeral("0", 0, W32, true);
    var f := Found(Single(IntValue(0)), {}, {0});
    assert Lookup(PTokens, IntAt(0)) == Success(f);
    var n := Record(Fresh(PTokens, true, 1), IntAt(0), f, None);
    assert n.claimedPositional == {0} && 1 !in n.claimedPositional;
    assert !AllClaimed(n);
  }

  /** One query declared and two values given: the second is unclaimed. */
  lemma StrictPositionalUnclaimed()
    ensures Session(["0", "1"], true, 1, [At(0, Int32)]) == Failed(UnclaimedArguments)
  {
    ZeroOneRead();
    Logs1(At(0, Int32), IntAt(0));
    SessionRuns(["0", "1"], 1, [At(0, Int32)], PTokens, Logger([IntAt(0)]));
    ZeroFirst();
    RunStops(Fresh(PTokens, true, 1), [IntAt(0)], UnclaimedArguments);
  }

  const OneClaimed := Matcher(OneToken, true, 2, false, [IntAt(0).id], {}, {0}, None)

  lemma OptionalFirst()
    ensures Resolve(Fresh(OneToken, true, 2), OptAt(0)) == Done(Step(Single(IntValue(1)), OneClaimed))
  {
    assert ShowInt(1) == "1";
    ConvertNumeral("1", 1, W32, true);
    var f := Found(Single(IntValue(1)), {}, {0});
    assert Lookup(OneToken, OptAt(0)) == Success(f);
    assert SetOptional(OptAt(0).id, false) == IntAt(0).id;
    assert [] + [IntAt(0).id] == [IntAt(0).id];
    assert Record(Fresh(OneToken, true, 2), OptAt(0), f, None) == OneClaimed;
  }

  lemma OptionalSecond()
    ensures var r := Resolve(OneClaimed, OptAt(1));
      r.Done? && r.value.answer == Absent
  {
    assert !ClashesWith([IntAt(0).id], OptAt(1).id);
    assert Lookup(OneToken, OptAt(1)) == Success(Found(Absent, {}, {}));
  }

  /** Two optional positional queries on one value: the first has it, the
      second is empty. */
  lemma StrictOptionalPositionals()
    ensures var r := Session(["1"], true, 2, [MaybeAt(0, Int32), MaybeAt(1, Int32)]);
      r.Done? && r.value.answers == [Single(IntValue(1)), Absent]
  {
    Values({}, ["1"]);
    Logs2(MaybeAt(0, Int32), MaybeAt(1, Int32), OptAt(0), OptAt(1));
    SessionRuns(["1"], 2, [MaybeAt(0, Int32), MaybeAt(1, Int32)], OneToken, Logger([OptAt(0), OptAt(1)]));
    OptionalFirst();
    OptionalSecond();
    var s := Resolve(OneClaimed, OptAt(1)).value;
    assert [OptAt(1)][1..] == [];
    RunCons(OneClaimed, [OptAt(1)], s, Run([], s.next));
    assert [Absent] + [] == [Absent];
    assert [OptAt(0), OptAt(1)][1..] == [OptAt(1)];
    RunCons(Fresh(OneToken, true, 2), [OptAt(0), OptAt(1)], Step(Single(IntValue(1)), OneClaimed), Run([Absent], s.next));
  }

  lemma AllFirst(declared: nat)
    requires declared > 0
    ensures var r := Resolve(Fresh(PTokens, true, declared), AllInt);
      r.Done? && r.value.answer == Many([IntValue(0), IntValue(1)]) &&
      r.value.next.queried == [AllInt.id] && r.value.next.claimedPositional == {0, 1}
  {
    ZeroOne();
    assert Indices(2) == {0, 1};
    assert SetOptional(AllInt.id, false) == AllInt.id;
  }

  /** The catch-all claims every value. */
  lemma StrictCatchAll()
    ensures var r := Session(["0", "1"], true, 1, [ArgAll(None, Int32)]);
      r.Done? && r.value.answers == [Many([IntValue(0), IntValue(1)])]
  {
    ZeroOneRead();
    Logs1(ArgAll(None, Int32), AllInt);
    SessionRuns(["0", "1"], 1, [ArgAll(None, Int32)], PTokens, Logger([AllInt]));
    AllFirst(1);
    var s := Resolve(Fresh(PTokens, true, 1), AllInt).value;
    assert [AllInt][1..] == [];
    RunCons(Fresh(PTokens, true, 1), [AllInt], s, Run([], s.next));
  }

  lemma IndexAfterAll(s: Step)
    requires Resolve(Fresh(PTokens, true, 2), AllInt) == Done(s)
    ensures Resolve(s.next, IntAt(0)) == Failed(DuplicateQuery("<0>"))
  {
    AllFirst(2);
    assert ClashesWith(s.next.queried, IntAt(0).id);
    assert ShowNat(0) == "0" && "<" + "0" + ">" == "<0>";
  }

  lemma IndexAfterAllRun()
    ensures RunAll(Fresh(PTokens, true, 2), [AllInt, IntAt(0)]) == Failed(DuplicateQuery("<0>"))
  {
    AllFirst(2);
    var s := Resolve(Fresh(PTokens, true, 2), AllInt).value;
    IndexAfterAll(s);
    assert [AllInt, IntAt(0)][1..] == [IntAt(0)];
    RunStops(s.next, [IntAt(0)], DuplicateQuery("<0>"));
    RunFails(Fresh(PTokens, true, 2), [AllInt, IntAt(0)], s, DuplicateQuery("<0>"));
  }

  /** After the catch-all, an indexed query conflicts with it. */
  lemma StrictIndexAfterAll()
    ensures Session(["0", "1"], true, 2, [ArgAll(None, Int32), At(0, Int32)]) == Failed(DuplicateQuery("<0>"))
  {
    ZeroOneRead();
    Logs2(ArgAll(None, Int32), At(0, Int32), AllInt, IntAt(0));
    SessionRuns(["0", "1"], 2, [ArgAll(None, Int32), At(0, Int32)], PTokens, Logger([AllInt, IntAt(0)]));
    IndexAfterAllRun();
  }

  lemma ZeroClaimed()
    ensures var r := Resolve(Fresh(PTokens, true, 2), IntAt(0));
      r.Done? && r.value.next.queried == [IntAt(0).id]
  {
    assert ShowInt(0) == "0";
    ConvertNumeral("0", 0, W32, true);
    assert SetOptional(IntAt(0).id, false) == IntAt(0).id;
  }

  /** After an indexed query, the catch-all conflicts with it. */
  lemma StrictAllAfterIndex()
    ensures Session(["0", "1"], true, 2, [At(0, Int32), ArgAll(None, Int32)]) == Failed(DuplicateQuery("..."))
  {
    ZeroOneRead();
    Logs2(At(0, Int32), ArgAll(None, Int32), IntAt(0), AllInt);
    SessionRuns(["0", "1"], 2, [At(0, Int32), ArgAll(None, Int32)], PTokens, Logger([IntAt(0), AllInt]));
    ZeroClaimed();
    var s := Resolve(Fresh(PTokens, true, 2), IntAt(0)).value;
    assert ClashesWith(s.next.queried, AllInt.id);
    assert Resolve(s.next, AllInt) == Failed(DuplicateQuery("..."));
    assert [IntAt(0), AllInt][1..] == [AllInt];
    RunStops(s.next, [AllInt], DuplicateQuery("..."));
    RunFails(Fresh(PTokens, true, 2), [IntAt(0), AllInt], s, DuplicateQuery("..."));
  }

  // ---------------------------------------------------------------------------
  // The same parameter twice

  const Undefined := Query(Identifier(Named(None, Some("--undefined")), None, false), Int32, Some(IntDefault(0)), false)

  lemma UndefinedFirst()
    ensures var r := Resolve(Fresh(Tokens([], []), true, 2), Undefined);
      r.Done? && r.value.answer == Single(IntValue(0)) &&
      r.value.next.queried == [SetOptional(Undefined.id, true)]
  {
    assert Lookup(Tokens([], []), Undefined) == Success(Found(Single(IntValue(0)), {}, {}));
  }

  lemma DeclaredTwice()
    ensures var c := WithDefault("--undefined", Int32, IntDefault(0));
      Discover([c, c]) == Success(Logger([Undefined, Undefined]))
  {
    var c := WithDefault("--undefined", Int32, IntDefault(0));
    assert Declare(c) == Success(Undefined);
    Logs2(c, c, Undefined, Undefined);
  }

  lemma DuplicateRun()
    ensures RunAll(Fresh(Tokens([], []), true, 2), [Undefined, Undefined]) == Failed(DuplicateQuery("--undefined"))
  {
    UndefinedFirst();
    var s := Resolve(Fresh(Tokens([], []), true, 2), Undefined).value;
    assert ClashesWith(s.next.queried, Undefined.id);
    assert Resolve(s.next, Undefined) == Failed(DuplicateQuery("--undefined"));
    assert [Undefined, Undefined][1..] == [Undefined];
    RunStops(s.next, [Undefined], DuplicateQuery("--undefined"));
    RunFails(Fresh(Tokens([], []), true, 2), [Undefined, Undefined], s, DuplicateQuery("--undefined"));
  }

  /** A strict program that asks for the same parameter twice fails at the
      second query. */
  lemma StrictDuplicate()
    ensures Session([], true, 2, [WithDefault("--undefined", Int32, IntDefault(0)), WithDefault("--undefined", Int32, IntDefault(0))])
      == Failed(DuplicateQuery("--undefined"))
  {
    var c := WithDefault("--undefined", Int32, IntDefault(0));
    DeclaredTwice();
    Values({}, []);
    SessionRuns([], 2, [c, c], Tokens([], []), Logger([Undefined, Undefined]));
    DuplicateRun();
  }
}

=== FILE: text.dfy ===
/** String helpers shared by the identifier, tokenizer and conversion modules:
    hyphen counting, searching for `=`, ASCII case folding, lexicographic
    comparison and decimal digits. */
module Text {
  import opened Wrappers

  predicate IsDigit(c: char) {
    '0' <= c <= '9'
  }

  predicate AllDigits(s: string) {
    forall i :: 0 <= i < |s| ==> IsDigit(s[i])
  }

  /** Number of `-` characters that start `s`. */
  function LeadingHyphens(s: string): (n: nat)
    ensures n <= |s|
    ensures forall i :: 0 <= i < n ==> s[i] == '-'
    ensures n < |s| ==> s[n] != '-'
  {
    if |s| > 0 && s[0] == '-' then 1 + LeadingHyphens(s[1..]) else 0
  }

  /** Index of the first occurrence of `c` in `s`. */
  function IndexOf(s: string, c: char): (r: Option<nat>)
    ensures r.Some? ==> r.value < |s| && s[r.value] == c
    ensures r.Some? ==> forall i :: 0 <= i < r.value ==> s[i] != c
    ensures r.None? <==> forall i :: 0 <= i < |s| ==> s[i] != c
  {
    if |s| == 0 then None
    else if s[0] == c then Some(0)
    else match IndexOf(s[1..], c)
      case None => None
      case Some(k) => Some(k + 1)
  }

  function LowerChar(c: char): char {
    if 'A' <= c <= 'Z' then (c as int + 32) as char else c
  }

  /** ASCII lower-casing, used to compare names case-insensitively. */
  function Lower(s: string): (r: string)
    ensures |r| == |s|
    ensures forall i :: 0 <= i < |s| ==> r[i] == LowerChar(s[i])
  {
    if |s| == 0 then [] else [LowerChar(s[0])] + Lower(s[1..])
  }

  /** Strict lexicographic order on strings (a proper prefix comes first). */
  predicate LexLess(a: string, b: string) {
    if |a| == 0 then |b| > 0
    else if |b| == 0 then false
    else if a[0] != b[0] then a[0] < b[0]
    else LexLess(a[1..], b[1..])
  }

  lemma {:induction false} LexLessIrreflexive(a: string)
    ensures !LexLess(a, a)
  {
    if |a| > 0 {
      LexLessIrreflexive(a[1..]);
    }
  }

  lemma {:induction false} LexLessTransitive(a: string, b: string, c: string)
    requires LexLess(a, b) && LexLess(b, c)
    ensures LexLess(a, c)
  {
    if |a| > 0 && a[0] == b[0] && b[0] == c[0] {
      LexLessTransitive(a[1..], b[1..], c[1..]);
    }
  }

  /** Any two different strings are ordered one way or the other. */
  lemma {:induction false} LexLessTotal(a: string, b: string)
    requires a != b
    ensures LexLess(a, b) || LexLess(b, a)
  {
    if |a| > 0 && |b| > 0 && a[0] == b[0] {
      assert a == [a[0]] + a[1..] && b == [b[0]] + b[1..];
      LexLessTotal(a[1..], b[1..]);
    }
  }

  function DigitChar(d: nat): char
    requires d < 10
  {
    ('0' as int + d) as char
  }

  function DigitValue(c: char): nat
    requires IsDigit(c)
  {
    c as int - '0' as int
  }

  /** Base-10 value of a string of digits (most significant first). */
  function DigitsValue(s: string): nat
    requires AllDigits(s)
  {
    if |s| == 0 then 0 else DigitsValue(s[..|s| - 1]) * 10 + DigitValue(s[|s| - 1])
  }

  /** Base-10 rendering of a natural number, without leading zeros. */
  function ShowNat(n: nat): (r: string)
    ensures |r| > 0 && AllDigits(r)
    ensures DigitsValue(r) == n
    ensures r[0] == '0' ==> n == 0
  {
    if n < 10 then [DigitChar(n)]
    else
      var r := ShowNat(n / 10) + [DigitChar(n % 10)];
      assert r[..|r| - 1] == ShowNat(n / 10);
      r
  }
}

=== FILE: tokenizer.dfy ===
/** Splitting the command line (without the program name) into positional
    values and named arguments. A named argument is a bare flag (`-x`,
    `--flag`, or one letter of a cluster `-abc`) or an assignment
    (`-x=value`, `--name=value`); after `--` every token is positional. */
module Tokenizer {
  import opened Wrappers
  import opened Errors
  import opened Text
  import opened Identifiers

  /** How one command-line token reads on its own. */
  datatype Lexeme =
    | Separator
    | Plain(text: string)
    | Flags(names: seq<string>)
    | Assignment(name: string, value: string)
    | Rejected(error: Error)

  /** `value` is `None` for a bare flag and holds the text after `=` (or the
      following token, when the flag is known to take a value) otherwise. */
  datatype NamedArg = NamedArg(name: string, value: Option<string>)

  datatype Tokens = Tokens(positional: seq<string>, named: seq<NamedArg>)

  /** The flags named by a single-hyphen cluster such as `-abc`. */
  function Expand(cluster: string): (r: seq<string>)
    ensures |r| == |cluster|
    ensures forall i :: 0 <= i < |r| ==> r[i] == ['-', cluster[i]]
  {
    if |cluster| == 0 then [] else [['-', cluster[0]]] + Expand(cluster[1..])
  }

  function Bare(names: seq<string>): (r: seq<NamedArg>)
    ensures |r| == |names|
    ensures forall i :: 0 <= i < |r| ==> r[i] == NamedArg(names[i], None)
  {
    if |names| == 0 then [] else [NamedArg(names[0], None)] + Bare(names[1..])
  }

  /** A token is a value when it has no leading hyphen or is a single hyphen
      followed by a digit (a negative number); three or more hyphens are
      refused, and a single-hyphen token may carry `=` only right after its
      one letter. */
  function Lex(t: string): Lexeme {
    var h := LeadingHyphens(t);
    if t == "--" then Separator
    else if h == 0 then Plain(t)
    else if h == 1 && |t| >= 2 && IsDigit(t[1]) then Plain(t)
    else if h >= 3 then Rejected(TooManyHyphens(t))
    else if |t| == 1 then Rejected(InvalidFlag(t))
    else match IndexOf(t, '=')
      case None => if h == 1 then Flags(Expand(t[1..])) else Flags([t])
      case Some(e) =>
        if h == 1 && e != 2 then Rejected(ClusterWithValue(t))
        else Assignment(t[..e], t[e + 1..])
  }

  function AddPositional(v: string, t: Tokens): Tokens {
    t.(positional := [v] + t.positional)
  }

  function AddNamed(ns: seq<NamedArg>, t: Tokens): Tokens {
    t.(named := ns + t.named)
  }

  /** Classifies `ts` in order. `assignment` holds the flag names the program
      queries with a non-boolean type: such a flag given bare takes the next
      token as its value when that token is a value. */
  function Scan(ts: seq<string>, afterSeparator: bool, assignment: set<string>): Result<Tokens, Error>
    decreases |ts|
  {
    if |ts| == 0 then Success(Tokens([], []))
    else if afterSeparator then
      var rest :- Scan(ts[1..], true, assignment);
      Success(AddPositional(ts[0], rest))
    else match Lex(ts[0])
      case Separator => Scan(ts[1..], true, assignment)
      case Plain(v) =>
        var rest :- Scan(ts[1..], false, assignment);
        Success(AddPositional(v, rest))
      case Flags(ns) =>
        if |ns| == 1 && ns[0] in assignment && |ts| > 1 && Lex(ts[1]).Plain? then
          var rest :- Scan(ts[2..], false, assignment);
          Success(AddNamed([NamedArg(ns[0], Some(ts[1]))], rest))
        else
          var rest :- Scan(ts[1..], false, assignment);
          Success(AddNamed(Bare(ns), rest))
      case Assignment(n, v) =>
        var rest :- Scan(ts[1..], false, assignment);
        Success(AddNamed([NamedArg(n, Some(v))], rest))
      case Rejected(e) => Failure(e)
  }

  function Occurs(name: string, named: seq<NamedArg>): (r: bool)
    ensures r <==> exists j :: 0 <= j < |named| && named[j].name == name
  {
    if |named| == 0 then false
    else named[0].name == name || Occurs(name, named[1..])
  }

  predicate WellFormed(named: seq<NamedArg>) {
    && (forall i :: 0 <= i < |named| ==> ValidAlias(named[i].name))
    && (forall i, j :: 0 <= i < j < |named| ==> named[i].name != named[j].name)
  }

  /** The first flag name that is not a valid alias or that is repeated. */
  function CheckNames(named: seq<NamedArg>): (r: Option<Error>)
    ensures r.None? <==> WellFormed(named)
  {
    if |named| == 0 then None
    else if !ValidAlias(named[0].name) then Some(InvalidFlag(named[0].name))
    else if Occurs(named[0].name, named[1..]) then Some(RepeatedFlag(named[0].name))
    else
      var r := CheckNames(named[1..]);
      assert r.None? ==> WellFormed(named) by {
        if r.None? {
          forall i, j | 0 <= i < j < |named|
            ensures named[i].name != named[j].name
          {
            if i > 0 {
              assert named[1..][i - 1] == named[i] && named[1..][j - 1] == named[j];
            } else {
              assert named[1..][j - 1] == named[j];
            }
          }
        }
      }
      assert WellFormed(named) ==> r.None? by {
        if WellFormed(named) {
          assert forall i :: 0 <= i < |named| - 1 ==> named[1..][i] == named[i + 1];
        }
      }
      r
  }

  /** Builds the token lists from the full argument vector (the program name
      first), refusing malformed tokens, invalid flag names and repeated flags. */
  function Tokenize(argv: seq<string>, assignment: set<string>): (r: Result<Tokens, Error>)
    ensures r.Success? ==> WellFormed(r.value.named)
  {
    var args := if |argv| == 0 then [] else argv[1..];
    var t :- Scan(args, false, assignment);
    match CheckNames(t.named)
    case Some(e) => Failure(e)
    case None => Success(t)
  }

  // ---------------------------------------------------------------------------
  // Properties

  /** After the separator every token is positional, verbatim and in order. */
  lemma {:induction false} AfterSeparator(ts: seq<string>, assignment: set<string>)
    ensures Scan(ts, true, assignment) == Success(Tokens(ts, []))
    decreases |ts|
  {
    if |ts| > 0 {
      AfterSeparator(ts[1..], assignment);
      assert [ts[0]] + ts[1..] == ts;
    }
  }

  function AppendPositional(r: Result<Tokens, Error>, post: seq<string>): Result<Tokens, Error> {
    match r
    case Success(t) => Success(t.(positional := t.positional + post))
    case Failure(e) => Failure(e)
  }

  /** The first `--` splits the command line: the tokens before it are read
      as if they were the whole line, and every token after it is appended to
      the positional values; `--` itself is dropped. */
  lemma {:induction false} SeparatorSplits(pre: seq<string>, post: seq<string>, assignment: set<string>)
    requires forall i :: 0 <= i < |pre| ==> pre[i] != "--"
    ensures Scan(pre + ["--"] + post, false, assignment) ==
      AppendPositional(Scan(pre, false, assignment), post)
    decreases |pre|
  {
    var ts := pre + ["--"] + post;
    if |pre| == 0 {
      assert ts[0] == "--" && ts[1..] == post;
      assert Lex(ts[0]) == Separator;
      AfterSeparator(post, assignment);
      assert Tokens([], []).positional + post == post;
    } else {
      assert ts[0] == pre[0] && ts[1..] == pre[1..] + ["--"] + post;
      match Lex(pre[0])
      case Separator =>
        assert false;
      case Plain(v) =>
        SeparatorSplits(pre[1..], post, assignment);
        var r := Scan(pre[1..], false, assignment);
        if r.Success? {
          assert [v] + (r.value.positional + post) == ([v] + r.value.positional) + post;
        }
      case Flags(ns) =>
        if |ns| == 1 && ns[0] in assignment && |pre| > 1 && Lex(pre[1]).Plain? {
          assert ts[1] == pre[1] && ts[2..] == pre[2..] + ["--"] + post;
          SeparatorSplits(pre[2..], post, assignment);
        } else {
          assert |pre| == 1 ==> ts[1] == "--";
          SeparatorSplits(pre[1..], post, assignment);
        }
      case Assignment(n, v) =>
        SeparatorSplits(pre[1..], post, assignment);
      case Rejected(e) =>
    }
  }

  /** In an assignment token only the first `=` separates the name from the
      value: every later `=` belongs to the value. */
  lemma AssignmentSplitsAtFirstEquals(name: string, value: string)
    requires ValidAlias(name)
    requires forall i :: 0 <= i < |name| ==> name[i] != '='
    ensures Lex(name + "=" + value) == Assignment(name, value)
  {
    var t := name + "=" + value;
    var h := if ValidShort(name) then 1 else 2;
    assert t[h] == name[h] && t[h] != '-';
    assert forall i :: 0 <= i < h ==> t[i] == '-';
    assert LeadingHyphens(t) == h;
    assert t[|name|] == '=';
    assert IndexOf(t, '=') == Some(|name|);
    assert t[..|name|] == name && t[|name| + 1..] == value;
  }

  /** A single-hyphen cluster without `=` whose first letter is not a digit
      names one flag per letter. */
  lemma ClusterExpands(cluster: string)
    requires |cluster| > 0 && cluster[0] != '-' && !IsDigit(cluster[0])
    requires forall i :: 0 <= i < |cluster| ==> cluster[i] != '='
    ensures Lex("-" + cluster) == Flags(Expand(cluster))
  {
    var t := "-" + cluster;
    assert t[1] == cluster[0];
    assert LeadingHyphens(t) == 1;
    assert IndexOf(t, '=').None?;
    assert t[1..] == cluster;
  }
}

=== FILE: tokenizer_cases.dfy ===
/** The command lines of the library's tests, read by the tokenizer. Each
    lemma states the positional values and the named arguments a command line
    yields, or that the tokenizer refuses it. */
module TokenizerCases {
  import opened Wrappers
  import opened Errors
  import opened Text
  import opened Identifiers
  import opened Tokenizer
  import opened Evaluation
  import opened CommandLines

  /** The argument vector of a test: the program name, then `args`. */
  function Argv(args: seq<string>): seq<string> {
    ["./run_tests"] + args
  }

  lemma ArgvTail(args: seq<string>)
    ensures Argv(args)[1..] == args
  {
  }

  /** A long flag needs at least two letters. */
  lemma {:induction false} RefusedShortLong()
    ensures Tokenize(Argv(["--i"]), {}).Failure?
  {
    ArgvTail(["--i"]);
    assert Lex("--i") == Flags(["--i"]) by {
      assert LeadingHyphens("--i") == 2;
    }
    ScanEmpty({});
    assert ["--i"][1..] == [];
    var t := Tokens([], [NamedArg("--i", None)]);
    ScanFlag(["--i"], {}, Tokens([], []), t);
    assert !ValidAlias(t.named[0].name);
    TokenizeRefuses(Argv(["--i"]), {}, t);
  }

  /** A cluster of short flags takes no value. */
  lemma {:induction false} RefusedClusterValue()
    ensures Tokenize(Argv(["-ab=0"]), {}).Failure?
  {
    assert Lex("-ab=0").Rejected? by {
      assert LeadingHyphens("-ab=0") == 1;
      assert IndexOf("-ab=0", '=') == Some(3);
    }
    TokenizeRejects(Argv(["-ab=0"]), {});
  }

  /** Three leading hyphens are refused. */
  lemma {:induction false} RefusedHyphens()
    ensures Tokenize(Argv(["---x"]), {}).Failure?
  {
    assert LeadingHyphens("---x") == 3;
    TokenizeRejects(Argv(["---x"]), {});
  }

  lemma {:induction false} RepeatedInCluster()
    ensures Tokenize(Argv(["-aa"]), {}).Failure?
  {
    ScanEmpty({});
    ArgvTail(["-aa"]);
    ClusterExpands("aa");
    assert "-" + "aa" == "-aa";
    assert Expand("aa") == ["-a", "-a"];
    assert ["-aa"][1..] == [];
    var t := Tokens([], [NamedArg("-a", None), NamedArg("-a", None)]);
    ScanCluster(["-aa"], {}, ["-a", "-a"], Tokens([], []), t);
    assert t.named[0].name == t.named[1].name;
    TokenizeRefuses(Argv(["-aa"]), {}, t);
  }

  lemma {:induction false} RepeatedAssignmentScan()
    ensures Scan(["-x=0", "-x", "0"], false, {}) == Success(Tokens(["0"], [NamedArg("-x", Some("0")), NamedArg("-x", None)]))
  {
    var ts := ["-x=0", "-x", "0"];
    ScanEmpty({});
    LexAssignment("-x=0", "-x", "0");
    LexShort("-x");
    LexPlain("0");
    assert ts[2..] == ["0"] && ["0"][1..] == [] && ts[1..][1..] == ["0"];
    var t2 := Tokens(["0"], []);
    ScanValue(["0"], {}, Tokens([], []), t2);
    var t1 := Tokens(["0"], [NamedArg("-x", None)]);
    ScanFlag(ts[1..], {}, t2, t1);
    ScanAssignment(ts, {}, "-x", "0", t1, Tokens(["0"], [NamedArg("-x", Some("0")), NamedArg("-x", None)]));
  }

  lemma {:induction false} RepeatedAssignment()
    ensures Tokenize(Argv(["-x=0", "-x", "0"]), {}).Failure?
  {
    var ts := ["-x=0", "-x", "0"];
    ArgvTail(ts);
    RepeatedAssignmentScan();
    var t0 := Tokens(["0"], [NamedArg("-x", Some("0")), NamedArg("-x", None)]);
    assert t0.named[0].name == t0.named[1].name;
    TokenizeRefuses(Argv(ts), {}, t0);
  }

  lemma {:induction false} RepeatedFlag()
    ensures Tokenize(Argv(["--flag", "--flag"]), {}).Failure?
  {
    var fs := ["--flag", "--flag"];
    ScanEmpty({});
    ArgvTail(fs);
    LexLong("--flag");
    assert fs[1..][1..] == [];
    var f1 := Tokens([], [NamedArg("--flag", None)]);
    ScanFlag(fs[1..], {}, Tokens([], []), f1);
    var f0 := Tokens([], [NamedArg("--flag", None), NamedArg("--flag", None)]);
    ScanFlag(fs, {}, f1, f0);
    assert f0.named[0].name == f0.named[1].name;
    TokenizeRefuses(Argv(fs), {}, f0);
  }

  const ClusterPieces := [Lone("-a"), Cluster("bcd")]

  lemma ClusterPiecesRead()
    ensures Render(ClusterPieces) == ["-a", "-bcd"]
    ensures Reading(ClusterPieces) == Tokens([], [NamedArg("-a", None), NamedArg("-b", None), NamedArg("-c", None), NamedArg("-d", None)])
    ensures WellShaped(ClusterPieces, {})
  {
    var ps := ClusterPieces;
    assert "-" + "bcd" == "-bcd";
    assert Render(ps[1..]) == ["-bcd"];
    assert Expand("bcd") == ["-b", "-c", "-d"];
    assert WellShaped(ps[1..], {});
  }

  lemma NamesOfFlagsAndCluster()
    ensures WellFormed([NamedArg("-a", None), NamedArg("-b", None), NamedArg("-c", None), NamedArg("-d", None)])
  {
  }

  lemma {:induction false} FlagsAndCluster()
    ensures Tokenize(Argv(["-a", "-bcd"]), {}) ==
      Success(Tokens([], [NamedArg("-a", None), NamedArg("-b", None), NamedArg("-c", None), NamedArg("-d", None)]))
  {
    ClusterPiecesRead();
    NamesOfFlagsAndCluster();
    TokenizeRender("./run_tests", ClusterPieces, {});
  }

  lemma {:induction false} Equations()
    ensures Tokenize(Argv(["-a=b", "--abc=xy", "-x=y=z"]), {}) ==
      Success(Tokens([], [NamedArg("-a", Some("b")), NamedArg("--abc", Some("xy")), NamedArg("-x", Some("y=z"))]))
  {
    var ps := [Assign("-a", "b"), Assign("--abc", "xy"), Assign("-x", "y=z")];
    assert "-a" + "=" + "b" == "-a=b";
    assert "--abc" + "=" + "xy" == "--abc=xy";
    assert "-x" + "=" + "y=z" == "-x=y=z";
    assert Render(ps[2..]) == ["-x=y=z"];
    assert Render(ps[1..]) == ["--abc=xy", "-x=y=z"];
    assert Render(ps) == ["-a=b", "--abc=xy", "-x=y=z"];
    assert Reading(ps) == Tokens([], [NamedArg("-a", Some("b")), NamedArg("--abc", Some("xy")), NamedArg("-x", Some("y=z"))]);
    assert WellShaped(ps, {});
    TokenizeRender("./run_tests", ps, {});
  }

  lemma {:induction false} AssignmentThenValue()
    ensures Tokenize(Argv(["-a=b", "123"]), {}) == Success(Tokens(["123"], [NamedArg("-a", Some("b"))]))
  {
    var ps := [Assign("-a", "b"), Value("123")];
    assert "-a" + "=" + "b" == "-a=b";
    assert Render(ps) == ["-a=b", "123"];
    assert Reading(ps) == Tokens(["123"], [NamedArg("-a", Some("b"))]);
    assert WellShaped(ps, {});
    TokenizeRender("./run_tests", ps, {});
  }

  /** Values only; `a` is any set of assignment arguments. */
  lemma {:induction false} Values(a: set<string>, vs: seq<string>)
    requires forall i :: 0 <= i < |vs| ==> |vs[i]| > 0 && vs[i][0] != '-'
    ensures Tokenize(Argv(vs), a) == Success(Tokens(vs, []))
    decreases |vs|
  {
    var ps := seq(|vs|, i requires 0 <= i < |vs| => Value(vs[i]));
    ValuesRender(vs, a);
    TokenizeRender("./run_tests", ps, a);
  }

  lemma {:induction false} ValuesRender(vs: seq<string>, a: set<string>)
    requires forall i :: 0 <= i < |vs| ==> |vs[i]| > 0 && vs[i][0] != '-'
    ensures var ps := seq(|vs|, i requires 0 <= i < |vs| => Value(vs[i]));
      Render(ps) == vs && Reading(ps) == Tokens(vs, []) && WellShaped(ps, a)
    decreases |vs|
  {
    var ps := seq(|vs|, i requires 0 <= i < |vs| => Value(vs[i]));
    if |vs| > 0 {
      ValuesRender(vs[1..], a);
      assert ps[1..] == seq(|vs[1..]|, i requires 0 <= i < |vs[1..]| => Value(vs[1..][i]));
      assert [vs[0]] + vs[1..] == vs;
    }
  }

  /** Without assignment arguments a bare flag does not take the value after it. */
  lemma {:induction false} BareFlagThenValue(a: set<string>, x: string)
    requires "-x" !in a && |x| > 0 && x[0] != '-'
    ensures Tokenize(Argv(["-x", x]), a) == Success(Tokens([x], [NamedArg("-x", None)]))
  {
    var ps := [Lone("-x"), Value(x)];
    assert Render(ps[1..]) == [x];
    assert Reading(ps[1..]) == Tokens([x], []);
    assert WellShaped(ps[1..], a);
    assert Render(ps) == ["-x", x];
    assert Reading(ps) == Tokens([x], [NamedArg("-x", None)]);
    assert WellShaped(ps, a);
    TokenizeRender("./run_tests", ps, a);
  }

  /** An assignment argument given bare takes the value after it. */
  lemma {:induction false} JoinedFlag(a: set<string>)
    requires "-x" in a
    ensures Tokenize(Argv(["-x", "1"]), a) == Success(Tokens([], [NamedArg("-x", Some("1"))]))
  {
    var ps := [Joined("-x", "1")];
    assert Render(ps) == ["-x", "1"];
    assert Reading(ps) == Tokens([], [NamedArg("-x", Some("1"))]);
    assert WellShaped(ps, a);
    TokenizeRender("./run_tests", ps, a);
  }

  /** A help flag alone, or followed by a value. */
  lemma {:induction false} HelpLines(h: string)
    requires h == "-h" || h == "--help"
    ensures Tokenize(Argv([h]), {}) == Success(Tokens([], [NamedArg(h, None)]))
    ensures Tokenize(Argv([h, "1"]), {}) == Success(Tokens(["1"], [NamedArg(h, None)]))
  {
    var ps := [Lone(h)];
    assert Render(ps) == [h];
    assert Reading(ps) == Tokens([], [NamedArg(h, None)]);
    assert WellShaped(ps, {});
    TokenizeRender("./run_tests", ps, {});
    var qs := [Lone(h), Value("1")];
    assert Render(qs[1..]) == ["1"];
    assert Reading(qs[1..]) == Tokens(["1"], []);
    assert WellShaped(qs[1..], {});
    assert Render(qs) == [h, "1"];
    assert Reading(qs) == Tokens(["1"], [NamedArg(h, None)]);
    assert WellShaped(qs, {});
    TokenizeRender("./run_tests", qs, {});
  }

  lemma {:induction false} HelpAndFlag()
    ensures Tokenize(Argv(["-h", "-i", "1"]), {}) ==
      Success(Tokens(["1"], [NamedArg("-h", None), NamedArg("-i", None)]))
  {
    var ps := [Lone("-h"), Lone("-i"), Value("1")];
    assert Render(ps) == ["-h", "-i", "1"];
    assert Reading(ps) == Tokens(["1"], [NamedArg("-h", None), NamedArg("-i", None)]);
    assert WellShaped(ps, {});
    TokenizeRender("./run_tests", ps, {});
  }

  /** A command line that is one assignment `n=v`. */
  lemma {:induction false} SingleAssignment(n: string, v: string)
    requires ValidAlias(n) && NoEquals(n)
    ensures Tokenize(Argv([n + "=" + v]), {}) == Success(Tokens([], [NamedArg(n, Some(v))]))
  {
    var ps := [Assign(n, v)];
    assert n + "=" + v == n + "=" + v;
    assert Render(ps) == [n + "=" + v];
    assert Reading(ps) == Tokens([], [NamedArg(n, Some(v))]);
    assert WellShaped(ps, {});
    TokenizeRender("./run_tests", ps, {});
  }

  const CorrectPieces := [Lone("--bool1"), Assign("-i", "1"), Assign("-f", "2.0"), Assign("-s", "test"), Value("1")]

  lemma CorrectParsingTail()
    ensures Render(CorrectPieces[2..]) == ["-f=2.0", "-s=test", "1"]
    ensures Reading(CorrectPieces[2..]) == Tokens(["1"], [NamedArg("-f", Some("2.0")), NamedArg("-s", Some("test"))])
    ensures WellShaped(CorrectPieces[2..], {})
  {
    var ps := CorrectPieces;
    assert "-f" + "=" + "2.0" == "-f=2.0";
    assert "-s" + "=" + "test" == "-s=test";
    assert Render(ps[4..]) == ["1"];
    assert Reading(ps[4..]) == Tokens(["1"], []);
    assert WellShaped(ps[4..], {});
    assert Render(ps[3..]) == ["-s=test", "1"];
    assert Reading(ps[3..]) == Tokens(["1"], [NamedArg("-s", Some("test"))]);
    assert WellShaped(ps[3..], {});
  }

  lemma CorrectParsingPieces()
    ensures Render(CorrectPieces) == ["--bool1", "-i=1", "-f=2.0", "-s=test", "1"]
    ensures Reading(CorrectPieces) == Tokens(["1"], [NamedArg("--bool1", None), NamedArg("-i", Some("1")), NamedArg("-f", Some("2.0")), NamedArg("-s", Some("test"))])
    ensures WellShaped(CorrectPieces, {})
  {
    var ps := CorrectPieces;
    CorrectParsingTail();
    assert "-i" + "=" + "1" == "-i=1";
    assert Render(ps[1..]) == ["-i=1", "-f=2.0", "-s=test", "1"];
    assert Reading(ps[1..]) == Tokens(["1"], [NamedArg("-i", Some("1")), NamedArg("-f", Some("2.0")), NamedArg("-s", Some("test"))]);
    assert WellShaped(ps[1..], {});
  }

  lemma NamesOfCorrectParsing()
    ensures WellFormed([NamedArg("--bool1", None), NamedArg("-i", Some("1")), NamedArg("-f", Some("2.0")), NamedArg("-s", Some("test"))])
  {
  }

  lemma {:induction false} CorrectParsing()
    ensures Tokenize(Argv(["--bool1", "-i=1", "-f=2.0", "-s=test", "1"]), {}) ==
      Success(Tokens(["1"], [NamedArg("--bool1", None), NamedArg("-i", Some("1")),
                             NamedArg("-f", Some("2.0")), NamedArg("-s", Some("test"))]))
  {
    CorrectParsingPieces();
    NamesOfCorrectParsing();
    TokenizeRender("./run_tests", CorrectPieces, {});
  }

  lemma {:induction false} ThreeAssignments(f: string)
    ensures Tokenize(Argv(["-i=1", "-f=" + f, "-s=test"]), {}) ==
      Success(Tokens([], [NamedArg("-i", Some("1")), NamedArg("-f", Some(f)), NamedArg("-s", Some("test"))]))
  {
    var ps := [Assign("-i", "1"), Assign("-f", f), Assign("-s", "test")];
    assert "-i" + "=" + "1" == "-i=1";
    assert "-f" + "=" + f == "-f=" + f;
    assert "-s" + "=" + "test" == "-s=test";
    assert Render(ps[2..]) == ["-s=test"];
    assert Reading(ps[2..]) == Tokens([], [NamedArg("-s", Some("test"))]);
    assert WellShaped(ps[2..], {});
    assert Render(ps[1..]) == ["-f=" + f, "-s=test"];
    assert Reading(ps[1..]) == Tokens([], [NamedArg("-f", Some(f)), NamedArg("-s", Some("test"))]);
    assert WellShaped(ps[1..], {});
    assert Render(ps) == ["-i=1", "-f=" + f, "-s=test"];
    assert Reading(ps) == Tokens([], [NamedArg("-i", Some("1")), NamedArg("-f", Some(f)), NamedArg("-s", Some("test"))]);
    assert WellShaped(ps, {});
    TokenizeRender("./run_tests", ps, {});
  }

  lemma {:induction false} ValueAssignmentValue()
    ensures Tokenize(Argv(["0", "-x=3", "1"]), {}) == Success(Tokens(["0", "1"], [NamedArg("-x", Some("3"))]))
  {
    var ps := [Value("0"), Assign("-x", "3"), Value("1")];
    assert "-x" + "=" + "3" == "-x=3";
    assert Render(ps[2..]) == ["1"];
    assert Reading(ps[2..]) == Tokens(["1"], []);
    assert WellShaped(ps[2..], {});
    assert Render(ps[1..]) == ["-x=3", "1"];
    assert Reading(ps[1..]) == Tokens(["1"], [NamedArg("-x", Some("3"))]);
    assert WellShaped(ps[1..], {});
    assert Render(ps) == ["0", "-x=3", "1"];
    assert Reading(ps) == Tokens(["0", "1"], [NamedArg("-x", Some("3"))]);
    assert WellShaped(ps, {});
    TokenizeRender("./run_tests", ps, {});
  }

  lemma {:induction false} SeparatorAlone()
    ensures Tokenize(Argv(["--"]), {}) == Success(Tokens([], []))
  {
    ScanEmpty({});
    SeparatorSplits([], [], {});
    assert [] + ["--"] + [] == ["--"];
    ArgvTail(["--"]);
    TokenizeScan(Argv(["--"]), {}, Tokens([], []));
  }

  /** Everything after `--` is positional, even tokens that look like flags. */
  lemma DoubleDashPrefix()
    ensures Scan(["--flag1", "name0"], false, {}) == Success(Tokens(["name0"], [NamedArg("--flag1", None)]))
  {
    var ps := [Lone("--flag1"), Value("name0")];
    assert Render(ps[1..]) == ["name0"];
    assert Render(ps) == ["--flag1", "name0"];
    assert Reading(ps) == Tokens(["name0"], [NamedArg("--flag1", None)]);
    assert WellShaped(ps[1..], {});
    assert WellShaped(ps, {});
    ScanRender(ps, {});
  }

  lemma DoubleDashSplit()
    ensures ["--flag1", "name0"] + ["--"] + ["name1", "-name2", "--name3", "---name4"] ==
      ["--flag1", "name0", "--", "name1", "-name2", "--name3", "---name4"]
    ensures ["name0"] + ["name1", "-name2", "--name3", "---name4"] == ["name0", "name1", "-name2", "--name3", "---name4"]
  {
  }

  lemma DoubleDashScan()
    ensures Scan(["--flag1", "name0", "--", "name1", "-name2", "--name3", "---name4"], false, {}) ==
      Success(Tokens(["name0", "name1", "-name2", "--name3", "---name4"], [NamedArg("--flag1", None)]))
  {
    var pre := ["--flag1", "name0"];
    var post := ["name1", "-name2", "--name3", "---name4"];
    DoubleDashSplit();
    assert pre[0] != "--" && pre[1] != "--";
    SeparatorSplits(pre, post, {});
    DoubleDashPrefix();
  }

  lemma {:induction false} DoubleDash()
    ensures Tokenize(Argv(["--flag1", "name0", "--", "name1", "-name2", "--name3", "---name4"]), {}) ==
      Success(Tokens(["name0", "name1", "-name2", "--name3", "---name4"], [NamedArg("--flag1", None)]))
  {
    var ts := ["--flag1", "name0", "--", "name1", "-name2", "--name3", "---name4"];
    ArgvTail(ts);
    DoubleDashScan();
    TokenizeScan(Argv(ts), {}, Tokens(["name0", "name1", "-name2", "--name3", "---name4"], [NamedArg("--flag1", None)]));
  }

  /** A negative number as a positional value and as an assigned value. */
  lemma {:induction false} NegativeValues(p: string, v: string)
    requires |p| >= 2 && p[0] == '-' && IsDigit(p[1])
    ensures Tokenize(Argv([p, "-a=" + v]), {}) == Success(Tokens([p], [NamedArg("-a", Some(v))]))
  {
    var ps := [Value(p), Assign("-a", v)];
    assert "-a" + "=" + v == "-a=" + v;
    assert Render(ps[1..]) == ["-a=" + v];
    assert Reading(ps[1..]) == Tokens([], [NamedArg("-a", Some(v))]);
    assert WellShaped(ps[1..], {});
    assert Render(ps) == [p, "-a=" + v];
    assert Reading(ps) == Tokens([p], [NamedArg("-a", Some(v))]);
    assert WellShaped(ps, {});
    TokenizeRender("./run_tests", ps, {});
  }

  const Overflow := "100000000000000000000000000000000000000"

  /** Four long assignments, as in the integer-range test. */
  const PrecisionPieces := [Assign("--65535", "65535"), Assign("--65536", "65536"), Assign("--permitted", "1000000000000"), Assign("--overflow", Overflow)]

  lemma PrecisionTail()
    ensures Render(PrecisionPieces[2..]) == ["--permitted=1000000000000", "--overflow=" + Overflow]
    ensures Reading(PrecisionPieces[2..]) == Tokens([], [NamedArg("--permitted", Some("1000000000000")), NamedArg("--overflow", Some(Overflow))])
    ensures WellShaped(PrecisionPieces[2..], {})
  {
    var ps := PrecisionPieces;
    assert "--permitted" + "=" + "1000000000000" == "--permitted=1000000000000";
    assert "--overflow" + "=" + Overflow == "--overflow=" + Overflow;
    assert Render(ps[3..]) == ["--overflow=" + Overflow];
    assert Reading(ps[3..]) == Tokens([], [NamedArg("--overflow", Some(Overflow))]);
    assert WellShaped(ps[3..], {});
  }

  lemma PrecisionPiecesRead()
    ensures Render(PrecisionPieces) == ["--65535=65535", "--65536=65536", "--permitted=1000000000000", "--overflow=" + Overflow]
    ensures Reading(PrecisionPieces) == Tokens([], [NamedArg("--65535", Some("65535")), NamedArg("--65536", Some("65536")), NamedArg("--permitted", Some("1000000000000")), NamedArg("--overflow", Some(Overflow))])
    ensures WellShaped(PrecisionPieces, {})
  {
    var ps := PrecisionPieces;
    PrecisionTail();
    assert "--65535" + "=" + "65535" == "--65535=65535";
    assert "--65536" + "=" + "65536" == "--65536=65536";
    assert Render(ps[1..]) == ["--65536=65536", "--permitted=1000000000000", "--overflow=" + Overflow];
    assert Reading(ps[1..]) == Tokens([], [NamedArg("--65536", Some("65536")), NamedArg("--permitted", Some("1000000000000")), NamedArg("--overflow", Some(Overflow))]);
    assert WellShaped(ps[1..], {});
  }

  lemma NamesOfPrecision()
    ensures WellFormed([NamedArg("--65535", Some("65535")), NamedArg("--65536", Some("65536")), NamedArg("--permitted", Some("1000000000000")), NamedArg("--overflow", Some(Overflow))])
  {
  }

  lemma {:induction false} Precision()
    ensures Tokenize(Argv(["--65535=65535", "--65536=65536", "--permitted=1000000000000", "--overflow=" + Overflow]), {}) ==
      Success(Tokens([], [NamedArg("--65535", Some("65535")), NamedArg("--65536", Some("65536")),
                          NamedArg("--permitted", Some("1000000000000")), NamedArg("--overflow", Some(Overflow))]))
  {
    PrecisionPiecesRead();
    NamesOfPrecision();
    TokenizeRender("./run_tests", PrecisionPieces, {});
  }

  /** Values that begin with hyphens: a negative number after a joined flag,
      and assignment values with one, two or three hyphens. */
  const DashedPieces := [Joined("-x", "-1"), Assign("-y", "-1"), Assign("-z", "-name"), Assign("-w", "--name"), Assign("-q", "---name")]

  lemma DashedTail(a: set<string>)
    ensures Render(DashedPieces[2..]) == ["-z=-name", "-w=--name", "-q=---name"]
    ensures Reading(DashedPieces[2..]) == Tokens([], [NamedArg("-z", Some("-name")), NamedArg("-w", Some("--name")), NamedArg("-q", Some("---name"))])
    ensures WellShaped(DashedPieces[2..], a)
  {
    var ps := DashedPieces;
    assert "-z" + "=" + "-name" == "-z=-name";
    assert "-w" + "=" + "--name" == "-w=--name";
    assert "-q" + "=" + "---name" == "-q=---name";
    assert Render(ps[4..]) == ["-q=---name"];
    assert Reading(ps[4..]) == Tokens([], [NamedArg("-q", Some("---name"))]);
    assert WellShaped(ps[4..], a);
    assert Render(ps[3..]) == ["-w=--name", "-q=---name"];
    assert Reading(ps[3..]) == Tokens([], [NamedArg("-w", Some("--name")), NamedArg("-q", Some("---name"))]);
    assert WellShaped(ps[3..], a);
  }

  lemma DashedPiecesRead(a: set<string>)
    requires "-x" in a
    ensures Render(DashedPieces) == ["-x", "-1", "-y=-1", "-z=-name", "-w=--name", "-q=---name"]
    ensures Reading(DashedPieces) == Tokens([], [NamedArg("-x", Some("-1")), NamedArg("-y", Some("-1")), NamedArg("-z", Some("-name")), NamedArg("-w", Some("--name")), NamedArg("-q", Some("---name"))])
    ensures WellShaped(DashedPieces, a)
  {
    var ps := DashedPieces;
    DashedTail(a);
    assert "-y" + "=" + "-1" == "-y=-1";
    assert Render(ps[1..]) == ["-y=-1", "-z=-name", "-w=--name", "-q=---name"];
    assert Reading(ps[1..]) == Tokens([], [NamedArg("-y", Some("-1")), NamedArg("-z", Some("-name")), NamedArg("-w", Some("--name")), NamedArg("-q", Some("---name"))]);
    assert WellShaped(ps[1..], a);
  }

  lemma NamesOfDashedValues()
    ensures WellFormed([NamedArg("-x", Some("-1")), NamedArg("-y", Some("-1")), NamedArg("-z", Some("-name")), NamedArg("-w", Some("--name")), NamedArg("-q", Some("---name"))])
  {
  }

  lemma {:induction false} DashedValues(a: set<string>)
    requires "-x" in a
    ensures Tokenize(Argv(["-x", "-1", "-y=-1", "-z=-name", "-w=--name", "-q=---name"]), a) ==
      Success(Tokens([], [NamedArg("-x", Some("-1")), NamedArg("-y", Some("-1")), NamedArg("-z", Some("-name")),
                          NamedArg("-w", Some("--name")), NamedArg("-q", Some("---name"))]))
  {
    DashedPiecesRead(a);
    NamesOfDashedValues();
    TokenizeRender("./run_tests", DashedPieces, a);
  }
}

=== FILE: wrappers.dfy ===
/** Failure-compatible Option and Result datatypes used throughout the model.
    Every usage error of the library is a `Failure` value here instead of a
    process exit. */
module Wrappers {

  datatype Option<+T> = None | Some(value: T) {

    predicate IsFailure() {
      None?
    }

    function PropagateFailure<U>(): Option<U>
      requires None?
    {
      None
    }

    function Extract(): T
      requires Some?
    {
      value
    }
  }

  datatype Result<+T, +E> = Success(value: T) | Failure(error: E) {

    predicate IsFailure() {
      Failure?
    }

    function PropagateFailure<U>(): Result<U, E>
      requires Failure?
    {
      Failure(error)
    }

    function Extract(): T
      requires Success?
    {
      value
    }
  }
}
